=== FILE: README.md ===
# fin-tracker: a verified model of the ledger, portfolio, budget and helper core

fin-tracker is a personal-finance tracker: an Express/knex web API over
SQLite plus a React front end. Users keep **accounts**. Each account has an
initial balance and a log of **transactions** of type INCOME, EXPENSE or
TRANSFER. Transactions can carry an Income/Expense **category**. Stock
**trades** are booked against an account. The dashboard, category and budget
routes recompute every figure from these row logs.

This project restates that core in Dafny:

- The database becomes an in-memory `Store` of row sequences. Each `Row`
  carries an id, an owner, its data and a soft-delete flag.
- Every route handler becomes a pure function
  `Store × request → Reply(response, store')`. The response is either
  `Ok(value)` or `Fail(status, message)`, with the handler's own status
  codes and messages.
- Amounts, quantities and prices are exact `real`s. Dates are
  (year, month, day) triples. "Now" and "today" are parameters.

The modules follow the source:

| module | file | models |
|---|---|---|
| `Common`, `Schema`, `Rows`, `Folds`, `Ranking`, `Text` | common, schema, rows, folds, ranking, text | the result types, the row/store schema, `.first()` lookups, soft delete and restore, filter/sum/count folds, `ORDER BY … DESC LIMIT n`, `trim`/`toUpperCase` |
| `Ledger` | ledger.dfy | the balance formula shared by the accounts and dashboard routes |
| `Accounts` | accounts.dfy | `routes/accounts.js` |
| `Transactions` | transactions.dfy | `routes/transactions.js`: the filtered listing, create, transfer, update, group-cascading delete/restore, summary |
| `Categories` | categories.dfy | `routes/categories.js`: name uniqueness, soft delete/restore, stats, spending report |
| `Portfolio` | portfolio.dfy | `routes/portfolio.js`: the trade listing, the holdings fold, trade create with security find-or-create and companion transaction, trade delete/restore |
| `Dashboard` | dashboard.dfy | `routes/dashboard.js`: buckets, net worth, `getPortfolioSummary`, `getMonthlyTrends`, recent transactions, top categories |
| `Budgets` | budgets.dfy | `routes/budgets.js`: period windows, evaluation, status, the one-active-budget rule, the performance report |
| `Users` | users.dfy | `routes/users.js`: profile, profile update with uniqueness, stats |
| `Validation` | validation.dfy | `middleware/validation.js`: every validator chain and `handleValidationErrors` |
| `ErrorHandler` | error_handler.dfy | `middleware/errorHandler.js` |
| `DateHelpers` | date_helpers.dfy | `utils/dateHelpers.js`, and the JavaScript `Date` normalisation the routes rely on |
| `NumberHelpers` | number_helpers.dfy | `utils/numberHelpers.js` |
| `WebUtils` | web_utils.dfy | `webapp/src/lib/utils.ts` |

Where a source behaviour looked unintended, the model keeps two versions:

- the **as-written** version, with a lemma that exhibits the behaviour;
- a **corrected** version, with the intended invariant proved.

See "## Findings".

## Model

| member | source | states |
|---|---|---|
| Ledger.BalanceIsRunningSum | webapi/src/routes/accounts.js:21-32 | The route's separate INCOME and EXPENSE sums amount to one sum over the account's live rows of each row's signed effect: balance = initial balance + Σ signed amount. |
| Ledger.TransferLegsDoNotMoveBalances | webapi/src/routes/accounts.js:25-26 | Appending TRANSFER rows, live or deleted, changes no account's balance. |
| Ledger.BalanceIgnoresInertRows | webapi/src/routes/accounts.js:21-32 | Appending rows that are deleted, belong to other accounts or are transfers leaves the balance unchanged. |
| Ledger.BalanceDependsOnlyOnLiveRows | webapi/src/routes/accounts.js:23 | Two logs with the same live rows give every account the same balance. |
| Ledger.UntouchedAccountHasInitialBalance | webapi/src/routes/accounts.js:21-32 | An account no transaction refers to has exactly its initial balance. |
| Accounts.ListAccounts | webapi/src/routes/accounts.js:9-45 | Lists exactly the caller's live accounts. Each carries the ledger balance. |
| Accounts.TrashedAccounts | webapi/src/routes/accounts.js:48-59 | Lists exactly the caller's soft-deleted accounts. |
| Accounts.GetAccount | webapi/src/routes/accounts.js:62-95 | 404 "Account not found" iff the caller has no live account with the id. Otherwise returns that account with its ledger balance. |
| Accounts.CreateAccount | webapi/src/routes/accounts.js:98-121 | Always succeeds. Appends one live account under a fresh id; the reported balance is the initial balance, defaulting to 0. |
| Accounts.CreatedAccountBalanceIsInitial | webapi/src/routes/accounts.js:98-121 | When every transaction points at an existing account, the new account's ledger balance equals the initial balance the route reports. |
| Accounts.UpdateAccount | webapi/src/routes/accounts.js:124-173 | 404 iff there is no live account of the caller, and then nothing changes. Otherwise only that row changes: a falsy name or type keeps the stored one, and the initial balance never changes. |
| Accounts.DeleteAccount | webapi/src/routes/accounts.js:176-200 | 404 iff the account is unknown, foreign or already deleted. Otherwise only the deleted flags of rows with that id are set; transactions stay. |
| Accounts.RestoreAccount | webapi/src/routes/accounts.js:203-252 | 404 for an unknown or foreign account, 400 "Account is not deleted" for a live one. Otherwise the flag is cleared and the ledger balance is reported. |
| Accounts.AccountDeleteThenRestore | webapi/src/routes/accounts.js:176-252 | With unique ids, deleting a live account and restoring it returns the original store, reporting the balance it had. |
| Rows.Find | webapi/src/routes/accounts.js:64-72 | `.first()` of `WHERE id AND user_id [AND deleted_at IS NULL]`: the first matching index, and None iff no row matches. |
| Rows.SoftDelete | webapi/src/routes/categories.js:148-161 | The shared delete shape: 404 iff there is no live row of the caller with the id. Otherwise only the flags of rows with that id are set. |
| Rows.Restore | webapi/src/routes/categories.js:175-191 | The shared restore shape: 404 for a missing or foreign row, 400 for a live one, otherwise the flag is cleared. |
| Rows.DeleteThenRestore | webapi/src/routes/categories.js:143-202 | With unique ids, a successful delete followed by restore gives back exactly the original table. |
| Rows.NextId | webapi/src/routes/accounts.js:102-108 | The auto-increment key is larger than every existing id, so it is fresh. |
| Transactions.ListTransactions | webapi/src/routes/transactions.js:10-77 | Lists exactly the caller's live rows on a live account that pass the account, category, type and date filters. `pagination.total` is at least the number listed, and equals it iff no counted row sits on a deleted or missing account. |
| Transactions.HiddenRowIsCounted | webapi/src/routes/transactions.js:15-63 | A live transaction on a soft-deleted account is listed nowhere, yet the total is 1. |
| Transactions.ListTransactionsCounted | webapi/src/routes/transactions.js:10-77 | The same listing with the count taken over the same join: the total always equals the number of rows listed. |
| Transactions.CheckCategory | webapi/src/routes/transactions.js:152-169 | Passes iff no category is given, or the caller's live category whose type matches is given (INCOME for Income, EXPENSE otherwise). A missing category is 400 "Invalid category"; a mismatch is a 400. |
| Transactions.CreateTransaction | webapi/src/routes/transactions.js:129-201 | 400 "Invalid account" first, then the category errors; a failure leaves the store unchanged. On success appends exactly one live row under a fresh id, with amount \|amount\| and the date defaulting to today. |
| Transactions.Transfer | webapi/src/routes/transactions.js:204-284 | Errors in fixed order: invalid from-account, invalid to-account, then same account. On success appends exactly two TRANSFER legs with one fresh group id, on the from and to accounts, with equal \|amount\| and date. |
| Transactions.TransferKeepsBalances | webapi/src/routes/transactions.js:240-264 | After any transfer call, every account's balance is what it was. |
| Transactions.UpdateCheck | webapi/src/routes/transactions.js:311-341 | Refuses TRANSFER rows first, then a given account or category that is not the caller's live one. |
| Transactions.UpdateTransaction | webapi/src/routes/transactions.js:287-374 | 404 iff the row is not the caller's live one. Succeeds iff the checks pass. On success only that row's data changes: falsy fields kept, amount stored as \|amount\|. |
| Transactions.DeleteTransaction | webapi/src/routes/transactions.js:377-409 | 404 iff the row is missing, foreign or deleted. A transfer leg with a group deletes its whole group; any other row is deleted alone. |
| Transactions.RestoreTransaction | webapi/src/routes/transactions.js:412-474 | 404 for missing or foreign, 400 for live. A transfer leg un-deletes its whole group; any other row is restored alone. |
| Transactions.TransactionDeleteThenRestore | webapi/src/routes/transactions.js:377-474 | With unique ids and well-formed groups, delete then restore of any live row, transfer legs included, gives back exactly the original log. |
| Transactions.CreateKeepsGroups | webapi/src/routes/transactions.js:172-180 | Create preserves the group invariant: only TRANSFER rows carry a group, and a group's rows share one flag. |
| Transactions.TransferKeepsGroups | webapi/src/routes/transactions.js:240-264 | Transfer preserves the group invariant. |
| Transactions.UpdateKeepsGroups | webapi/src/routes/transactions.js:344-353 | Update preserves the group invariant. |
| Transactions.DeleteKeepsGroups | webapi/src/routes/transactions.js:381-404 | Delete preserves the group invariant. |
| Transactions.RestoreKeepsGroups | webapi/src/routes/transactions.js:431-469 | Restore preserves the group invariant. |
| Transactions.Summary | webapi/src/routes/transactions.js:477-513 | totalIncome and totalExpenses are the sums of the amounts of the caller's live INCOME and EXPENSE rows in the optional window and account. netIncome = totalIncome − totalExpenses. Each count is the number of in-scope rows of its type. |
| Transactions.SummaryNetIsSignedSum | webapi/src/routes/transactions.js:481-508 | netIncome is one sum over the in-scope rows of each row's signed effect (+ income, − expense, 0 transfer). |
| Transactions.SummaryCountsPartition | webapi/src/routes/transactions.js:489-508 | The three type counts add up to the number of the caller's live rows in the window and account: each row is counted exactly once. |
| Transactions.SummaryAgreesWithBalance | webapi/src/routes/transactions.js:481-508 | When every row on the account belongs to the caller, the undated summary of that account nets to its balance minus its initial balance. |
| Categories.ListCategories | webapi/src/routes/categories.js:9-27 | Exactly the caller's live categories, of the requested type when one is given. |
| Categories.CreateCategory | webapi/src/routes/categories.js:63-93 | 409 iff the caller already holds a live category with the name, and then nothing changes. Otherwise appends one live category under a fresh id. |
| Categories.UpdateCategory | webapi/src/routes/categories.js:96-140 | 404 for no live category of the caller, then 409 when another live category of the caller has the name. On success only that row changes, and an empty name keeps the old one. |
| Categories.DeleteCategory | webapi/src/routes/categories.js:143-167 | 404 iff there is no live category of the caller. Otherwise only the category's flag is set; transactions stay. |
| Categories.RestoreCategory | webapi/src/routes/categories.js:170-202 | 404 for unknown or foreign, 400 for live, otherwise the flag is cleared. There is no name check (as written). |
| Categories.RestoreCanDuplicateName | webapi/src/routes/categories.js:184-191 | Restoring a deleted "Food" while a live "Food" exists succeeds and breaks name uniqueness. |
| Categories.RestoreCategoryChecked | webapi/src/routes/categories.js:68-76 | The restore route with the create route's name check: additionally 409 when the name is taken. |
| Categories.CreateKeepsNamesUnique | webapi/src/routes/categories.js:68-82 | Create keeps live category names unique per user. |
| Categories.UpdateKeepsNamesUnique | webapi/src/routes/categories.js:113-129 | Update keeps live category names unique per user. |
| Categories.DeleteKeepsNamesUnique | webapi/src/routes/categories.js:148-161 | Delete keeps live category names unique per user. |
| Categories.RestoreCheckedKeepsNamesUnique | webapi/src/routes/categories.js:170-202 | The checked restore keeps live category names unique per user. |
| Categories.StatsOf | webapi/src/routes/categories.js:229-247 | COUNT and SUM of the rows. AVG·count = SUM, and MIN ≤ AVG ≤ MAX bound every amount. All are 0 for no rows. |
| Categories.TotalBounds | webapi/src/routes/categories.js:229-247 | n·lo ≤ SUM ≤ n·hi when every amount lies in [lo, hi]. |
| Categories.CategoryStatistics | webapi/src/routes/categories.js:205-252 | 404 iff there is no live category of the caller. Otherwise the figures are COUNT, SUM, AVG, MIN and MAX of the caller's live rows of that category in the optional window: MIN ≤ AVG ≤ MAX, every such row's amount lies in [MIN, MAX], and all are 0 when no row matches. |
| Categories.GroupKeys | webapi/src/routes/categories.js:259-272 | The GROUP BY keys are distinct live categories and cover the category of every joined row. |
| Categories.KeysHaveRows | webapi/src/routes/categories.js:259-272 | Every GROUP BY key has at least one joined row behind it. |
| Categories.Spending | webapi/src/routes/categories.js:255-290 | Lines sorted by non-increasing total, one per category. |
| Categories.SpendingLines | webapi/src/routes/categories.js:259-278 | Each line names a live category with at least one joined row, with that category's sum and count. |
| Categories.SpendingCoversRows | webapi/src/routes/categories.js:259-272 | Every live row of the requested type in the window, on a live category, appears under its category's line. |
| Categories.SpendingAddsUp | webapi/src/routes/categories.js:259-278 | The lines' totals sum to the total of all joined rows: nothing is dropped or counted twice. |
| Ranking.SortDesc | webapi/src/routes/categories.js:278 | `ORDER BY total DESC`: a sorted permutation of its input. |
| Ranking.TakeKeepsOrder | webapi/src/routes/dashboard.js:107-108 | `LIMIT n` of a sorted list is sorted and holds its largest keys. |
| Portfolio.Apply | webapi/src/routes/portfolio.js:204-216 | Defined for every BUY and every SELL of a non-negative quantity, zero included. A BUY adds q to the quantity and a SELL subtracts it; the trade count goes up by one. |
| Portfolio.Replay | webapi/src/routes/portfolio.js:184-217 | For trades whose sells are non-negative, folding adds their net quantities to the quantity and their number to the trade count. |
| Portfolio.ReplayAppend | webapi/src/routes/portfolio.js:184-217 | The fold over xs + ys is the fold over ys started from the fold over xs. |
| Portfolio.SellKeepsAverageCost | webapi/src/routes/portfolio.js:207-214 | A sell that leaves shares keeps invested/quantity unchanged, because the ratio's divisor is the quantity before the sell. |
| Portfolio.ClosingSellKeepsInvested | webapi/src/routes/portfolio.js:210 | A sell that leaves no shares does not change invested. |
| Portfolio.BuysOnlyReplay | webapi/src/routes/portfolio.js:204-206 | Buys only: quantity = Σq, invested = Σq·p, trade count = number of trades. |
| Portfolio.BuyThenPartialSell | webapi/src/routes/portfolio.js:204-214 | BUY 10@100 then SELL 4 at any price gives quantity 6, invested 600, two trades. |
| Portfolio.StaleCostAfterClose | webapi/src/routes/portfolio.js:210 | As written, BUY 10@100, SELL 10, BUY 5@50 reports 1250 invested (250 a share). |
| Portfolio.ResettingForgetsClosedHistory | webapi/src/routes/portfolio.js:207-214 | With the reset on close, trades after an exact close are valued as a fresh holding. |
| Portfolio.GroupTrades | webapi/src/routes/portfolio.js:185 | A group's trade list is non-empty iff some row has the key `security_id-account_name`. |
| Portfolio.Pass | webapi/src/routes/portfolio.js:182-217 | For rows whose sells are non-negative, the single-pass map has exactly the keys of the rows, each mapped to the fold of that key's own trades in row order. |
| Portfolio.KeyList | webapi/src/routes/portfolio.js:220 | The Map's keys, each once, in first-appearance order. |
| Portfolio.MakeHolding | webapi/src/routes/portfolio.js:222-226 | A returned holding carries the fold's figures, with average_cost_basis = invested/quantity. |
| Portfolio.Holdings | webapi/src/routes/portfolio.js:160-239 | Needs non-negative sells only among the caller's live trades on live accounts. Every returned holding is the fold of its group, holds shares and has the average cost. Every group with shares is returned once. |
| Portfolio.HoldingsSound | webapi/src/routes/portfolio.js:220-226 | Every collected holding comes from its own group's fold with quantity > 0. |
| Portfolio.HoldingsComplete | webapi/src/routes/portfolio.js:220-221 | The group of every row is listed when its fold still holds shares. |
| Portfolio.FindTicker | webapi/src/routes/portfolio.js:32-35 | The first live security with the ticker; None iff there is none. |
| Portfolio.FindOrCreateSecurity | webapi/src/routes/portfolio.js:31-44 | Reuses the live security of the upper-cased ticker. Otherwise appends exactly one new "Stock" under a fresh id, after which the lookup finds it. There is no security iff no live row holds the ticker but a soft-deleted one does, which breaks the UNIQUE ticker column (webapi/src/database/migrations/005_create_budgets_table.js:8). |
| Portfolio.CreateTrade | webapi/src/routes/portfolio.js:9-91 | 400 "Invalid account" iff the caller has no live account, and then nothing changes. A refused security insert is the error middleware's answer to the driver's UNIQUE error, and nothing changes. Otherwise appends one trade on the found or created security and one companion transaction on the same account and date: EXPENSE q·p for BUY, INCOME for SELL. |
| Portfolio.CreateTradeKeepsTickersUnique | webapi/src/routes/portfolio.js:31-44 | Every create call keeps the tickers of all securities, soft-deleted ones included, pairwise distinct. |
| Portfolio.TradeMovesBalance | webapi/src/routes/portfolio.js:57-69 | The trade's account moves by −q·p for a BUY and +q·p for a SELL. Every other account keeps its balance. |
| Portfolio.SameTickerSameSecurity | webapi/src/routes/portfolio.js:31-44 | A second trade on the same ticker in any letter case reuses the first trade's security and creates none. |
| Portfolio.ListTrades | webapi/src/routes/portfolio.js:94-157 | As written: 500 with the driver's "ambiguous column name: deleted_at" iff a ticker filter is given, as the error middleware answers it (webapi/src/middleware/errorHandler.js:5-8). Otherwise lists exactly the caller's live trades that join a security and a live account and pass the account and side filters; the total is at least the number listed, and equals it iff every counted trade joins both. |
| Portfolio.ListTradesQualified | webapi/src/routes/portfolio.js:94-157 | With the count's filter on `stock_trades.deleted_at`, every filter combination answers: the listing and total as above, the ticker filter matching the upper-cased ticker. |
| Portfolio.TickerFilterFails | webapi/src/routes/portfolio.js:131-139 | A caller with one live AAPL trade asking for "aapl" gets the 500 as written, and that trade with total 1 from the qualified count. |
| Portfolio.DeleteTrade | webapi/src/routes/portfolio.js:357-380 | 404 "Stock trade not found" iff there is no live trade of the caller. Otherwise only the trade's flag is set, and the companion transaction stays. |
| Portfolio.RestoreTrade | webapi/src/routes/portfolio.js:405-447 | 404 for unknown or foreign, 400 "Stock trade is not deleted" for live, otherwise the flag is cleared. |
| Portfolio.TradeDeleteThenRestore | webapi/src/routes/portfolio.js:357-447 | With unique trade ids, delete then restore returns the original store, and the delete moves no account balance. |
| Dashboard.BucketTotals | webapi/src/routes/dashboard.js:44-54 | Each total is the sum over the accounts whose type is in its list: cash over Bank, Cash, Checking and Savings, investments over Investment and Brokerage, liabilities over Loan, Credit and Debt by absolute balance, so liabilities is ≥ 0. |
| Dashboard.TotalsAreContributions | webapi/src/routes/dashboard.js:44-60 | cash + investments − liabilities is one sum of per-account contributions: each account counts once, and other types count zero. |
| Dashboard.TickerPass | webapi/src/routes/dashboard.js:158-185 | The ticker-keyed map has exactly the tickers of the rows, each with its net quantity. |
| Dashboard.ActiveTickers | webapi/src/routes/dashboard.js:187 | Exactly the tickers with positive net quantity, each once. |
| Dashboard.PortfolioSummaryOf | webapi/src/routes/dashboard.js:145-203 | On failure all zeros. Otherwise total_invested = Σ q·p of buys − Σ q·p of sells, total_value = total_invested, unrealized P/L is 0, and holdings_count = number of tickers with positive net quantity. |
| Dashboard.CashFlowSplit | webapi/src/routes/dashboard.js:175-184 | The running totalInvested is Σ q·p of buys minus Σ q·p of sells. |
| Dashboard.CashFlowIsNotCostBasis | webapi/src/routes/dashboard.js:175-184 | BUY 10@100, SELL 4@150: the dashboard reports 400 invested where the holdings fold carries 600. |
| Dashboard.Trends | webapi/src/routes/dashboard.js:206-243 | On failure empty. Otherwise six entries, oldest first, the i-th being i−5 months from today's month, each with net = income − expense. |
| Dashboard.MonthsBack | webapi/src/routes/dashboard.js:211-237 | The loop from i months back to 0 gives i+1 entries in month order, each that month's totals. |
| Dashboard.TrendIsCalendarMonth | webapi/src/routes/dashboard.js:212-229 | On real dates, each trend entry sums exactly the caller's live income, or expense, booked in its calendar month. |
| Dashboard.RecentRows | webapi/src/routes/dashboard.js:63-80 | At most 10 of the caller's live rows on live accounts, newest first. |
| Dashboard.RecentRowsAreNewest | webapi/src/routes/dashboard.js:78-80 | No qualifying row left out is newer than a shown one. Fewer than 10 are shown only when no more qualify. |
| Dashboard.EntryMatchesLedger | webapi/src/routes/dashboard.js:122-130 | An INCOME or EXPENSE entry shows the row's signed effect on the balance (expenses negated); a transfer shows its positive amount. The description falls back to "TYPE - account". |
| Dashboard.Recent | webapi/src/routes/dashboard.js:122-130 | One entry per recent row, in the same order. |
| Dashboard.TopCategories | webapi/src/routes/dashboard.js:86-108 | At most 5 lines of the month's EXPENSE spending report, sorted by non-increasing total, one per category. No omitted line exceeds a shown one. |
| Dashboard.TopOfReport | webapi/src/routes/dashboard.js:107-108 | The first five lines of a sorted report are its five largest and stay valid lines. |
| Dashboard.MonthQueryIsCalendarMonth | webapi/src/routes/dashboard.js:86-99 | On real dates, the month query joins a row iff it is the caller's live EXPENSE row in today's calendar month with a live category. |
| Dashboard.GetSummary | webapi/src/routes/dashboard.js:8-142 | Net worth = cash + investments + portfolio total_value − liabilities, which is also the sum of per-account contributions plus total_value. The balances are the account listing: every live account of the caller and only those, each with its ledger balance. The three totals are the bucket totals of those balances. recent, trends and topCategories are the recent-transactions, six-month-trend and top-category reports (at most 10, 6 unless the trend query fails, at most 5). |
| Budgets.PeriodWindowIsCalendar | webapi/src/routes/budgets.js:40-49 | On real dates: monthly covers exactly today's month, yearly today's year, otherwise startDate..endDate with today for a missing end. |
| Budgets.Evaluate | webapi/src/routes/budgets.js:63-77 | remaining + spent = amount, isOverBudget iff remaining < 0. percentageUsed is spent/amount·100 rounded half up to cents (`Math.round(p·100)/100`: a whole number of hundredths within the half-up window, which NumberHelpers.CentIsUnique shows is unique), or 0 when amount ≤ 0. |
| Budgets.StatusOf | webapi/src/routes/budgets.js:372 | Exactly one of: over iff spent > amount; warning iff 0.8·amount < spent ≤ amount; good otherwise. |
| Budgets.StatusAgreesWithEvaluation | webapi/src/routes/budgets.js:63-77 | "over" iff isOverBudget, and a warning has a rounded percentageUsed of at least 80. |
| Budgets.ListBudgets | webapi/src/routes/budgets.js:9-86 | Exactly the caller's budgets with a joined category passing the period and isActive filters, each with its evaluation. |
| Budgets.GetBudget | webapi/src/routes/budgets.js:89-152 | Succeeds iff the caller holds the budget and its category row exists, otherwise 404 "Budget not found". The view carries the budget's evaluation. |
| Budgets.CreateBudget | webapi/src/routes/budgets.js:155-214 | 400 unless the caller's expense category is given; 409 when an active budget has the same category and period. Otherwise appends one active budget, with startDate defaulting to today. |
| Budgets.CreateKeepsOneActive | webapi/src/routes/budgets.js:171-180 | Create keeps at most one active budget per (user, category, period), and keeps ids unique. |
| Budgets.UpdateBudget | webapi/src/routes/budgets.js:217-293 | As written: 404, then 400. A 409 happens iff the category or period changes onto another active budget's key. The update succeeds iff the caller holds the budget, the category is the caller's expense category and there is no such 409. On success only that row changes. |
| Budgets.UpdateKeepsOneActiveUnlessReactivated | webapi/src/routes/budgets.js:244-269 | An update that does not switch an inactive budget on keeps the one-active rule. |
| Budgets.ReactivationDuplicates | webapi/src/routes/budgets.js:244-256 | Re-activating an inactive budget beside an active one on the same key succeeds and breaks the rule. |
| Budgets.UpdateBudgetChecked | webapi/src/routes/budgets.js:244-256 | The update with the duplicate check run whenever the result is active: 404, then 400, then 409 iff the updated budget is active and another active budget holds its key. It succeeds iff none of these applies, and on success only that row changes. |
| Budgets.UpdateCheckedKeepsOneActive | webapi/src/routes/budgets.js:217-293 | The checked update keeps the one-active rule on every call. |
| Budgets.DeleteBudget | webapi/src/routes/budgets.js:296-315 | 404 iff the caller holds no such budget. Otherwise the row is removed outright; with unique ids every other budget stays. |
| Budgets.DeleteKeepsOneActive | webapi/src/routes/budgets.js:296-315 | Delete keeps the one-active rule. |
| Budgets.Performance | webapi/src/routes/budgets.js:318-397 | Exactly as many items as there are active budgets of the period (default monthly) with a joined category. Each item comes from one of those budgets, and every such budget has an item. The overall stats are taken over those items. |
| Budgets.PerformanceTotals | webapi/src/routes/budgets.js:334-390 | The report's totalBudget is the sum of the reported budgets' amounts, and totalSpent the sum of what their categories were charged in the period window. |
| Budgets.ItemsTotals | webapi/src/routes/budgets.js:334-375 | The items' amounts and spendings sum to the amounts and window spendings of the budgets they come from. |
| Budgets.Overall | webapi/src/routes/budgets.js:378-390 | totalRemaining = totalBudget − totalSpent. budgetsOverLimit is the number of over-budget items and totalBudgets the number of items. The percentage is totalSpent/totalBudget·100 rounded half up to cents, or 0 when totalBudget ≤ 0. |
| Budgets.OverallAddsUp | webapi/src/routes/budgets.js:378-390 | totalBudget, totalSpent and totalRemaining are the sums of the items' amounts, spendings and remainders, and budgetsOverLimit is the number of items with status "over". |
| Budgets.ItemsMatchRows | webapi/src/routes/budgets.js:334-375 | Each item comes from a reported budget, and every reported budget has an item. |
| Users.GetProfile | webapi/src/routes/users.js:8-24 | 404 "User not found" iff no live user has the id. Otherwise returns that user's data. |
| Users.UpdateProfile | webapi/src/routes/users.js:27-83 | 400 when neither field is truthy. 409 "Username already taken" before 409 "Email already registered", both for other live users holding the trimmed value. When the new values would make two rows, soft-deleted ones included, share a username or email, the UPDATE is refused and the error middleware answers. A failure changes nothing; success iff none of these, storing the trimmed truthy fields only. |
| Users.UpdateKeepsProfilesUnique | webapi/src/routes/users.js:37-69 | Starting within the UNIQUE constraints on username and email over all rows (webapi/src/database/migrations/001_create_users_table.js:8-9), every update call stays within them, and so keeps live users unique too. |
| Users.DeletedHolderRefusesUpdate | webapi/src/routes/users.js:37-69 | Once the live checks pass, the update is refused iff another user's row, live or soft-deleted, holds the new trimmed username or email. |
| Users.Stats | webapi/src/routes/users.js:86-146 | The counts are the numbers of the caller's live accounts, categories and trades. The monthly figures are the transaction summary over today's calendar month. |
| Users.LiveCount | webapi/src/routes/users.js:91-95 | `COUNT(*)` over the caller's live rows equals the length of the listing of those rows. |
| Validation.CheckErrors | webapi/src/middleware/validation.js:15-29 | A chain reports no error iff every check holds of the field's value; each error names that field. |
| Validation.Errors | webapi/src/middleware/validation.js:3-12 | No error iff every rule passes, where a rule passes if it is skipped (optional and absent) or all its checks hold. Each error names a rule's field. |
| Validation.HandleValidationErrors | webapi/src/middleware/validation.js:3-12 | The handler's answer comes through iff every rule of the chain passes; if any rule fails the reply is 400 "Validation failed". |
| Validation.TradeReachesHandler | webapi/src/middleware/validation.js:96-118 | A trade request reaches the route iff it is acceptable as TradeAccepts describes; otherwise 400 "Validation failed". |
| Validation.RegistrationAccepts | webapi/src/middleware/validation.js:15-29 | Accepted iff the trimmed username has 3–50 characters from [A-Za-z0-9_], the email passes isEmail, and the password has ≥ 6 characters. |
| Validation.LoginAccepts | webapi/src/middleware/validation.js:31-39 | Accepted iff the email passes isEmail and the password is non-empty. |
| Validation.AccountAccepts | webapi/src/middleware/validation.js:42-56 | Accepted iff the trimmed name has 1–100 characters, the trimmed type 1–50, and any initial balance is numeric. |
| Validation.TransactionAccepts | webapi/src/middleware/validation.js:59-81 | Accepted iff account_id is an int ≥ 1, any category_id is an int ≥ 1, the amount is numeric of either sign, the type is INCOME, EXPENSE or TRANSFER, and any date is ISO 8601. |
| Validation.CategoryAccepts | webapi/src/middleware/validation.js:84-93 | Accepted iff the trimmed name has 1–100 characters and the type is exactly Income or Expense. |
| Validation.TradeAccepts | webapi/src/middleware/validation.js:96-118 | Accepted iff account id ≥ 1, trimmed ticker of 1–20 characters, BUY or SELL, numeric quantity and price (and > 0 when `gt` is honoured), and an optional ISO date. |
| Validation.TransferAccepts | webapi/src/middleware/validation.js:121-139 | Accepted iff both account ids are ints ≥ 1, the amount is numeric (and > 0 when `gt` is honoured), and any date is ISO 8601. |
| Validation.PositiveNumber | webapi/src/middleware/validation.js:107-112 | A numeric text is > 0 iff it has no '-' sign and some nonzero digit. |
| Validation.NegativeQuantityPasses | webapi/src/middleware/validation.js:107-109 | As written, negating the quantity of any accepted unsigned trade is still accepted, and its value is the negation. |
| Validation.MinusFiveIsNumeric | webapi/src/middleware/validation.js:107-112 | "-5" is numeric text with value −5. |
| Validation.CheckedTradeIsPositive | webapi/src/middleware/validation.js:107-112 | With `gt` honoured, an accepted trade has a quantity and price > 0 without a minus sign. |
| ErrorHandler.HandleError | webapi/src/middleware/errorHandler.js:1-37 | ValidationError gives 400 with its own message; JsonWebTokenError gives 401 "Invalid token"; TokenExpiredError gives 401 "Token expired". The unique-constraint code gives 409 "Resource already exists" unless a name rule applies. The stack is present only in development. |
| ErrorHandler.UnrecognisedKeepsOwnFields | webapi/src/middleware/errorHandler.js:5-8 | An unrecognised error keeps its non-zero status (else 500) and truthy message (else "Internal Server Error"). |
| ErrorHandler.NameBeatsCode | webapi/src/middleware/errorHandler.js:11-31 | An error with both a recognised name and the unique-constraint code is classified by its name, never 409. |
| ErrorHandler.StatusIsClassifiedOrOwn | webapi/src/middleware/errorHandler.js:5-31 | The status is 400, 401 or 409, or the error's own status (500 when absent). |
| ErrorHandler.DriverErrorIs500 | webapi/src/middleware/errorHandler.js:5-14 | A driver error whose code is not SQLITE_CONSTRAINT_UNIQUE answers 500 with the driver's own message. |
| ErrorHandler.UniqueViolationIs500 | webapi/src/middleware/errorHandler.js:5-14 | A UNIQUE violation as the sqlite3 driver reports it (code SQLITE_CONSTRAINT) answers 500 with the driver's message, not 409. |
| DateHelpers.StartOfMonthIsDayOne | webapi/src/utils/dateHelpers.js:15-17 | The start of month is day 1 of the same year and month. |
| DateHelpers.EndOfMonthIsLastDay | webapi/src/utils/dateHelpers.js:24-26 | Day 0 of the next month is the last day of this month, with Gregorian leap years. |
| DateHelpers.YearBounds | webapi/src/utils/dateHelpers.js:33-44 | The year runs from Jan 1 to Dec 31 of the same year. |
| DateHelpers.MonthContainsDay | webapi/src/utils/dateHelpers.js:15-26 | startOfMonth(d) ≤ d ≤ endOfMonth(d), both ends inclusive. |
| DateHelpers.YearContainsDay | webapi/src/utils/dateHelpers.js:33-55 | startOfYear(d) ≤ d ≤ endOfYear(d). |
| DateHelpers.InMonthWindow | webapi/src/utils/dateHelpers.js:53-55 | A real day is in a month's inclusive window iff it is a day of that month. |
| DateHelpers.MakeDate | webapi/src/utils/dateHelpers.js:15-26 | `new Date(y, m, d)` normalises any month index and day to a real calendar day. |
| DateHelpers.ShiftMonth | webapi/src/routes/dashboard.js:212 | Shifting by k months moves the month count year·12 + month by exactly k. |
| DateHelpers.AddDays | webapi/src/utils/dateHelpers.js:63-67 | A real day results; n > 0 moves later and n < 0 earlier. |
| DateHelpers.AddDaysCompose | webapi/src/utils/dateHelpers.js:63-67 | Adding a days and then b days is adding a + b days. |
| DateHelpers.SubtractAfterAddDays | webapi/src/utils/dateHelpers.js:63-79 | subtractDays(addDays(d, n), n) = d, and the other way round. |
| DateHelpers.PrevDayOfNextDay | webapi/src/utils/dateHelpers.js:63-79 | Stepping a day forward then back returns the day, across month and year ends. |
| DateHelpers.DateKeyOrder | webapi/src/routes/transactions.js:45-46 | Ordering by YYYY-MM-DD text is chronological order on real days. |
| NumberHelpers.RoundToDecimals | webapi/src/utils/numberHelpers.js:33-36 | The result has at most d decimals and lies in (x − ½·10^−d, x + ½·10^−d], i.e. rounding half up. |
| NumberHelpers.Round2Idempotent | webapi/src/utils/numberHelpers.js:33-36 | Rounding to cents twice is rounding once. |
| NumberHelpers.ParseFloat | webapi/src/utils/numberHelpers.js:46 | NaN iff there is no digit at the start (after an optional '-') and no '.digit' start. |
| NumberHelpers.ParseFloatOfDecimal | webapi/src/utils/numberHelpers.js:46 | For any text `-? ip (. fp)?` with at least one digit, followed by a tail that cannot extend the number, the value is ±(ip + fp/10^\|fp\|). |
| NumberHelpers.ParseCurrencyIgnoresOtherChars | webapi/src/utils/numberHelpers.js:43-47 | Removing any character other than a digit, '.' or '-' anywhere leaves the parse unchanged. |
| NumberHelpers.ParseCurrencyOfDigits | webapi/src/utils/numberHelpers.js:43-47 | A run of digits parses to its decimal value. |
| NumberHelpers.ParseCurrencyWithoutDigits | webapi/src/utils/numberHelpers.js:43-47 | A string without digits parses to 0. |
| NumberHelpers.CalculatePercentage | webapi/src/utils/numberHelpers.js:55-58 | 0 when total = 0, otherwise part/total·100 rounded half up to cents: a whole number of hundredths within the half-up window. |
| NumberHelpers.CentIsUnique | webapi/src/utils/numberHelpers.js:33-36 | Any whole number of hundredths in (x − 0.005, x + 0.005] is `Math.round(x·100)/100`, so the contracts that state the window and the cent grid fix the rounded value. |
| NumberHelpers.PercentageOfWholeAndNothing | webapi/src/utils/numberHelpers.js:55-58 | For a nonzero total, the total itself is 100 percent and a zero part is 0 percent. |
| NumberHelpers.FormatLargeNumber | webapi/src/utils/numberHelpers.js:65-76 | Suffix B iff ≥ 1e9, M iff in [1e6, 1e9), K iff in [1e3, 1e6), none below 1000 (negatives included, value unchanged). The value is x/unit rounded half up to cents. |
| NumberHelpers.FormatLargeNumberKeepsCents | webapi/src/utils/numberHelpers.js:65-76 | A scaled value that already is a whole number of hundredths comes back exactly (1500 gives 1.5 K). |
| Text.TrimIdempotent | webapi/src/middleware/validation.js:17 | Trimming twice is trimming once. |
| Text.ToUpperIgnoresCase | webapi/src/routes/portfolio.js:33 | Tickers that differ only in letter case upper-case to the same string. |
| WebUtils.PercentageChange | webapp/src/lib/utils.ts:41-44 | From 0 it is 1 for a rise and 0 otherwise; otherwise old + change·old = new. |
| WebUtils.ChangeSignFollowsRise | webapp/src/lib/utils.ts:41-44 | From a positive start the change is positive iff the value rose, and zero iff unchanged. |
| WebUtils.SplitJoin | webapp/src/lib/utils.ts:58-62 | `split(' ')` then `join(' ')` gives the string back. |
| WebUtils.FirstsAreWordStarts | webapp/src/lib/utils.ts:58-62 | The first characters of the split pieces are the string's word-start characters. |
| WebUtils.GetInitials | webapp/src/lib/utils.ts:58-65 | The first two upper-cased word-start characters, in order, and at most 2 characters. |
| WebUtils.AccountTypeColor | webapp/src/lib/utils.ts:67-80 | A listed type gets its own class, and any other string the gray default. |
| WebUtils.TransactionTypeColor | webapp/src/lib/utils.ts:82-88 | Green for INCOME, red for EXPENSE, gray for anything else. |
| WebUtils.CategoryTypeColor | webapp/src/lib/utils.ts:90-96 | Success class for Income, danger for Expense, gray default otherwise. |
| WebUtils.ValidateEmailIsPattern | webapp/src/lib/utils.ts:98-101 | The scan (no whitespace, exactly one '@' after a non-empty local part, a '.' strictly inside the domain) accepts exactly the strings the regular expression matches. |
| WebUtils.DaysSeen | webapp/src/lib/utils.ts:104-111 | The distinct days of the input, each once. |
| WebUtils.SortDescending | webapp/src/lib/utils.ts:113-114 | Strictly descending and holding the same days. |
| WebUtils.GroupTransactionsByDate | webapp/src/lib/utils.ts:103-118 | Groups in strictly descending date order. Every input day has a group; each group is non-empty and holds that day's transactions in input order. |
| WebUtils.GroupingIsPartition | webapp/src/lib/utils.ts:103-118 | The groups together hold exactly the input, each element as often as it occurs. |

## Left out

- ListAccounts: the `ORDER BY created_at DESC` of webapi/src/routes/accounts.js:15 is not modelled; the accounts come in log order.
- GetSummary: the account_balances come in log order; the `ORDER BY created_at DESC` of webapi/src/routes/dashboard.js:16 is not modelled (the same gap as ListAccounts). Each balance is also passed through `parseFloat(toFixed(2))` before the bucket sums (webapi/src/routes/dashboard.js:39); the model sums the exact balances.
- TrashedAccounts: the `ORDER BY deleted_at DESC` of webapi/src/routes/accounts.js:52 is not modelled; the accounts come in log order.
- ListCategories: the `ORDER BY category_name` of webapi/src/routes/categories.js:20 is not modelled; the categories come in log order.
- ListTransactions: the `ORDER BY transaction_date DESC, created_at DESC` and the `page`/`limit` slicing with its `pages` count (webapi/src/routes/transactions.js:45-49, 65-72) are not modelled. The member returns every matching row in log order, together with the total; the filters and the total are modelled.
- ListTransactionsCounted: the same order and paging gap as ListTransactions.
- ListTrades: the `ORDER BY trade_date DESC, created_at DESC` and the `page`/`limit` slicing with its `pages` count (webapi/src/routes/portfolio.js:122-126, 141-148) are not modelled. The member returns every matching trade in log order, together with the total.
- ListTradesQualified: the same order and paging gap as ListTrades.
- ListBudgets: the `ORDER BY budgets.created_at DESC` of webapi/src/routes/budgets.js:31 is not modelled; the budgets come in log order.
- The trash listings and single-row GET routes of transactions (webapi/src/routes/transactions.js:80-126), categories (webapi/src/routes/categories.js:30-60) and trades (webapi/src/routes/portfolio.js:242-268, 383-402). They are the same owner/flag lookups as the modelled account routes, plus joins that only add display columns.
- The trade update route (webapi/src/routes/portfolio.js:270-354) and the securities routes (webapi/src/routes/portfolio.js:450-520). They are outside the core: the fold, create, delete and restore are modelled.
- Registration and login (webapi/src/routes/auth.js): password hashing and token issuing. Their validator chains are modelled.
- Authentication (`authenticateToken`, JWT): the caller's id is a parameter.
- Floating point, `toFixed` and `parseFloat` of stored values: amounts are exact reals. `Math.round` is modelled exactly in NumberHelpers; the percentage figures use it with half-up rounding.
- MakeDate: `new Date(y, m, d)` maps the years 0–99 to 1900–1999; the model takes every year as given.
- The database driver: the client is sqlite3 (webapi/knexfile.js:5), which reports a UNIQUE violation with code SQLITE_CONSTRAINT rather than SQLITE_CONSTRAINT_UNIQUE. So the 409 rule of webapi/src/middleware/errorHandler.js:11-14 never fires, and a refused insert or update is a 500 with the driver's message (ErrorHandler.UniqueViolationIs500). The SQL text knex prepends to that message is left out. When both the username and the email clash, the model assumes SQLite names the username column, the first one declared.
- Time zones and `toISOString()`: dates are calendar triples, and "now" is the `today` parameter.
- The `created_at` order of the recent-transactions query is approximated by the row id. Auto-increment ids grow with insertion time.
- Request bodies are seen as text (`map<string,string>`). JSON numbers and booleans, and express-validator's `details` array in the 400 reply, are not modelled.
- `isEmail` and `isISO8601` are library validators. They are parameters (`Oracles`) of the validation model.
- Whitespace and case: `trim` uses the ASCII whitespace set, and `toUpperCase` maps only a–z. Strings are sequences of characters, not of UTF-16 code units: `getInitials` (webapp/src/lib/utils.ts:61-64) takes `word[0]` and `slice(0, 2)` on code units, so for "😀 Bob" the source returns the two code units of "😀" while the model returns "😀B".
- Query-string filters outside their enums: the category listing and the spending report filter on any truthy text, so `?category_type=income` (lower case) answers no rows, and an explicit empty `?transaction_type=` skips the `EXPENSE` default of webapi/src/routes/categories.js:257 and answers no rows. The model types these filters as the enums (`CategoryType`, `TxType`) and cannot state those empty answers.
- ValidateEmailIsPattern: the `\s` of the `validateEmail` pattern (webapp/src/lib/utils.ts:99) is read as the same six ASCII whitespace characters. JavaScript's `\s` also covers Unicode spaces such as U+00A0, U+2028 and U+FEFF, so "a\u00A0b@c.d" is refused by the source and accepted by the model.
- Transfer: the two account ids are compared as numbers. The validator checks them with `isInt` but does not convert them (webapi/src/middleware/validation.js:121-127), and the route compares them with `===` (webapi/src/routes/transactions.js:235). So a body `{from_account_id: 1, to_account_id: "1"}` passes the same-account check, both lookups find account 1, and both legs land on it. The model refuses it with "Cannot transfer to the same account".
- UpdateTransaction: the amount is a number or absent (`UpdatedTx`). At webapi/src/routes/transactions.js:349 the JSON string "0" is truthy, so `Math.abs("0")` stores 0, while the model keeps the stored amount for a zero.
- JavaScript prototype keys of the color objects (e.g. `"toString"`): the model treats them as absent keys.
- `debounce`, `cn`, `formatCurrency`, `formatPercent` and the other formatting helpers of webapp/src/lib/utils.ts, and `formatDate`, `formatCurrency` and `formatPercentage` of the API helpers: timers, class merging and locale formatting.
- The error handler's `console.error` and the `res` I/O: the reply is a value.
- Dashboard.TickerPass: keeps only per-ticker quantities. The per-ticker invested figure of webapi/src/routes/dashboard.js:181-182 never reaches the response, and it divides by zero when a sell meets a zero quantity.
- Apply: requires sells of a non-negative quantity (`SellNonNegative`). A negative sell, which validation lets through (see "## Findings"), divides by zero at webapi/src/routes/portfolio.js:211 when it meets a holding with no shares; negative sells are outside the model. A zero sell is modelled.
- Replay: the same non-negative-sell requirement, over the folded trades.
- Pass: the same requirement, over the rows it folds.
- Holdings: the same requirement, over the caller's live trades on live accounts only. Two further gaps here: the rows come ordered by ticker (webapi/src/routes/portfolio.js:179), while the model folds and lists them in log order, and within a ticker SQL leaves the order open, which the average cost depends on.
- Budgets: the routes target columns (`userId`, `categoryId`, `isActive`, `type`, `date`) that the migrations do not create, and the router is not mounted. The model uses its own `BudgetStore` with those columns rather than the shared `Store`. Transactions there have no soft-delete flag, as in the queries. `validateBudget` is not exported by the validation module, so budget bodies are taken as already parsed.
- Users.UpdateProfile: a username of only whitespace is truthy before trimming and is stored as "". The model does the same and states nothing more about it.
- Concurrency and atomicity: each handler is one atomic step, which the source does not guarantee across its several statements.
- Legacy route files, migrations, seeds, scripts, server wiring and the React pages.

## Findings

| source | as written | input that shows it | evidently intended | confidence | as-written member | corrected member |
|---|---|---|---|---|---|---|
| webapi/src/middleware/validation.js:107-112 | `isNumeric({ gt: 0 })`: `isNumeric` takes no `gt` option, so only the numeric form is checked | a trade with `quantity: "-5"` (or price "-5"); the same applies to a transfer amount (webapi/src/middleware/validation.js:128-130) | quantity, price and amount > 0, as the messages say | not executed | Validation.NegativeQuantityPasses | Validation.CheckedTradeIsPositive |
| webapi/src/routes/budgets.js:244-256 | the duplicate check runs only when the category or period changes | an active monthly budget on category 5, and an inactive one on the same key updated with `isActive: true` | at most one active budget per (user, category, period) | not executed | Budgets.ReactivationDuplicates | Budgets.UpdateBudgetChecked |
| webapi/src/routes/categories.js:184-191 | restore clears the flag without the name check the create and update routes make | delete "Food", create another "Food", restore the first | live category names unique per user | not executed | Categories.RestoreCanDuplicateName | Categories.RestoreCategoryChecked |
| webapi/src/routes/portfolio.js:210-213 | a sell that closes the position leaves `total_invested` as it was | BUY 10@100, SELL 10, BUY 5@50 reports 1250 invested, 250 a share | a closed position's cost is cleared, so the new lot is 250 invested, 50 a share | not executed | Portfolio.StaleCostAfterClose | Portfolio.ResettingForgetsClosedHistory |
| webapi/src/routes/portfolio.js:131-139 | the count query's `whereNull('deleted_at')` is unqualified, and the ticker filter joins `securities`, which also has `deleted_at` | `GET /portfolio/trades?ticker_symbol=aapl`: SQLite refuses the count with "ambiguous column name: deleted_at", and the reply is a 500 | the ticker filter works, counting `stock_trades.deleted_at` | not executed | Portfolio.TickerFilterFails | Portfolio.ListTradesQualified |
| webapi/src/routes/transactions.js:52-63 | the pagination count filters the caller's live rows but, unlike the listing, does not join the accounts | soft-delete an account that has a live transaction: the list is empty and `total` is 1 | `total` counts the rows the listing can show | not executed | Transactions.HiddenRowIsCounted | Transactions.ListTransactionsCounted |

=== FILE: accounts.dfy ===
/** The accounts routes: listing with current balances, create, update,
    soft delete and restore. */
module Accounts {
  import opened Common
  import opened Rows
  import opened Schema
  import opened Ledger

  /** An account as the routes return it: the row plus `current_balance`. */
  datatype AccountView = AccountView(account: Row<AccountData>, currentBalance: real)

  /** GET /accounts: the caller's live accounts, each with its balance. */
  function ListAccounts(s: Store, user: nat): (r: seq<AccountView>)
    ensures forall k :: 0 <= k < |r| ==>
              r[k].account in s.accounts && r[k].account.owner == user && !r[k].account.deleted
              && r[k].currentBalance == Balance(s.transactions, r[k].account)
    ensures forall k :: 0 <= k < |s.accounts| && s.accounts[k].owner == user && !s.accounts[k].deleted ==>
              exists j :: 0 <= j < |r| && r[j].account == s.accounts[k]
  {
    var live := LiveOf(s.accounts, user);
    var r := seq(|live|, k requires 0 <= k < |live| => AccountView(live[k], Balance(s.transactions, live[k])));
    assert forall k :: 0 <= k < |s.accounts| && s.accounts[k].owner == user && !s.accounts[k].deleted ==>
             exists j :: 0 <= j < |live| && live[j] == s.accounts[k] && r[j].account == s.accounts[k];
    r
  }

  /** GET /accounts/trash: the caller's soft-deleted accounts. */
  function TrashedAccounts(s: Store, user: nat): (r: seq<Row<AccountData>>)
    ensures forall k :: 0 <= k < |r| ==> r[k] in s.accounts && r[k].owner == user && r[k].deleted
    ensures forall k :: 0 <= k < |s.accounts| && s.accounts[k].owner == user && s.accounts[k].deleted ==>
              s.accounts[k] in r
  {
    DeletedOf(s.accounts, user)
  }

  /** GET /accounts/:id. */
  function GetAccount(s: Store, user: nat, id: nat): (r: Response<AccountView>)
    ensures r.Fail? <==> FindLive(s.accounts, id, user).None?
    ensures r.Fail? ==> r == Fail(404, "Account not found")
    ensures r.Ok? ==> r.value.account.id == id && r.value.account.owner == user && !r.value.account.deleted
                      && r.value.account in s.accounts
                      && r.value.currentBalance == Balance(s.transactions, r.value.account)
  {
    match FindLive(s.accounts, id, user)
    case None => Fail(404, "Account not found")
    case Some(k) => Ok(AccountView(s.accounts[k], Balance(s.transactions, s.accounts[k])))
  }

  /** POST /accounts: insert a live account; `initial_balance` defaults to 0. */
  function CreateAccount(s: Store, user: nat, name: string, kind: string, initialBalance: Option<real>): (r: Reply<AccountView>)
    ensures r.response.Ok?
    ensures r.store == s.(accounts := s.accounts + [r.response.value.account])
    ensures r.response.value.account
            == Row(r.response.value.account.id, user, AccountData(name, kind, initialBalance.GetOr(0.0)), false)
    ensures forall k :: 0 <= k < |s.accounts| ==> s.accounts[k].id != r.response.value.account.id
    ensures r.response.value.currentBalance == initialBalance.GetOr(0.0)
  {
    var row := Row(NextId(s.accounts), user, AccountData(name, kind, initialBalance.GetOr(0.0)), false);
    Reply(Ok(AccountView(row, row.data.initialBalance)), s.(accounts := Insert(s.accounts, user, row.data)))
  }

  /** Every transaction points at an existing account row. */
  predicate AccountsReferenced(s: Store)
  {
    forall k :: 0 <= k < |s.transactions| ==>
      exists j :: 0 <= j < |s.accounts| && s.accounts[j].id == s.transactions[k].data.account
  }

  /** In a store whose transactions only point at existing accounts, the balance
      the create route reports is the one every later listing computes. */
  lemma CreatedAccountBalanceIsInitial(s: Store, user: nat, name: string, kind: string, initialBalance: Option<real>)
    requires AccountsReferenced(s)
    ensures var r := CreateAccount(s, user, name, kind, initialBalance);
            Balance(r.store.transactions, r.response.value.account) == initialBalance.GetOr(0.0)
  {
    var a := CreateAccount(s, user, name, kind, initialBalance).response.value.account;
    forall k | 0 <= k < |s.transactions|
      ensures s.transactions[k].data.account != a.id
    {
      var j :| 0 <= j < |s.accounts| && s.accounts[j].id == s.transactions[k].data.account;
    }
    UntouchedAccountHasInitialBalance(s.transactions, a);
  }

  /** PUT /accounts/:id: 404 unless the caller holds the live account; a falsy
      name or type keeps the stored one; the initial balance never changes. */
  function UpdateAccount(s: Store, user: nat, id: nat, name: Option<string>, kind: Option<string>): (r: Reply<AccountView>)
    ensures r.response.Fail? <==> FindLive(s.accounts, id, user).None?
    ensures r.response.Fail? ==> r.response == Fail(404, "Account not found") && r.store == s
    ensures r.response.Ok? ==>
              var k := FindLive(s.accounts, id, user).value;
              var old_ := s.accounts[k];
              && r.store == s.(accounts := s.accounts[k := r.response.value.account])
              && r.response.value.account
                 == old_.(data := AccountData(OrText(name, old_.data.name), OrText(kind, old_.data.kind),
                                              old_.data.initialBalance))
              && r.response.value.currentBalance == Balance(s.transactions, old_)
  {
    match FindLive(s.accounts, id, user)
    case None => Reply(Fail(404, "Account not found"), s)
    case Some(k) =>
      var row := s.accounts[k];
      var updated := row.(data := row.data.(name := OrText(name, row.data.name), kind := OrText(kind, row.data.kind)));
      Reply(Ok(AccountView(updated, Balance(s.transactions, updated))), s.(accounts := s.accounts[k := updated]))
  }

  /** DELETE /accounts/:id: soft delete; the account's transactions stay. */
  function DeleteAccount(s: Store, user: nat, id: nat): (r: Reply<()>)
    ensures r.response.Fail? <==> FindLive(s.accounts, id, user).None?
    ensures r.response.Fail? ==> r.response == Fail(404, "Account not found") && r.store == s
    ensures r.response.Ok? ==> r.store == s.(accounts := SetDeleted(s.accounts, id, true))
  {
    var (resp, rows) := SoftDelete(s.accounts, id, user, "Account");
    Reply(resp, s.(accounts := rows))
  }

  /** PUT /accounts/:id/restore: 404 for an unknown or foreign account, 400
      for a live one; otherwise clear the marker and report the balance. */
  function RestoreAccount(s: Store, user: nat, id: nat): (r: Reply<real>)
    ensures Find(s.accounts, id, user, false).None? ==> r.response == Fail(404, "Account not found") && r.store == s
    ensures Find(s.accounts, id, user, false).Some? && !s.accounts[Find(s.accounts, id, user, false).value].deleted ==>
              r.response == Fail(400, "Account is not deleted") && r.store == s
    ensures r.response.Ok? <==> Find(s.accounts, id, user, false).Some? && s.accounts[Find(s.accounts, id, user, false).value].deleted
    ensures r.response.Ok? ==>
              r.store == s.(accounts := SetDeleted(s.accounts, id, false))
              && r.response.value == Balance(s.transactions, s.accounts[Find(s.accounts, id, user, false).value])
  {
    assert "Account" + " not found" == "Account not found";
    assert "Account" + " is not deleted" == "Account is not deleted";
    var (resp, rows) := Restore(s.accounts, id, user, "Account");
    match resp
    case Fail(st, msg) => Reply(Fail(st, msg), s)
    case Ok(_) =>
      var k := Find(s.accounts, id, user, false).value;
      Reply(Ok(Balance(s.transactions, s.accounts[k])), s.(accounts := rows))
  }

  /** Deleting a live account and restoring it gives back the store we started
      from, with the balance it had. */
  lemma AccountDeleteThenRestore(s: Store, user: nat, id: nat)
    requires UniqueIds(s.accounts)
    requires FindLive(s.accounts, id, user).Some?
    ensures DeleteAccount(s, user, id).response.Ok?
    ensures var back := RestoreAccount(DeleteAccount(s, user, id).store, user, id);
            back.store == s
            && back.response == Ok(Balance(s.transactions, s.accounts[FindLive(s.accounts, id, user).value]))
  {
    DeleteThenRestore(s.accounts, id, user, "Account");
    var k := FindLive(s.accounts, id, user).value;
    var mid := DeleteAccount(s, user, id).store;
    FindUnique(mid.accounts, id, user, k);
    assert mid.accounts[k].data == s.accounts[k].data;
  }
}

=== FILE: budgets.dfy ===
/** The budget routes: the spending window of a budget's period, the
    evaluation of a budget against its spending (spent, remaining, percentage
    used, status), the one-active-budget-per-category-and-period rule of
    create and update, hard delete, and the performance report. The routes
    address tables of their own (camel-case columns, no soft delete, an
    `isActive` flag), so they get a store of their own here. */
module Budgets {
  import opened Common
  import opened Folds
  import opened DateHelpers
  import opened NumberHelpers
  import opened Schema

  /** `categories` as these routes read it. */
  datatype BudgetCategory = BudgetCategory(id: nat, owner: nat, name: string, isExpense: bool)

  /** `transactions` as these routes read it: no soft-delete column. */
  datatype Spend = Spend(owner: nat, category: nat, isExpense: bool, amount: real, date: Date)

  datatype Budget = Budget(id: nat, owner: nat, category: nat, amount: real, period: string,
                           startDate: Date, endDate: Option<Date>, isActive: bool)

  datatype BudgetStore = BudgetStore(categories: seq<BudgetCategory>, budgets: seq<Budget>, spends: seq<Spend>)

  /** An inclusive date window. */
  datatype Window = Window(start: Date, end: Date)

  predicate InPeriod(d: Date, w: Window)
  {
    IsDateInRange(d, w.start, w.end)
  }

  // ---------------------------------------------------------------- evaluation

  /** The current period of a budget: today's month, today's year, or the
      budget's own dates with today standing in for a missing end. */
  function PeriodWindow(b: Budget, today: Date): Window
  {
    if b.period == "monthly" then Window(StartOfMonth(today), EndOfMonth(today))
    else if b.period == "yearly" then Window(StartOfYear(today), EndOfYear(today))
    else Window(b.startDate, b.endDate.GetOr(today))
  }

  /** On real dates, a monthly budget counts exactly today's calendar month
      and a yearly one today's calendar year. */
  lemma PeriodWindowIsCalendar(b: Budget, today: Date, d: Date)
    requires Valid(today) && Valid(d)
    ensures b.period == "monthly" ==> (InPeriod(d, PeriodWindow(b, today)) <==> MonthOf(d) == MonthOf(today))
    ensures b.period == "yearly" ==> (InPeriod(d, PeriodWindow(b, today)) <==> d.year == today.year)
    ensures b.period != "monthly" && b.period != "yearly" ==>
              (InPeriod(d, PeriodWindow(b, today)) <==> Le(b.startDate, d) && Le(d, b.endDate.GetOr(today)))
  {
    InMonthWindow(d, MonthOf(today));
    YearBounds(today);
  }

  /** The expense rows charged to a budget: the user's, of its category, of
      type expense, dated inside the window. */
  function Charged(user: nat, category: nat, w: Window): Spend -> bool
  {
    (t: Spend) => t.owner == user && t.category == category && t.isExpense && InPeriod(t.date, w)
  }

  function SpendAmount(t: Spend): real
  {
    t.amount
  }

  /** `spent`: the sum of the charged rows, 0 when there are none. */
  function Spent(spends: seq<Spend>, user: nat, category: nat, w: Window): real
  {
    SumOf(spends, Charged(user, category, w), SpendAmount)
  }

  /** The figures added to a budget. */
  datatype Evaluation = Evaluation(spent: real, remaining: real, percentageUsed: real,
                                   isOverBudget: bool, window: Window)

  function Evaluate(amount: real, spent: real, w: Window): (e: Evaluation)
    ensures e.spent == spent && e.window == w
    ensures e.remaining + e.spent == amount
    ensures e.isOverBudget <==> e.remaining < 0.0
    ensures amount <= 0.0 ==> e.percentageUsed == 0.0
    ensures amount > 0.0 ==> NearestCent(spent / amount * 100.0, e.percentageUsed)
  {
    var pct := if amount > 0.0 then spent / amount * 100.0 else 0.0;
    Evaluation(spent, amount - spent, Round2(pct), spent > amount, w)
  }

  /** The traffic light of the performance report. */
  datatype Status = Over | Warning | Good

  function StatusOf(amount: real, spent: real): (st: Status)
    ensures st == Over <==> spent > amount
    ensures st == Warning <==> amount * 0.8 < spent <= amount
    ensures st == Good <==> spent <= amount && spent <= amount * 0.8
  {
    if spent > amount then Over
    else if spent > amount * 0.8 then Warning
    else Good
  }

  function StatusName(st: Status): string
  {
    match st
    case Over => "over"
    case Warning => "warning"
    case Good => "good"
  }

  /** A spent amount within the budget is marked over exactly when it is not
      within; a budget that is not over is warned about from 80% on. */
  lemma StatusAgreesWithEvaluation(amount: real, spent: real, w: Window)
    ensures StatusOf(amount, spent) == Over <==> Evaluate(amount, spent, w).isOverBudget
    ensures amount > 0.0 && StatusOf(amount, spent) == Warning ==> Evaluate(amount, spent, w).percentageUsed >= 80.0
  {
    if amount > 0.0 && StatusOf(amount, spent) == Warning {
      assert spent / amount * 100.0 > 80.0 by {
        RatioAbove(spent, amount, 0.8);
      }
      var pu := Evaluate(amount, spent, w).percentageUsed;
      assert (pu * 100.0).Floor > 7999;
    }
  }

  lemma RatioAbove(x: real, a: real, c: real)
    requires a > 0.0 && x > c * a
    ensures x / a > c
  {
    var q := x / a;
    assert q * a == x;
  }

  // ---------------------------------------------------------------- reading budgets

  /** A budget with its current figures. */
  datatype BudgetView = BudgetView(budget: Budget, evaluation: Evaluation)

  /** The first category row with this id: the inner join on `categoryId`. */
  function CategoryById(cats: seq<BudgetCategory>, id: nat): (r: Option<nat>)
    ensures r.Some? ==> r.value < |cats| && cats[r.value].id == id
    ensures r.None? <==> forall k :: 0 <= k < |cats| ==> cats[k].id != id
  {
    if |cats| == 0 then None
    else if cats[0].id == id then Some(0)
    else match CategoryById(cats[1..], id)
      case None => None
      case Some(k) => Some(k + 1)
  }

  function ViewOf(s: BudgetStore, b: Budget, today: Date): BudgetView
  {
    var w := PeriodWindow(b, today);
    BudgetView(b, Evaluate(b.amount, Spent(s.spends, b.owner, b.category, w), w))
  }

  /** The listing's filters: the caller's budgets with a joined category, of
      the given period when one is given, and with the given active state
      when `isActive` is given (any text but `true` asks for inactive ones). */
  function Listed(s: BudgetStore, user: nat, period: Option<string>, isActive: Option<string>): Budget -> bool
  {
    (b: Budget) =>
      b.owner == user && CategoryById(s.categories, b.category).Some?
      && (Truthy(period) ==> b.period == period.value)
      && (isActive.Some? ==> b.isActive == (isActive.value == "true"))
  }

  /** GET /budgets. */
  function ListBudgets(s: BudgetStore, user: nat, period: Option<string>, isActive: Option<string>, today: Date): (r: seq<BudgetView>)
    ensures forall k :: 0 <= k < |r| ==>
              r[k].budget in s.budgets && Listed(s, user, period, isActive)(r[k].budget)
              && r[k] == ViewOf(s, r[k].budget, today)
    ensures forall b :: b in s.budgets && Listed(s, user, period, isActive)(b) ==>
              exists k :: 0 <= k < |r| && r[k].budget == b
  {
    var rows := Filter(s.budgets, Listed(s, user, period, isActive));
    FilterKeeps(s.budgets, Listed(s, user, period, isActive));
    var r := seq(|rows|, k requires 0 <= k < |rows| => ViewOf(s, rows[k], today));
    assert forall k :: 0 <= k < |rows| ==> r[k].budget == rows[k];
    r
  }

  /** The caller's budget with this id. */
  function FindBudget(budgets: seq<Budget>, id: nat, user: nat): (r: Option<nat>)
    ensures r.Some? ==> r.value < |budgets| && budgets[r.value].id == id && budgets[r.value].owner == user
    ensures r.None? <==> forall k :: 0 <= k < |budgets| ==> budgets[k].id != id || budgets[k].owner != user
  {
    if |budgets| == 0 then None
    else if budgets[0].id == id && budgets[0].owner == user then Some(0)
    else match FindBudget(budgets[1..], id, user)
      case None => None
      case Some(k) => Some(k + 1)
  }

  /** GET /budgets/:id: 404 unless the caller holds the budget and its
      category row exists. */
  function GetBudget(s: BudgetStore, user: nat, id: nat, today: Date): (r: Response<BudgetView>)
    ensures r.Ok? <==> exists k :: 0 <= k < |s.budgets| && s.budgets[k].id == id && s.budgets[k].owner == user
                                   && CategoryById(s.categories, s.budgets[k].category).Some?
    ensures r.Fail? ==> r == Fail(404, "Budget not found")
    ensures r.Ok? ==> r.value.budget in s.budgets && r.value.budget.id == id && r.value.budget.owner == user
                      && r.value == ViewOf(s, r.value.budget, today)
  {
    var p := (b: Budget) => b.id == id && b.owner == user && CategoryById(s.categories, b.category).Some?;
    var rows := Filter(s.budgets, p);
    FilterKeeps(s.budgets, p);
    if |rows| == 0 then
      assert forall k :: 0 <= k < |s.budgets| ==> !p(s.budgets[k]) by {
        forall k | 0 <= k < |s.budgets| && p(s.budgets[k])
          ensures false
        {
        }
      }
      Fail(404, "Budget not found")
    else Ok(ViewOf(s, rows[0], today))
  }

  // ---------------------------------------------------------------- writing budgets

  /** No user has two active budgets for the same category and period. */
  predicate OneActivePerKey(budgets: seq<Budget>)
  {
    forall i, j :: 0 <= i < j < |budgets| && budgets[i].isActive && budgets[j].isActive
                   && budgets[i].owner == budgets[j].owner && budgets[i].category == budgets[j].category
                   ==> budgets[i].period != budgets[j].period
  }

  predicate BudgetIdsUnique(budgets: seq<Budget>)
  {
    forall i, j :: 0 <= i < j < |budgets| ==> budgets[i].id != budgets[j].id
  }

  /** The caller's expense category with this id. */
  function ExpenseCategory(cats: seq<BudgetCategory>, user: nat, id: nat): (r: Option<nat>)
    ensures r.Some? ==> r.value < |cats| && cats[r.value].id == id && cats[r.value].owner == user && cats[r.value].isExpense
    ensures r.None? <==> forall k :: 0 <= k < |cats| ==> cats[k].id != id || cats[k].owner != user || !cats[k].isExpense
  {
    if |cats| == 0 then None
    else if cats[0].id == id && cats[0].owner == user && cats[0].isExpense then Some(0)
    else match ExpenseCategory(cats[1..], user, id)
      case None => None
      case Some(k) => Some(k + 1)
  }

  /** Whether a budget other than `except` is active for this user, category
      and period. */
  predicate ActiveClash(budgets: seq<Budget>, user: nat, category: nat, period: string, except: Option<nat>)
  {
    exists k :: 0 <= k < |budgets| && budgets[k].owner == user && budgets[k].category == category
                && budgets[k].period == period && budgets[k].isActive && (except.None? || budgets[k].id != except.value)
  }

  function NextBudgetId(budgets: seq<Budget>): (n: nat)
    ensures forall k :: 0 <= k < |budgets| ==> budgets[k].id < n
  {
    if |budgets| == 0 then 1
    else
      var m := NextBudgetId(budgets[..|budgets| - 1]);
      var last := budgets[|budgets| - 1].id;
      if last + 1 > m then last + 1 else m
  }

  const BadCategory := "Invalid category or category must be of type expense"
  const Duplicate := "Active budget already exists for this category and period"

  /** The body of a create request. */
  datatype NewBudget = NewBudget(category: nat, amount: real, period: string,
                                 startDate: Option<Date>, endDate: Option<Date>)

  /** POST /budgets: 400 unless the category is the caller's expense category,
      409 when an active budget of the same category and period exists;
      otherwise a new active budget starting at the given date or today. */
  function CreateBudget(s: BudgetStore, user: nat, req: NewBudget, today: Date): (r: (Response<Budget>, BudgetStore))
    ensures ExpenseCategory(s.categories, user, req.category).None? ==> r == (Fail(400, BadCategory), s)
    ensures ExpenseCategory(s.categories, user, req.category).Some? && ActiveClash(s.budgets, user, req.category, req.period, None) ==>
              r == (Fail(409, Duplicate), s)
    ensures r.0.Ok? <==> ExpenseCategory(s.categories, user, req.category).Some? && !ActiveClash(s.budgets, user, req.category, req.period, None)
    ensures r.0.Ok? ==>
              && r.1 == s.(budgets := s.budgets + [r.0.value])
              && r.0.value == Budget(r.0.value.id, user, req.category, req.amount, req.period,
                                     req.startDate.GetOr(today), req.endDate, true)
              && forall k :: 0 <= k < |s.budgets| ==> s.budgets[k].id != r.0.value.id
  {
    if ExpenseCategory(s.categories, user, req.category).None? then (Fail(400, BadCategory), s)
    else if ActiveClash(s.budgets, user, req.category, req.period, None) then (Fail(409, Duplicate), s)
    else
      var b := Budget(NextBudgetId(s.budgets), user, req.category, req.amount, req.period,
                      req.startDate.GetOr(today), req.endDate, true);
      (Ok(b), s.(budgets := s.budgets + [b]))
  }

  lemma CreateKeepsOneActive(s: BudgetStore, user: nat, req: NewBudget, today: Date)
    requires OneActivePerKey(s.budgets) && BudgetIdsUnique(s.budgets)
    ensures OneActivePerKey(CreateBudget(s, user, req, today).1.budgets)
    ensures BudgetIdsUnique(CreateBudget(s, user, req, today).1.budgets)
  {
    var r := CreateBudget(s, user, req, today);
    if r.0.Ok? {
      var b := r.0.value;
      forall i | 0 <= i < |s.budgets| && s.budgets[i].isActive && s.budgets[i].owner == user && s.budgets[i].category == req.category
        ensures s.budgets[i].period != req.period
      {
        if s.budgets[i].period == req.period {
          assert ActiveClash(s.budgets, user, req.category, req.period, None);
        }
      }
    }
  }

  /** The body of an update request; an absent `startDate` or `isActive` keeps
      the stored one, an absent `endDate` (`None`) keeps it too, while a
      given `null` (`Some(None)`) clears it. */
  datatype BudgetChange = BudgetChange(category: nat, amount: real, period: string, startDate: Option<Date>,
                                       endDate: Option<Option<Date>>, isActive: Option<bool>)

  function Changed(old_: Budget, req: BudgetChange): (b: Budget)
    ensures b.id == old_.id && b.owner == old_.owner
    ensures b.category == req.category && b.amount == req.amount && b.period == req.period
  {
    old_.(category := req.category, amount := req.amount, period := req.period,
          startDate := req.startDate.GetOr(old_.startDate),
          endDate := if req.endDate.Some? then req.endDate.value else old_.endDate,
          isActive := req.isActive.GetOr(old_.isActive))
  }

  /** PUT /budgets/:id as written: 404 unless the caller holds the budget, 400
      for a category that is not the caller's expense category, and 409 only
      when the category or period changes onto another active budget's. */
  function UpdateBudget(s: BudgetStore, user: nat, id: nat, req: BudgetChange): (r: (Response<Budget>, BudgetStore))
    ensures FindBudget(s.budgets, id, user).None? ==> r == (Fail(404, "Budget not found"), s)
    ensures FindBudget(s.budgets, id, user).Some? && ExpenseCategory(s.categories, user, req.category).None? ==>
              r == (Fail(400, BadCategory), s)
    ensures r.0.Fail? ==> r.1 == s
    ensures r.0.Ok? ==>
              var k := FindBudget(s.budgets, id, user).value;
              && ExpenseCategory(s.categories, user, req.category).Some?
              && r.0.value == Changed(s.budgets[k], req)
              && r.1 == s.(budgets := s.budgets[k := r.0.value])
    ensures r.0 == Fail(409, Duplicate) <==>
              && FindBudget(s.budgets, id, user).Some?
              && ExpenseCategory(s.categories, user, req.category).Some?
              && var old_ := s.budgets[FindBudget(s.budgets, id, user).value];
                 (req.category != old_.category || req.period != old_.period)
                 && ActiveClash(s.budgets, user, req.category, req.period, Some(id))
    ensures r.0.Ok? <==>
              && FindBudget(s.budgets, id, user).Some?
              && ExpenseCategory(s.categories, user, req.category).Some?
              && var old_ := s.budgets[FindBudget(s.budgets, id, user).value];
                 !((req.category != old_.category || req.period != old_.period)
                   && ActiveClash(s.budgets, user, req.category, req.period, Some(id)))
  {
    match FindBudget(s.budgets, id, user)
    case None => (Fail(404, "Budget not found"), s)
    case Some(k) =>
      var old_ := s.budgets[k];
      if ExpenseCategory(s.categories, user, req.category).None? then (Fail(400, BadCategory), s)
      else if (req.category != old_.category || req.period != old_.period)
              && ActiveClash(s.budgets, user, req.category, req.period, Some(id)) then (Fail(409, Duplicate), s)
      else
        var b := Changed(old_, req);
        (Ok(b), s.(budgets := s.budgets[k := b]))
  }

  /** As written, the rule still holds after any update that does not switch
      an inactive budget on. */
  lemma UpdateKeepsOneActiveUnlessReactivated(s: BudgetStore, user: nat, id: nat, req: BudgetChange)
    requires OneActivePerKey(s.budgets) && BudgetIdsUnique(s.budgets)
    requires FindBudget(s.budgets, id, user).Some? ==>
               s.budgets[FindBudget(s.budgets, id, user).value].isActive || req.isActive != Some(true)
    ensures OneActivePerKey(UpdateBudget(s, user, id, req).1.budgets)
  {
    var r := UpdateBudget(s, user, id, req);
    if r.0.Ok? {
      var k := FindBudget(s.budgets, id, user).value;
      var old_ := s.budgets[k];
      var b := r.0.value;
      if b.isActive {
        assert old_.isActive;
        NoClashWithOthers(s.budgets, k, b, id, user);
      }
      ReplaceKeepsOneActive(s.budgets, k, b);
    }
  }

  /** When the updated budget is active, no other budget is active on its key. */
  lemma NoClashWithOthers(budgets: seq<Budget>, k: nat, b: Budget, id: nat, user: nat)
    requires OneActivePerKey(budgets) && BudgetIdsUnique(budgets)
    requires k < |budgets| && budgets[k].id == id && budgets[k].owner == user && b.owner == user
    requires b.isActive
    requires (b.category != budgets[k].category || b.period != budgets[k].period) ==>
               !ActiveClash(budgets, user, b.category, b.period, Some(id))
    requires (b.category == budgets[k].category && b.period == budgets[k].period) ==> budgets[k].isActive
    ensures forall i :: (0 <= i < |budgets| && i != k && budgets[i].isActive && budgets[i].owner == b.owner
                         && budgets[i].category == b.category) ==> budgets[i].period != b.period
  {
    forall i | 0 <= i < |budgets| && i != k && budgets[i].isActive && budgets[i].owner == b.owner
               && budgets[i].category == b.category && budgets[i].period == b.period
      ensures false
    {
      if b.category != budgets[k].category || b.period != budgets[k].period {
        assert ActiveClash(budgets, user, b.category, b.period, Some(id));
      }
    }
  }

  /** Putting a budget that clashes with no other active budget in place of
      row `k` keeps the rule. */
  lemma ReplaceKeepsOneActive(budgets: seq<Budget>, k: nat, b: Budget)
    requires OneActivePerKey(budgets) && k < |budgets|
    requires b.isActive ==> forall i :: (0 <= i < |budgets| && i != k && budgets[i].isActive && budgets[i].owner == b.owner
                                         && budgets[i].category == b.category) ==> budgets[i].period != b.period
    ensures OneActivePerKey(budgets[k := b])
  {
  }

  /** Switching an inactive budget back on skips the duplicate check: with an
      active monthly budget on category 5, re-activating an inactive monthly
      budget on the same category succeeds and leaves two active budgets. */
  lemma ReactivationDuplicates(today: Date)
    ensures var cats := [BudgetCategory(5, 1, "Food", true)];
            var active := Budget(1, 1, 5, 100.0, "monthly", today, None, true);
            var dormant := Budget(2, 1, 5, 200.0, "monthly", today, None, false);
            var s := BudgetStore(cats, [active, dormant], []);
            var r := UpdateBudget(s, 1, 2, BudgetChange(5, 200.0, "monthly", None, None, Some(true)));
            && OneActivePerKey(s.budgets) && BudgetIdsUnique(s.budgets)
            && r.0.Ok? && !OneActivePerKey(r.1.budgets)
  {
    var cats := [BudgetCategory(5, 1, "Food", true)];
    var active := Budget(1, 1, 5, 100.0, "monthly", today, None, true);
    var dormant := Budget(2, 1, 5, 200.0, "monthly", today, None, false);
    var s := BudgetStore(cats, [active, dormant], []);
    assert FindBudget(s.budgets, 2, 1) == Some(1);
    assert ExpenseCategory(cats, 1, 5) == Some(0);
    var r := UpdateBudget(s, 1, 2, BudgetChange(5, 200.0, "monthly", None, None, Some(true)));
    assert r.1.budgets[0].isActive && r.1.budgets[1].isActive;
  }

  /** PUT /budgets/:id with the duplicate check run whenever the budget ends up
      active, which keeps the rule on every update. */
  function UpdateBudgetChecked(s: BudgetStore, user: nat, id: nat, req: BudgetChange): (r: (Response<Budget>, BudgetStore))
    ensures FindBudget(s.budgets, id, user).None? ==> r == (Fail(404, "Budget not found"), s)
    ensures FindBudget(s.budgets, id, user).Some? && ExpenseCategory(s.categories, user, req.category).None? ==>
              r == (Fail(400, BadCategory), s)
    ensures r.0.Fail? ==> r.1 == s
    ensures r.0.Ok? <==>
              && FindBudget(s.budgets, id, user).Some?
              && ExpenseCategory(s.categories, user, req.category).Some?
              && !(Changed(s.budgets[FindBudget(s.budgets, id, user).value], req).isActive
                   && ActiveClash(s.budgets, user, req.category, req.period, Some(id)))
    ensures r.0 == Fail(409, Duplicate) <==>
              && FindBudget(s.budgets, id, user).Some?
              && ExpenseCategory(s.categories, user, req.category).Some?
              && Changed(s.budgets[FindBudget(s.budgets, id, user).value], req).isActive
              && ActiveClash(s.budgets, user, req.category, req.period, Some(id))
    ensures r.0.Ok? ==>
              var k := FindBudget(s.budgets, id, user).value;
              && r.0.value == Changed(s.budgets[k], req)
              && r.1 == s.(budgets := s.budgets[k := r.0.value])
              && (r.0.value.isActive ==> !ActiveClash(s.budgets, user, req.category, req.period, Some(id)))
  {
    match FindBudget(s.budgets, id, user)
    case None => (Fail(404, "Budget not found"), s)
    case Some(k) =>
      var b := Changed(s.budgets[k], req);
      if ExpenseCategory(s.categories, user, req.category).None? then (Fail(400, BadCategory), s)
      else if b.isActive && ActiveClash(s.budgets, user, req.category, req.period, Some(id)) then (Fail(409, Duplicate), s)
      else (Ok(b), s.(budgets := s.budgets[k := b]))
  }

  lemma UpdateCheckedKeepsOneActive(s: BudgetStore, user: nat, id: nat, req: BudgetChange)
    requires OneActivePerKey(s.budgets) && BudgetIdsUnique(s.budgets)
    ensures OneActivePerKey(UpdateBudgetChecked(s, user, id, req).1.budgets)
  {
    var r := UpdateBudgetChecked(s, user, id, req);
    if r.0.Ok? {
      var k := FindBudget(s.budgets, id, user).value;
      var b := r.0.value;
      if b.isActive {
        forall i | 0 <= i < |s.budgets| && i != k && s.budgets[i].isActive && s.budgets[i].owner == b.owner
                   && s.budgets[i].category == b.category
          ensures s.budgets[i].period != b.period
        {
          if s.budgets[i].period == b.period {
            assert ActiveClash(s.budgets, user, req.category, req.period, Some(id));
          }
        }
      }
      ReplaceKeepsOneActive(s.budgets, k, b);
    }
  }

  /** DELETE /budgets/:id: 404 unless the caller holds the budget; otherwise
      the row is removed outright. */
  function DeleteBudget(s: BudgetStore, user: nat, id: nat): (r: (Response<()>, BudgetStore))
    ensures FindBudget(s.budgets, id, user).None? ==> r == (Fail(404, "Budget not found"), s)
    ensures r.0.Ok? <==> FindBudget(s.budgets, id, user).Some?
    ensures r.0.Ok? ==> |r.1.budgets| == |s.budgets| - 1 && r.1.categories == s.categories && r.1.spends == s.spends
    ensures r.0.Ok? && BudgetIdsUnique(s.budgets) ==>
              (forall b :: b in r.1.budgets ==> b.id != id)
              && (forall b :: b in s.budgets && b.id != id ==> b in r.1.budgets)
  {
    match FindBudget(s.budgets, id, user)
    case None => (Fail(404, "Budget not found"), s)
    case Some(k) =>
      var rest := s.budgets[..k] + s.budgets[k + 1..];
      assert forall b :: b in s.budgets && b != s.budgets[k] ==> b in rest by {
        forall b | b in s.budgets && b != s.budgets[k]
          ensures b in rest
        {
          var i :| 0 <= i < |s.budgets| && s.budgets[i] == b;
          if i < k {
            assert rest[i] == b;
          } else {
            assert rest[i - 1] == b;
          }
        }
      }
      (Ok(()), s.(budgets := rest))
  }

  lemma DeleteKeepsOneActive(s: BudgetStore, user: nat, id: nat)
    requires OneActivePerKey(s.budgets)
    ensures OneActivePerKey(DeleteBudget(s, user, id).1.budgets)
  {
    var r := DeleteBudget(s, user, id);
    if r.0.Ok? {
      var k := FindBudget(s.budgets, id, user).value;
      var rest := r.1.budgets;
      assert forall i :: 0 <= i < |rest| ==> rest[i] == s.budgets[if i < k then i else i + 1];
    }
  }

  // ---------------------------------------------------------------- performance report

  /** One line of the performance report. */
  datatype PerformanceItem = PerformanceItem(budget: nat, amount: real, spent: real, remaining: real,
                                             percentageUsed: real, isOverBudget: bool, status: Status)

  datatype OverallStats = OverallStats(totalBudget: real, totalSpent: real, totalRemaining: real,
                                       overallPercentageUsed: real, budgetsOverLimit: nat, totalBudgets: nat)

  /** The report's window: today's month for `monthly`, today's year for any
      other period. */
  function PerformanceWindow(period: string, today: Date): Window
  {
    if period == "monthly" then Window(StartOfMonth(today), EndOfMonth(today))
    else Window(StartOfYear(today), EndOfYear(today))
  }

  /** The report's budgets: the caller's active budgets of the period with a
      joined category. */
  function Reported(s: BudgetStore, user: nat, period: string): Budget -> bool
  {
    (b: Budget) => b.owner == user && b.isActive && b.period == period && CategoryById(s.categories, b.category).Some?
  }

  function ItemOf(s: BudgetStore, b: Budget, w: Window): (item: PerformanceItem)
    ensures item.budget == b.id && item.amount == b.amount
    ensures item.spent == Spent(s.spends, b.owner, b.category, w)
    ensures item.remaining == item.amount - item.spent
    ensures item.isOverBudget <==> item.status == Over
  {
    var e := Evaluate(b.amount, Spent(s.spends, b.owner, b.category, w), w);
    PerformanceItem(b.id, b.amount, e.spent, e.remaining, e.percentageUsed, e.isOverBudget, StatusOf(b.amount, e.spent))
  }

  function ItemAmount(i: PerformanceItem): real
  {
    i.amount
  }

  function ItemSpent(i: PerformanceItem): real
  {
    i.spent
  }

  function ItemRemaining(i: PerformanceItem): real
  {
    i.remaining
  }

  function IsOver(i: PerformanceItem): bool
  {
    i.isOverBudget
  }

  /** `overallStats`. */
  function Overall(items: seq<PerformanceItem>): (r: OverallStats)
    ensures r.totalRemaining == r.totalBudget - r.totalSpent
    ensures r.totalBudgets == |items| && r.budgetsOverLimit <= r.totalBudgets
    ensures r.budgetsOverLimit == CountOf(items, IsOver)
    ensures r.totalBudget <= 0.0 ==> r.overallPercentageUsed == 0.0
    ensures r.totalBudget > 0.0 ==> NearestCent(r.totalSpent / r.totalBudget * 100.0, r.overallPercentageUsed)
  {
    var budget := Total(items, ItemAmount);
    var spent := Total(items, ItemSpent);
    var pct := if budget > 0.0 then Round2(spent / budget * 100.0) else 0.0;
    CountOfIsSizeOfFilter(items, IsOver);
    OverallStats(budget, spent, budget - spent, pct, |Filter(items, IsOver)|, |items|)
  }

  function BudgetAmount(b: Budget): real
  {
    b.amount
  }

  /** What the budget's category has been charged in the window. */
  function BudgetSpent(s: BudgetStore, w: Window): Budget -> real
  {
    (b: Budget) => Spent(s.spends, b.owner, b.category, w)
  }

  /** The lines' amounts and spendings add up to those of the budgets they
      come from. */
  lemma {:induction false} ItemsTotals(s: BudgetStore, rows: seq<Budget>, w: Window)
    ensures Total(Items(s, rows, w), ItemAmount) == Total(rows, BudgetAmount)
    ensures Total(Items(s, rows, w), ItemSpent) == Total(rows, BudgetSpent(s, w))
  {
    if |rows| > 0 {
      var init := rows[..|rows| - 1];
      ItemsTotals(s, init, w);
      assert Items(s, rows, w)[..|rows| - 1] == Items(s, init, w);
    }
  }

  /** GET /budgets/stats/performance; the period defaults to `monthly`. */
  function Performance(s: BudgetStore, user: nat, period: Option<string>, today: Date): (r: (seq<PerformanceItem>, OverallStats))
    ensures forall k :: 0 <= k < |r.0| ==>
              ItemFrom(s, s.budgets, Reported(s, user, period.GetOr("monthly")), PerformanceWindow(period.GetOr("monthly"), today), r.0[k])
    ensures forall b :: b in s.budgets && Reported(s, user, period.GetOr("monthly"))(b) ==>
              exists k :: 0 <= k < |r.0| && r.0[k].budget == b.id
    ensures |r.0| == |Filter(s.budgets, Reported(s, user, period.GetOr("monthly")))|
    ensures r.1 == Overall(r.0)
  {
    var p := period.GetOr("monthly");
    var w := PerformanceWindow(p, today);
    var rows := Filter(s.budgets, Reported(s, user, p));
    var items := Items(s, rows, w);
    FilterKeeps(s.budgets, Reported(s, user, p));
    ItemsMatchRows(s, s.budgets, Reported(s, user, p), rows, w);
    (items, Overall(items))
  }

  /** The report's overall budget is the sum of the reported budgets'
      amounts, and its overall spending the sum of what their categories were
      charged in the period window. */
  lemma PerformanceTotals(s: BudgetStore, user: nat, period: Option<string>, today: Date)
    ensures var p := period.GetOr("monthly");
            var overall := Performance(s, user, period, today).1;
            && overall.totalBudget == Total(Filter(s.budgets, Reported(s, user, p)), BudgetAmount)
            && overall.totalSpent == Total(Filter(s.budgets, Reported(s, user, p)), BudgetSpent(s, PerformanceWindow(p, today)))
  {
    var p := period.GetOr("monthly");
    var w := PerformanceWindow(p, today);
    var rows := Filter(s.budgets, Reported(s, user, p));
    ItemsTotals(s, rows, w);
    OverallTotals(Items(s, rows, w));
  }

  lemma OverallTotals(items: seq<PerformanceItem>)
    ensures Overall(items).totalBudget == Total(items, ItemAmount)
    ensures Overall(items).totalSpent == Total(items, ItemSpent)
  {
  }

  function Items(s: BudgetStore, rows: seq<Budget>, w: Window): (items: seq<PerformanceItem>)
    ensures |items| == |rows|
    ensures forall k :: 0 <= k < |rows| ==> items[k] == ItemOf(s, rows[k], w)
  {
    seq(|rows|, k requires 0 <= k < |rows| => ItemOf(s, rows[k], w))
  }

  /** The line of one of the reported budgets. */
  predicate ItemFrom(s: BudgetStore, all: seq<Budget>, p: Budget -> bool, w: Window, item: PerformanceItem)
  {
    exists b :: b in all && p(b) && item == ItemOf(s, b, w)
  }

  lemma ItemsMatchRows(s: BudgetStore, all: seq<Budget>, p: Budget -> bool, rows: seq<Budget>, w: Window)
    requires forall k :: 0 <= k < |rows| ==> p(rows[k]) && rows[k] in all
    requires forall b :: b in all && p(b) ==> b in rows
    ensures forall k :: 0 <= k < |rows| ==> ItemFrom(s, all, p, w, Items(s, rows, w)[k])
    ensures forall b :: b in all && p(b) ==> exists k :: 0 <= k < |rows| && Items(s, rows, w)[k].budget == b.id
  {
    var items := Items(s, rows, w);
    forall k | 0 <= k < |rows|
      ensures ItemFrom(s, all, p, w, items[k])
    {
      assert rows[k] in all && p(rows[k]) && items[k] == ItemOf(s, rows[k], w);
    }
    forall b | b in all && p(b)
      ensures exists k :: 0 <= k < |rows| && items[k].budget == b.id
    {
      var k :| 0 <= k < |rows| && rows[k] == b;
      assert items[k].budget == b.id;
    }
  }

  /** The overall remaining amount is the sum of the lines' remaining amounts,
      and the over-limit count is the number of lines marked `over`. */
  lemma {:induction false} OverallAddsUp(items: seq<PerformanceItem>)
    requires forall k :: 0 <= k < |items| ==> items[k].remaining == items[k].amount - items[k].spent
    requires forall k :: 0 <= k < |items| ==> (items[k].isOverBudget <==> items[k].status == Over)
    ensures Overall(items).totalBudget == Total(items, ItemAmount)
    ensures Overall(items).totalSpent == Total(items, ItemSpent)
    ensures Overall(items).totalRemaining == Total(items, ItemRemaining)
    ensures Overall(items).budgetsOverLimit == CountOf(items, (i: PerformanceItem) => i.status == Over)
  {
    if |items| > 0 {
      var init := items[..|items| - 1];
      OverallAddsUp(init);
      CountOfIsSizeOfFilter(items, IsOver);
      CountOfIsSizeOfFilter(init, IsOver);
      var over := (i: PerformanceItem) => i.status == Over;
      assert CountOf(items, over) == CountOf(init, over) + (if over(items[|items| - 1]) then 1 else 0);
    }
  }
}

=== FILE: categories.dfy ===
/** The categories routes: listing, create and update with per-user name
    uniqueness, soft delete and restore, per-category statistics and the
    spending-by-category report. */
module Categories {
  import opened Common
  import opened Rows
  import opened Folds
  import opened DateHelpers
  import opened Schema
  import opened Ledger
  import opened Ranking

  // ---------------------------------------------------------------- listing

  /** GET /categories: the caller's live categories, of one type when the
      `category_type` filter is given. */
  function ListCategories(s: Store, user: nat, kind: Option<CategoryType>): (r: seq<Row<CategoryData>>)
    ensures forall k :: 0 <= k < |r| ==>
              r[k] in s.categories && r[k].owner == user && !r[k].deleted && (kind.Some? ==> r[k].data.kind == kind.value)
    ensures forall k ::
              (0 <= k < |s.categories| && s.categories[k].owner == user && !s.categories[k].deleted
               && (kind.Some? ==> s.categories[k].data.kind == kind.value)) ==> s.categories[k] in r
  {
    var live := LiveOf(s.categories, user);
    if kind.None? then live
    else
      var r := Filter(live, (c: Row<CategoryData>) => c.data.kind == kind.value);
      FilterKeeps(live, (c: Row<CategoryData>) => c.data.kind == kind.value);
      r
  }

  // ---------------------------------------------------------------- name uniqueness

  /** Some live category of the caller other than `except` already has this
      name. */
  predicate NameTaken(cats: seq<Row<CategoryData>>, user: nat, name: string, except: Option<nat>)
  {
    exists k :: 0 <= k < |cats| && cats[k].owner == user && !cats[k].deleted && cats[k].data.name == name
                && (except.None? || cats[k].id != except.value)
  }

  /** No user holds two live categories of the same name. */
  predicate NamesUnique(cats: seq<Row<CategoryData>>)
  {
    forall i, j ::
      (0 <= i < |cats| && 0 <= j < |cats| && !cats[i].deleted && !cats[j].deleted
       && cats[i].owner == cats[j].owner && cats[i].data.name == cats[j].data.name) ==> i == j
  }

  /** POST /categories: 409 when the caller already has a live category of
      this name. */
  function CreateCategory(s: Store, user: nat, name: string, kind: CategoryType): (r: Reply<nat>)
    ensures r.response.Fail? <==> NameTaken(s.categories, user, name, None)
    ensures r.response.Fail? ==> r.response == Fail(409, "Category with this name already exists") && r.store == s
    ensures r.response.Ok? ==>
              r.store == s.(categories := s.categories + [Row(r.response.value, user, CategoryData(name, kind), false)])
              && forall k :: 0 <= k < |s.categories| ==> s.categories[k].id != r.response.value
  {
    if NameTaken(s.categories, user, name, None) then Reply(Fail(409, "Category with this name already exists"), s)
    else Reply(Ok(NextId(s.categories)), s.(categories := Insert(s.categories, user, CategoryData(name, kind))))
  }

  /** PUT /categories/:id: 404 unless the caller holds the live category, 409
      when another of the caller's live categories has the name; a falsy name
      keeps the stored one. */
  function UpdateCategory(s: Store, user: nat, id: nat, name: string, kind: CategoryType): (r: Reply<CategoryData>)
    ensures FindLive(s.categories, id, user).None? ==> r.response == Fail(404, "Category not found")
    ensures FindLive(s.categories, id, user).Some? && NameTaken(s.categories, user, name, Some(id)) ==>
              r.response == Fail(409, "Category with this name already exists")
    ensures r.response.Ok? <==> FindLive(s.categories, id, user).Some? && !NameTaken(s.categories, user, name, Some(id))
    ensures r.response.Fail? ==> r.store == s
    ensures r.response.Ok? ==>
              var k := FindLive(s.categories, id, user).value;
              && r.response.value == CategoryData(if name == "" then s.categories[k].data.name else name, kind)
              && r.store == s.(categories := s.categories[k := s.categories[k].(data := r.response.value)])
  {
    match FindLive(s.categories, id, user)
    case None => Reply(Fail(404, "Category not found"), s)
    case Some(k) =>
      if NameTaken(s.categories, user, name, Some(id)) then Reply(Fail(409, "Category with this name already exists"), s)
      else
        var data := CategoryData(OrText(Some(name), s.categories[k].data.name), kind);
        Reply(Ok(data), s.(categories := s.categories[k := s.categories[k].(data := data)]))
  }

  /** DELETE /categories/:id: soft delete; transactions that refer to the
      category are left as they are. */
  function DeleteCategory(s: Store, user: nat, id: nat): (r: Reply<()>)
    ensures r.response.Fail? <==> FindLive(s.categories, id, user).None?
    ensures r.response.Fail? ==> r.response == Fail(404, "Category not found") && r.store == s
    ensures r.response.Ok? ==> r.store == s.(categories := SetDeleted(s.categories, id, true))
  {
    var (resp, rows) := SoftDelete(s.categories, id, user, "Category");
    Reply(resp, s.(categories := rows))
  }

  /** PUT /categories/:id/restore, as written: 404 for an unknown or foreign
      category, 400 for a live one, otherwise clear the marker — without
      looking for a live category that has taken the name meanwhile. */
  function RestoreCategory(s: Store, user: nat, id: nat): (r: Reply<()>)
    ensures Find(s.categories, id, user, false).None? ==> r.response == Fail(404, "Category not found")
    ensures Find(s.categories, id, user, false).Some? && !s.categories[Find(s.categories, id, user, false).value].deleted ==>
              r.response == Fail(400, "Category is not deleted")
    ensures r.response.Ok? <==> Find(s.categories, id, user, false).Some?
                                && s.categories[Find(s.categories, id, user, false).value].deleted
    ensures r.response.Fail? ==> r.store == s
    ensures r.response.Ok? ==> r.store == s.(categories := SetDeleted(s.categories, id, false))
  {
    assert "Category" + " not found" == "Category not found";
    assert "Category" + " is not deleted" == "Category is not deleted";
    var (resp, rows) := Restore(s.categories, id, user, "Category");
    Reply(resp, s.(categories := rows))
  }

  /** The restore route can leave a user with two live categories of the same
      name: delete "Food", create a new "Food", restore the old one. */
  lemma RestoreCanDuplicateName()
    ensures var before := [Row(1, 7, CategoryData("Food", ExpenseCategory), true),
                           Row(2, 7, CategoryData("Food", ExpenseCategory), false)];
            var s := Store([], [], before, [], [], []);
            && NamesUnique(before) && UniqueIds(before)
            && RestoreCategory(s, 7, 1).response.Ok?
            && !NamesUnique(RestoreCategory(s, 7, 1).store.categories)
  {
    var before := [Row(1, 7, CategoryData("Food", ExpenseCategory), true),
                   Row(2, 7, CategoryData("Food", ExpenseCategory), false)];
    var s := Store([], [], before, [], [], []);
    assert Find(before, 1, 7, false) == Some(0);
    var after := RestoreCategory(s, 7, 1).store.categories;
    assert !after[0].deleted && !after[1].deleted;
  }

  /** Restore with the name check the create and update routes make: 409 when
      the caller already holds a live category of that name. */
  function RestoreCategoryChecked(s: Store, user: nat, id: nat): (r: Reply<()>)
    ensures Find(s.categories, id, user, false).None? ==> r.response == Fail(404, "Category not found")
    ensures Find(s.categories, id, user, false).Some? && !s.categories[Find(s.categories, id, user, false).value].deleted ==>
              r.response == Fail(400, "Category is not deleted")
    ensures r.response.Ok? <==>
              Find(s.categories, id, user, false).Some?
              && s.categories[Find(s.categories, id, user, false).value].deleted
              && !NameTaken(s.categories, user, s.categories[Find(s.categories, id, user, false).value].data.name, None)
    ensures r.response.Fail? ==> r.store == s
    ensures r.response.Ok? ==> r.store == s.(categories := SetDeleted(s.categories, id, false))
  {
    match Find(s.categories, id, user, false)
    case None => Reply(Fail(404, "Category not found"), s)
    case Some(k) =>
      if !s.categories[k].deleted then Reply(Fail(400, "Category is not deleted"), s)
      else if NameTaken(s.categories, user, s.categories[k].data.name, None) then
        Reply(Fail(409, "Category with this name already exists"), s)
      else Reply(Ok(()), s.(categories := SetDeleted(s.categories, id, false)))
  }

  /** Every write of the corrected route set keeps names unique per user. */
  lemma CreateKeepsNamesUnique(s: Store, user: nat, name: string, kind: CategoryType)
    requires NamesUnique(s.categories)
    ensures NamesUnique(CreateCategory(s, user, name, kind).store.categories)
  {
    var r := CreateCategory(s, user, name, kind);
    if r.response.Ok? {
      forall j | 0 <= j < |s.categories| && !s.categories[j].deleted && s.categories[j].owner == user
        ensures s.categories[j].data.name != name
      {
        if s.categories[j].data.name == name {
          assert NameTaken(s.categories, user, name, None);
        }
      }
    }
  }

  lemma UpdateKeepsNamesUnique(s: Store, user: nat, id: nat, name: string, kind: CategoryType)
    requires UniqueIds(s.categories) && NamesUnique(s.categories)
    ensures NamesUnique(UpdateCategory(s, user, id, name, kind).store.categories)
  {
    var r := UpdateCategory(s, user, id, name, kind);
    if r.response.Ok? {
      var k := FindLive(s.categories, id, user).value;
      forall j | 0 <= j < |s.categories| && j != k && !s.categories[j].deleted && s.categories[j].owner == user
        ensures s.categories[j].data.name != r.response.value.name
      {
        assert s.categories[j].id != id;
        if s.categories[j].data.name == name {
          assert NameTaken(s.categories, user, name, Some(id));
        }
      }
    }
  }

  lemma DeleteKeepsNamesUnique(s: Store, user: nat, id: nat)
    requires NamesUnique(s.categories)
    ensures NamesUnique(DeleteCategory(s, user, id).store.categories)
  {
  }

  lemma RestoreCheckedKeepsNamesUnique(s: Store, user: nat, id: nat)
    requires UniqueIds(s.categories) && NamesUnique(s.categories)
    ensures NamesUnique(RestoreCategoryChecked(s, user, id).store.categories)
  {
    var r := RestoreCategoryChecked(s, user, id);
    if r.response.Ok? {
      var k := Find(s.categories, id, user, false).value;
      var name := s.categories[k].data.name;
      forall j | 0 <= j < |s.categories| && !s.categories[j].deleted && s.categories[j].owner == user
        ensures s.categories[j].data.name != name
      {
        if s.categories[j].data.name == name {
          assert NameTaken(s.categories, user, name, None);
        }
      }
      forall j | 0 <= j < |s.categories| && s.categories[j].id == id
        ensures j == k
      {
      }
    }
  }

  // ---------------------------------------------------------------- statistics

  /** GET /categories/:id/stats. */
  datatype CategoryStats = CategoryStats(transactionCount: nat, totalAmount: real, averageAmount: real,
                                         minAmount: real, maxAmount: real)

  /** The caller's live rows of the category inside the optional window. */
  function InCategory(user: nat, category: nat, start: Option<Date>, end: Option<Date>): Row<TxData> -> bool
  {
    (t: Row<TxData>) => !t.deleted && t.owner == user && t.data.category == Some(category) && InWindow(t.data.date, start, end)
  }

  function MinAmount(rows: seq<Row<TxData>>): (m: real)
    requires |rows| > 0
    ensures forall k :: 0 <= k < |rows| ==> m <= rows[k].data.amount
    ensures exists k :: 0 <= k < |rows| && m == rows[k].data.amount
  {
    if |rows| == 1 then rows[0].data.amount
    else
      var m := MinAmount(rows[..|rows| - 1]);
      var last := rows[|rows| - 1].data.amount;
      if last < m then last else m
  }

  function MaxAmount(rows: seq<Row<TxData>>): (m: real)
    requires |rows| > 0
    ensures forall k :: 0 <= k < |rows| ==> m >= rows[k].data.amount
    ensures exists k :: 0 <= k < |rows| && m == rows[k].data.amount
  {
    if |rows| == 1 then rows[0].data.amount
    else
      var m := MaxAmount(rows[..|rows| - 1]);
      var last := rows[|rows| - 1].data.amount;
      if last > m then last else m
  }

  /** `COUNT`, `SUM`, `AVG`, `MIN`, `MAX` of the amounts, each 0 when there
      are no rows. */
  function StatsOf(rows: seq<Row<TxData>>): (r: CategoryStats)
    ensures r.transactionCount == |rows|
    ensures r.totalAmount == Total(rows, Amount)
    ensures |rows| == 0 ==> r == CategoryStats(0, 0.0, 0.0, 0.0, 0.0)
    ensures |rows| > 0 ==> r.minAmount <= r.averageAmount <= r.maxAmount
    ensures |rows| > 0 ==> r.averageAmount * |rows| as real == r.totalAmount
    ensures forall k :: 0 <= k < |rows| ==> r.minAmount <= rows[k].data.amount <= r.maxAmount
  {
    if |rows| == 0 then CategoryStats(0, 0.0, 0.0, 0.0, 0.0)
    else
      var n := |rows| as real;
      var total := Total(rows, Amount);
      var lo := MinAmount(rows);
      var hi := MaxAmount(rows);
      TotalBounds(rows, lo, hi);
      AverageBetween(total, n, lo, hi);
      CategoryStats(|rows|, total, total / n, lo, hi)
  }

  lemma {:induction false} TotalBounds(rows: seq<Row<TxData>>, lo: real, hi: real)
    requires forall k :: 0 <= k < |rows| ==> lo <= rows[k].data.amount <= hi
    ensures |rows| as real * lo <= Total(rows, Amount) <= |rows| as real * hi
  {
    if |rows| > 0 {
      TotalBounds(rows[..|rows| - 1], lo, hi);
      assert |rows| as real * lo == (|rows| - 1) as real * lo + lo;
      assert |rows| as real * hi == (|rows| - 1) as real * hi + hi;
    }
  }

  lemma AverageBetween(total: real, n: real, lo: real, hi: real)
    requires n > 0.0 && n * lo <= total <= n * hi
    ensures lo <= total / n <= hi
    ensures total / n * n == total
  {
  }

  /** GET /categories/:id/stats: 404 unless the caller holds the live
      category; otherwise the aggregates over its rows in the window. */
  function CategoryStatistics(s: Store, user: nat, id: nat, start: Option<Date>, end: Option<Date>): (r: Response<CategoryStats>)
    ensures r.Fail? <==> FindLive(s.categories, id, user).None?
    ensures r.Fail? ==> r == Fail(404, "Category not found")
    ensures r.Ok? ==> r.value.transactionCount == CountOf(s.transactions, InCategory(user, id, start, end))
    ensures r.Ok? ==> r.value.totalAmount == SumOf(s.transactions, InCategory(user, id, start, end), Amount)
    ensures r.Ok? ==> r.value == StatsOf(Filter(s.transactions, InCategory(user, id, start, end)))
    ensures r.Ok? && r.value.transactionCount > 0 ==> r.value.minAmount <= r.value.averageAmount <= r.value.maxAmount
    ensures r.Ok? && r.value.transactionCount == 0 ==> r.value == CategoryStats(0, 0.0, 0.0, 0.0, 0.0)
    ensures r.Ok? ==> forall k :: 0 <= k < |s.transactions| && InCategory(user, id, start, end)(s.transactions[k]) ==>
              r.value.minAmount <= s.transactions[k].data.amount <= r.value.maxAmount
  {
    if FindLive(s.categories, id, user).None? then Fail(404, "Category not found")
    else
      var p := InCategory(user, id, start, end);
      CountOfIsSizeOfFilter(s.transactions, p);
      SumOfIsTotalOfFilter(s.transactions, p, Amount);
      StatsBoundEveryRow(s.transactions, p);
      Ok(StatsOf(Filter(s.transactions, p)))
  }

  /** MIN and MAX over the matching rows bound the amount of every row of
      the log that matches. */
  lemma StatsBoundEveryRow(txs: seq<Row<TxData>>, p: Row<TxData> -> bool)
    ensures var st := StatsOf(Filter(txs, p));
            forall k :: 0 <= k < |txs| && p(txs[k]) ==> st.minAmount <= txs[k].data.amount <= st.maxAmount
  {
    var rows := Filter(txs, p);
    var st := StatsOf(rows);
    FilterKeeps(txs, p);
    forall k | 0 <= k < |txs| && p(txs[k])
      ensures st.minAmount <= txs[k].data.amount <= st.maxAmount
    {
      assert txs[k] in rows;
      var i :| 0 <= i < |rows| && rows[i] == txs[k];
    }
  }

  // ---------------------------------------------------------------- spending by category

  /** The parameters of the spending report. */
  datatype SpendingQuery = SpendingQuery(user: nat, kind: TxType, start: Option<Date>, end: Option<Date>)

  /** One line of the report. */
  datatype SpendingEntry = SpendingEntry(category: nat, name: string, kind: CategoryType,
                                         totalAmount: real, transactionCount: nat)

  function EntryTotal(e: SpendingEntry): real
  {
    e.totalAmount
  }

  function EntryCategory(e: SpendingEntry): nat
  {
    e.category
  }

  /** The rows the report's join keeps: the caller's live rows of the
      requested type in the window whose category is live. */
  function Joined(cats: seq<Row<CategoryData>>, q: SpendingQuery): Row<TxData> -> bool
  {
    (t: Row<TxData>) =>
      !t.deleted && t.owner == q.user && t.data.kind == q.kind && InWindow(t.data.date, q.start, q.end)
      && t.data.category.Some? && LiveById(cats, t.data.category.value).Some?
  }

  /** The joined rows of one category. */
  function JoinedIn(cats: seq<Row<CategoryData>>, q: SpendingQuery, c: nat): Row<TxData> -> bool
  {
    (t: Row<TxData>) => Joined(cats, q)(t) && t.data.category == Some(c)
  }

  /** The `GROUP BY` keys: each category of a joined row once, in order of
      first appearance. */
  function GroupKeys(txs: seq<Row<TxData>>, cats: seq<Row<CategoryData>>, q: SpendingQuery): (ids: seq<nat>)
    ensures forall i, j :: 0 <= i < j < |ids| ==> ids[i] != ids[j]
    ensures forall i :: 0 <= i < |ids| ==> LiveById(cats, ids[i]).Some?
    ensures forall k :: 0 <= k < |txs| && Joined(cats, q)(txs[k]) ==> txs[k].data.category.value in ids
  {
    if |txs| == 0 then []
    else
      var init := txs[..|txs| - 1];
      var ids := GroupKeys(init, cats, q);
      var t := txs[|txs| - 1];
      assert forall k :: 0 <= k < |init| ==> init[k] == txs[k];
      if Joined(cats, q)(t) && t.data.category.value !in ids then ids + [t.data.category.value]
      else ids
  }

  /** Every key comes from a joined row: no report line is empty. */
  lemma {:induction false} KeysHaveRows(txs: seq<Row<TxData>>, cats: seq<Row<CategoryData>>, q: SpendingQuery)
    ensures forall i :: 0 <= i < |GroupKeys(txs, cats, q)| ==>
              exists k :: 0 <= k < |txs| && JoinedIn(cats, q, GroupKeys(txs, cats, q)[i])(txs[k])
  {
    if |txs| > 0 {
      var init := txs[..|txs| - 1];
      KeysHaveRows(init, cats, q);
      var before := GroupKeys(init, cats, q);
      var ids := GroupKeys(txs, cats, q);
      assert forall k :: 0 <= k < |init| ==> init[k] == txs[k];
      forall i | 0 <= i < |ids|
        ensures exists k :: 0 <= k < |txs| && JoinedIn(cats, q, ids[i])(txs[k])
      {
        if i < |before| {
          assert ids[i] == before[i];
          assert exists k :: 0 <= k < |init| && JoinedIn(cats, q, before[i])(init[k]);
          WitnessInPrefix(txs, init, JoinedIn(cats, q, before[i]));
        } else {
          assert JoinedIn(cats, q, ids[i])(txs[|txs| - 1]);
        }
      }
    } else {
      assert GroupKeys(txs, cats, q) == [];
    }
  }

  /** A row of a prefix of the log is a row of the log. */
  lemma WitnessInPrefix<T>(xs: seq<T>, init: seq<T>, p: T -> bool)
    requires |init| <= |xs| && forall k :: 0 <= k < |init| ==> init[k] == xs[k]
    requires exists k :: 0 <= k < |init| && p(init[k])
    ensures exists k :: 0 <= k < |xs| && p(xs[k])
  {
    var k :| 0 <= k < |init| && p(init[k]);
    assert p(xs[k]);
  }

  /** One report line per key. */
  function Entries(txs: seq<Row<TxData>>, cats: seq<Row<CategoryData>>, q: SpendingQuery, ids: seq<nat>): (r: seq<SpendingEntry>)
    requires forall i :: 0 <= i < |ids| ==> LiveById(cats, ids[i]).Some?
    ensures |r| == |ids|
    ensures forall i :: 0 <= i < |ids| ==>
              r[i].category == ids[i]
              && r[i].totalAmount == SumOf(txs, JoinedIn(cats, q, ids[i]), Amount)
              && r[i].transactionCount == CountOf(txs, JoinedIn(cats, q, ids[i]))
              && r[i].name == cats[LiveById(cats, ids[i]).value].data.name
  {
    if |ids| == 0 then []
    else
      var c := ids[|ids| - 1];
      var row := cats[LiveById(cats, c).value];
      Entries(txs, cats, q, ids[..|ids| - 1])
        + [SpendingEntry(c, row.data.name, row.data.kind, SumOf(txs, JoinedIn(cats, q, c), Amount), CountOf(txs, JoinedIn(cats, q, c)))]
  }

  /** GET /categories/stats/spending: one line per live category with joined
      rows, largest total first. */
  function Spending(s: Store, q: SpendingQuery): (r: seq<SpendingEntry>)
    ensures SortedDesc(r, EntryTotal)
    ensures DistinctBy(r, EntryCategory)
  {
    var ids := GroupKeys(s.transactions, s.categories, q);
    var entries := Entries(s.transactions, s.categories, q, ids);
    SortDescKeepsDistinct(entries, EntryTotal, EntryCategory);
    SortDesc(entries, EntryTotal)
  }

  /** A report line for category `e.category`: a live category, its name,
      and the sum and count of its joined rows, of which there is at least one. */
  predicate LineOf(txs: seq<Row<TxData>>, cats: seq<Row<CategoryData>>, q: SpendingQuery, e: SpendingEntry)
  {
    && LiveById(cats, e.category).Some?
    && e.name == cats[LiveById(cats, e.category).value].data.name
    && e.totalAmount == SumOf(txs, JoinedIn(cats, q, e.category), Amount)
    && e.transactionCount == CountOf(txs, JoinedIn(cats, q, e.category))
    && e.transactionCount > 0
  }

  lemma EntriesAreLines(txs: seq<Row<TxData>>, cats: seq<Row<CategoryData>>, q: SpendingQuery)
    ensures var entries := Entries(txs, cats, q, GroupKeys(txs, cats, q));
            forall e :: e in entries ==> LineOf(txs, cats, q, e)
  {
    var ids := GroupKeys(txs, cats, q);
    var entries := Entries(txs, cats, q, ids);
    KeysHaveRows(txs, cats, q);
    forall j | 0 <= j < |entries|
      ensures LineOf(txs, cats, q, entries[j])
    {
      var k :| 0 <= k < |txs| && JoinedIn(cats, q, ids[j])(txs[k]);
      CountOfPositive(txs, JoinedIn(cats, q, ids[j]), k);
    }
  }

  /** Each line of the report is a line for a live category with joined rows. */
  lemma SpendingLines(s: Store, q: SpendingQuery)
    ensures forall e :: e in Spending(s, q) ==> LineOf(s.transactions, s.categories, q, e)
  {
    var ids := GroupKeys(s.transactions, s.categories, q);
    var entries := Entries(s.transactions, s.categories, q, ids);
    EntriesAreLines(s.transactions, s.categories, q);
    SortDescSameRows(entries, EntryTotal);
  }

  /** Every joined row is accounted for under its own category's line. */
  lemma SpendingCoversRows(s: Store, q: SpendingQuery)
    ensures forall t :: t in s.transactions && Joined(s.categories, q)(t) ==>
              exists e :: e in Spending(s, q) && e.category == t.data.category.value
  {
    forall t | t in s.transactions && Joined(s.categories, q)(t)
      ensures exists e :: e in Spending(s, q) && e.category == t.data.category.value
    {
      var e := LineFor(s.transactions, s.categories, q, t);
      assert e in Spending(s, q);
    }
  }

  /** The report line a joined row is counted under. */
  lemma LineFor(txs: seq<Row<TxData>>, cats: seq<Row<CategoryData>>, q: SpendingQuery, t: Row<TxData>) returns (e: SpendingEntry)
    requires t in txs && Joined(cats, q)(t)
    ensures e in SortDesc(Entries(txs, cats, q, GroupKeys(txs, cats, q)), EntryTotal)
    ensures e.category == t.data.category.value
  {
    var ids := GroupKeys(txs, cats, q);
    var entries := Entries(txs, cats, q, ids);
    var k :| 0 <= k < |txs| && txs[k] == t;
    var j :| 0 <= j < |ids| && ids[j] == t.data.category.value;
    e := entries[j];
    SortDescHas(entries, EntryTotal, e);
  }

  lemma {:induction false} CountOfPositive<T>(xs: seq<T>, p: T -> bool, k: nat)
    requires k < |xs| && p(xs[k])
    ensures CountOf(xs, p) > 0
  {
    if k < |xs| - 1 {
      CountOfPositive(xs[..|xs| - 1], p, k);
    }
  }

  /** The report adds up: the totals of its lines sum to the whole amount of
      the joined rows, so no row is counted twice or dropped. */
  lemma SpendingAddsUp(s: Store, q: SpendingQuery)
    ensures Total(Spending(s, q), EntryTotal) == SumOf(s.transactions, Joined(s.categories, q), Amount)
  {
    var ids := GroupKeys(s.transactions, s.categories, q);
    var entries := Entries(s.transactions, s.categories, q, ids);
    SortDescKeepsTotal(entries, EntryTotal, EntryTotal);
    EntriesTotal(s.transactions, s.categories, q, ids);
    KeysPartition(s.transactions, s.categories, q, ids);
  }

  /** Sum over a list of keys of each key's share of `txs`. */
  function SumOverKeys(txs: seq<Row<TxData>>, cats: seq<Row<CategoryData>>, q: SpendingQuery, ids: seq<nat>): real
  {
    if |ids| == 0 then 0.0
    else SumOverKeys(txs, cats, q, ids[..|ids| - 1]) + SumOf(txs, JoinedIn(cats, q, ids[|ids| - 1]), Amount)
  }

  lemma {:induction false} EntriesTotal(txs: seq<Row<TxData>>, cats: seq<Row<CategoryData>>, q: SpendingQuery, ids: seq<nat>)
    requires forall i :: 0 <= i < |ids| ==> LiveById(cats, ids[i]).Some?
    ensures Total(Entries(txs, cats, q, ids), EntryTotal) == SumOverKeys(txs, cats, q, ids)
  {
    if |ids| > 0 {
      var init := ids[..|ids| - 1];
      EntriesTotal(txs, cats, q, init);
      var es := Entries(txs, cats, q, ids);
      assert es[..|es| - 1] == Entries(txs, cats, q, init);
    }
  }

  /** With distinct keys covering every joined row, the per-key shares add up
      to the whole. */
  lemma {:induction false} KeysPartition(txs: seq<Row<TxData>>, cats: seq<Row<CategoryData>>, q: SpendingQuery, ids: seq<nat>)
    requires forall i, j :: 0 <= i < j < |ids| ==> ids[i] != ids[j]
    requires forall k :: 0 <= k < |txs| && Joined(cats, q)(txs[k]) ==> txs[k].data.category.value in ids
    ensures SumOverKeys(txs, cats, q, ids) == SumOf(txs, Joined(cats, q), Amount)
  {
    if |txs| == 0 {
      EmptyLogNoShares(cats, q, ids);
    } else {
      var init := txs[..|txs| - 1];
      var t := txs[|txs| - 1];
      assert txs == init + [t];
      KeysPartition(init, cats, q, ids);
      KeysSplitLast(init, t, cats, q, ids);
      ShareOfOneRow(t, cats, q, ids);
    }
  }

  lemma {:induction false} EmptyLogNoShares(cats: seq<Row<CategoryData>>, q: SpendingQuery, ids: seq<nat>)
    ensures SumOverKeys([], cats, q, ids) == 0.0
  {
    if |ids| > 0 {
      EmptyLogNoShares(cats, q, ids[..|ids| - 1]);
    }
  }

  /** The contribution of one row to the key sums: its amount under its own
      key, nothing under the others. */
  function RowShare(t: Row<TxData>, cats: seq<Row<CategoryData>>, q: SpendingQuery, ids: seq<nat>): real
  {
    if |ids| == 0 then 0.0
    else RowShare(t, cats, q, ids[..|ids| - 1]) + (if JoinedIn(cats, q, ids[|ids| - 1])(t) then t.data.amount else 0.0)
  }

  lemma {:induction false} KeysSplitLast(init: seq<Row<TxData>>, t: Row<TxData>, cats: seq<Row<CategoryData>>, q: SpendingQuery, ids: seq<nat>)
    ensures SumOverKeys(init + [t], cats, q, ids) == SumOverKeys(init, cats, q, ids) + RowShare(t, cats, q, ids)
  {
    if |ids| > 0 {
      KeysSplitLast(init, t, cats, q, ids[..|ids| - 1]);
      assert (init + [t])[..|init + [t]| - 1] == init;
    }
  }

  lemma {:induction false} ShareOfOneRow(t: Row<TxData>, cats: seq<Row<CategoryData>>, q: SpendingQuery, ids: seq<nat>)
    requires forall i, j :: 0 <= i < j < |ids| ==> ids[i] != ids[j]
    requires Joined(cats, q)(t) ==> t.data.category.value in ids
    ensures RowShare(t, cats, q, ids) == if Joined(cats, q)(t) then t.data.amount else 0.0
  {
    if |ids| > 0 {
      var init := ids[..|ids| - 1];
      var c := ids[|ids| - 1];
      if Joined(cats, q)(t) && t.data.category.value == c {
        assert c !in init;
        NoShareOutsideKeys(t, cats, q, init);
      } else {
        if Joined(cats, q)(t) {
          assert t.data.category.value in init by {
            var i :| 0 <= i < |ids| && ids[i] == t.data.category.value;
            assert i < |ids| - 1;
            assert init[i] == ids[i];
          }
        }
        ShareOfOneRow(t, cats, q, init);
      }
    }
  }

  lemma {:induction false} NoShareOutsideKeys(t: Row<TxData>, cats: seq<Row<CategoryData>>, q: SpendingQuery, ids: seq<nat>)
    requires t.data.category.Some? && t.data.category.value !in ids
    ensures RowShare(t, cats, q, ids) == 0.0
  {
    if |ids| > 0 {
      NoShareOutsideKeys(t, cats, q, ids[..|ids| - 1]);
    }
  }
}

=== FILE: common.dfy ===
/** Shared value types: optional values and the HTTP-style response every
    handler produces. */
module Common {

  /** A value that may be absent (a SQL NULL, a missing request field). */
  datatype Option<+T> = None | Some(value: T) {
    function GetOr(default: T): T {
      match this
      case Some(v) => v
      case None => default
    }
  }

  /** What a route handler answers: a success payload, or an error status
      with the `{ error: message }` text the handler writes. */
  datatype Response<+T> = Ok(value: T) | Fail(status: nat, message: string)
}

=== FILE: dashboard.dfy ===
/** GET /dashboard/summary: the caller's balances grouped into cash,
    investments and liabilities, net worth, the dashboard's own portfolio
    summary, the latest transactions, six months of income and expense, and
    the month's top spending categories. */
module Dashboard {
  import opened Common
  import opened Rows
  import opened Folds
  import opened DateHelpers
  import opened Schema
  import opened Ledger
  import opened Ranking
  import opened Accounts
  import opened Transactions
  import opened Categories
  import opened Portfolio

  // ---------------------------------------------------------------- net worth

  /** The total an account type feeds; other types feed none. */
  datatype Bucket = Cash | Investments | Liabilities | Unbucketed

  function BucketOf(kind: string): Bucket
  {
    if kind in ["Bank", "Cash", "Checking", "Savings"] then Cash
    else if kind in ["Investment", "Brokerage"] then Investments
    else if kind in ["Loan", "Credit", "Debt"] then Liabilities
    else Unbucketed
  }

  function InBucket(b: Bucket): AccountView -> bool
  {
    (v: AccountView) => BucketOf(v.account.data.kind) == b
  }

  function BalanceOf(v: AccountView): real
  {
    v.currentBalance
  }

  /** Liabilities count by magnitude, whatever the sign of the balance. */
  function OwedOf(v: AccountView): real
  {
    Abs(v.currentBalance)
  }

  datatype Totals = Totals(cash: real, investments: real, liabilities: real)

  /** `total_cash`, `total_investments` and `total_liabilities`: each the
      `filter`-then-`reduce` over the accounts whose type is in its list,
      liabilities by magnitude. */
  function BucketTotals(views: seq<AccountView>): (r: Totals)
    ensures r.cash == Total(Filter(views, InBucket(Cash)), BalanceOf)
    ensures r.investments == Total(Filter(views, InBucket(Investments)), BalanceOf)
    ensures r.liabilities == Total(Filter(views, InBucket(Liabilities)), OwedOf)
    ensures r.liabilities >= 0.0
  {
    SumOfNonNegative(views, InBucket(Liabilities), OwedOf);
    SumOfIsTotalOfFilter(views, InBucket(Cash), BalanceOf);
    SumOfIsTotalOfFilter(views, InBucket(Investments), BalanceOf);
    SumOfIsTotalOfFilter(views, InBucket(Liabilities), OwedOf);
    Totals(SumOf(views, InBucket(Cash), BalanceOf),
           SumOf(views, InBucket(Investments), BalanceOf),
           SumOf(views, InBucket(Liabilities), OwedOf))
  }

  /** What one account adds to net worth on its own. */
  function Contribution(v: AccountView): real
  {
    match BucketOf(v.account.data.kind)
    case Cash => v.currentBalance
    case Investments => v.currentBalance
    case Liabilities => -Abs(v.currentBalance)
    case Unbucketed => 0.0
  }

  /** The three bucket totals are one sum of per-account contributions: no
      account is counted twice, and an account of any other type counts for
      nothing. */
  lemma {:induction false} TotalsAreContributions(views: seq<AccountView>)
    ensures var t := BucketTotals(views);
            t.cash + t.investments - t.liabilities == Total(views, Contribution)
  {
    if |views| > 0 {
      TotalsAreContributions(views[..|views| - 1]);
    }
  }

  // ---------------------------------------------------------------- portfolio summary

  /** The `investment_summary` block. */
  datatype PortfolioSummary = PortfolioSummary(totalValue: real, totalInvested: real,
                                               totalUnrealizedPl: real, holdingsCount: nat)

  /** What the helper returns when its query throws. */
  const NoPortfolio := PortfolioSummary(0.0, 0.0, 0.0, 0)

  /** The rows of the summary query: the caller's live trades joined to their
      security. Unlike the holdings query there is no join on accounts, so a
      trade on a deleted account still counts. */
  function SummaryRow(s: Store, user: nat): Row<TradeData> -> bool
  {
    (t: Row<TradeData>) => t.owner == user && !t.deleted && FirstById(s.securities, t.data.security).Some?
  }

  function SummaryRows(s: Store, user: nat): seq<Row<TradeData>>
  {
    Filter(s.trades, SummaryRow(s, user))
  }

  /** `securities.ticker_symbol` of the joined security. */
  function TickerOf(securities: seq<Row<SecurityData>>, t: Row<TradeData>): string
  {
    match FirstById(securities, t.data.security)
    case None => ""
    case Some(k) => securities[k].data.ticker
  }

  function OnTicker(securities: seq<Row<SecurityData>>, ticker: string): Row<TradeData> -> bool
  {
    (t: Row<TradeData>) => TickerOf(securities, t) == ticker
  }

  function RowQuantity(t: Row<TradeData>): real
  {
    NetQuantity(t.data)
  }

  function RowNotional(t: Row<TradeData>): real
  {
    Notional(t.data)
  }

  /** What a trade adds to the running `totalInvested`: a buy its cost, a
      sell minus its proceeds. */
  function CashFlow(t: Row<TradeData>): real
  {
    match t.data.side
    case BUY => Notional(t.data)
    case SELL => -Notional(t.data)
  }

  function OfSide(p: Row<TradeData> -> bool, side: TradeSide): Row<TradeData> -> bool
  {
    (t: Row<TradeData>) => p(t) && t.data.side == side
  }

  /** Net shares of one ticker over the rows. */
  function TickerQuantity(rows: seq<Row<TradeData>>, securities: seq<Row<SecurityData>>, ticker: string): real
  {
    SumOf(rows, OnTicker(securities, ticker), RowQuantity)
  }

  predicate HasTicker(rows: seq<Row<TradeData>>, securities: seq<Row<SecurityData>>, ticker: string)
  {
    exists k :: 0 <= k < |rows| && TickerOf(securities, rows[k]) == ticker
  }

  lemma HasTickerSnoc(rows: seq<Row<TradeData>>, securities: seq<Row<SecurityData>>, ticker: string)
    requires |rows| > 0
    ensures HasTicker(rows, securities, ticker)
            <==> HasTicker(rows[..|rows| - 1], securities, ticker) || TickerOf(securities, rows[|rows| - 1]) == ticker
  {
    var init := rows[..|rows| - 1];
    if HasTicker(rows, securities, ticker) {
      var k :| 0 <= k < |rows| && TickerOf(securities, rows[k]) == ticker;
      if k < |init| {
        assert init[k] == rows[k];
      }
    }
    if HasTicker(init, securities, ticker) {
      var k :| 0 <= k < |init| && TickerOf(securities, init[k]) == ticker;
      assert rows[k] == init[k];
    }
  }

  /** The `holdingsMap` pass, keyed by ticker alone. Only the quantities are
      kept: the per-ticker invested figure it also updates never reaches the
      response. */
  function TickerPass(rows: seq<Row<TradeData>>, securities: seq<Row<SecurityData>>): (m: map<string, real>)
    ensures forall tk :: tk in m <==> HasTicker(rows, securities, tk)
    ensures forall tk :: tk in m ==> m[tk] == TickerQuantity(rows, securities, tk)
  {
    if |rows| == 0 then map[]
    else
      var m := TickerPass(rows[..|rows| - 1], securities);
      TickerPassStep(rows, securities, m);
      var tk := TickerOf(securities, rows[|rows| - 1]);
      m[tk := (if tk in m then m[tk] else 0.0) + RowQuantity(rows[|rows| - 1])]
  }

  lemma TickerPassStep(rows: seq<Row<TradeData>>, securities: seq<Row<SecurityData>>, m: map<string, real>)
    requires |rows| > 0
    requires forall tk :: tk in m <==> HasTicker(rows[..|rows| - 1], securities, tk)
    requires forall tk :: tk in m ==> m[tk] == TickerQuantity(rows[..|rows| - 1], securities, tk)
    ensures var t := rows[|rows| - 1];
            var tk := TickerOf(securities, t);
            var m' := m[tk := (if tk in m then m[tk] else 0.0) + RowQuantity(t)];
            && (forall x :: x in m' <==> HasTicker(rows, securities, x))
            && (forall x :: x in m' ==> m'[x] == TickerQuantity(rows, securities, x))
  {
    var init := rows[..|rows| - 1];
    var t := rows[|rows| - 1];
    var tk := TickerOf(securities, t);
    forall x
      ensures HasTicker(rows, securities, x) <==> HasTicker(init, securities, x) || tk == x
    {
      HasTickerSnoc(rows, securities, x);
    }
    if tk !in m {
      assert !HasTicker(init, securities, tk);
      SumOfNoMatch(init, OnTicker(securities, tk), RowQuantity);
    }
  }

  /** Each ticker of the rows once, in order of first appearance. */
  function TickerList(rows: seq<Row<TradeData>>, securities: seq<Row<SecurityData>>): (ks: seq<string>)
    ensures Distinct(ks)
    ensures forall tk :: tk in ks <==> HasTicker(rows, securities, tk)
  {
    if |rows| == 0 then []
    else
      var ks := TickerList(rows[..|rows| - 1], securities);
      var tk := TickerOf(securities, rows[|rows| - 1]);
      assert forall x :: HasTicker(rows, securities, x) <==> HasTicker(rows[..|rows| - 1], securities, x) || tk == x by {
        forall x
          ensures HasTicker(rows, securities, x) <==> HasTicker(rows[..|rows| - 1], securities, x) || tk == x
        {
          HasTickerSnoc(rows, securities, x);
        }
      }
      if tk in ks then ks else ks + [tk]
  }

  /** `activeHoldings`: the tickers whose net quantity is positive, each once. */
  function ActiveTickers(rows: seq<Row<TradeData>>, securities: seq<Row<SecurityData>>): (r: seq<string>)
    ensures Distinct(r)
    ensures forall tk :: tk in r <==> HasTicker(rows, securities, tk) && TickerQuantity(rows, securities, tk) > 0.0
  {
    var m := TickerPass(rows, securities);
    var ks := TickerList(rows, securities);
    var held := (tk: string) => tk in m && m[tk] > 0.0;
    FilterKeeps(ks, held);
    FilterKeepsDistinct(ks, held);
    Filter(ks, held)
  }

  /** `getPortfolioSummary`; `fails` stands for the query throwing, which the
      helper answers with zeros. */
  function PortfolioSummaryOf(s: Store, user: nat, fails: bool): (r: PortfolioSummary)
    ensures fails ==> r == NoPortfolio
    ensures !fails ==> r.totalValue == r.totalInvested && r.totalUnrealizedPl == 0.0
    ensures !fails ==> r.totalInvested == SumOf(s.trades, OfSide(SummaryRow(s, user), BUY), RowNotional)
                                         - SumOf(s.trades, OfSide(SummaryRow(s, user), SELL), RowNotional)
    ensures !fails ==> r.holdingsCount == |ActiveTickers(SummaryRows(s, user), s.securities)|
  {
    if fails then NoPortfolio
    else
      var rows := SummaryRows(s, user);
      var invested := Total(rows, CashFlow);
      SumOfIsTotalOfFilter(s.trades, SummaryRow(s, user), CashFlow);
      CashFlowSplit(s.trades, SummaryRow(s, user));
      PortfolioSummary(invested, invested, 0.0, |ActiveTickers(rows, s.securities)|)
  }

  /** The running total of buys minus sells is the cost of everything bought
      less the proceeds of everything sold. */
  lemma {:induction false} CashFlowSplit(trades: seq<Row<TradeData>>, p: Row<TradeData> -> bool)
    ensures SumOf(trades, p, CashFlow) == SumOf(trades, OfSide(p, BUY), RowNotional) - SumOf(trades, OfSide(p, SELL), RowNotional)
  {
    if |trades| > 0 {
      CashFlowSplit(trades[..|trades| - 1], p);
    }
  }

  /** The dashboard's `total_invested` is a net cash flow, not the cost basis
      the holdings route reports: after BUY 10 at 100 and SELL 4 at 150 the
      dashboard shows 400 while the holding carries 600. */
  lemma CashFlowIsNotCostBasis(user: nat, account: nat, security: nat, d: Date)
    ensures var buy := TradeData(account, security, BUY, 10.0, 100.0, d);
            var sell := TradeData(account, security, SELL, 4.0, 150.0, d);
            var rows := [Row(1, user, buy, false), Row(2, user, sell, false)];
            && Total(rows, CashFlow) == 400.0
            && SellsNonNegative([buy, sell])
            && Replay(Flat, [buy, sell], false).invested == 600.0
  {
    var buy := TradeData(account, security, BUY, 10.0, 100.0, d);
    var sell := TradeData(account, security, SELL, 4.0, 150.0, d);
    var rows := [Row(1, user, buy, false), Row(2, user, sell, false)];
    assert rows[..1] == [rows[0]];
    assert [rows[0]][..0] == [];
    assert Total(rows[..1], CashFlow) == 1000.0;
    assert CashFlow(rows[1]) == -600.0;
    BuyThenPartialSell(account, security, 150.0, d);
  }

  // ---------------------------------------------------------------- monthly trends

  /** One entry of `monthly_trends`. */
  datatype MonthTrend = MonthTrend(month: YearMonth, income: real, expense: real, net: real)

  /** The month of `new Date(year, month - i, 1)`: `i` months before today's. */
  function TrendMonth(today: Date, i: int): (r: YearMonth)
    requires Valid(today)
    ensures r == ShiftMonth(MonthOf(today), -i)
  {
    ShiftMonthMatchesMakeDate(today, i);
    MonthOf(MakeDate(today.year, today.month - 1 - i, 1))
  }

  /** The income and expense sums of the caller's live rows dated between the
      first and the last day of the month, both included. */
  function MonthTotals(txs: seq<Row<TxData>>, user: nat, ym: YearMonth): (r: MonthTrend)
    ensures r.month == ym
    ensures r.net == r.income - r.expense
  {
    var sum := Summary(txs, user, Some(MonthStart(ym)), Some(MonthEnd(ym)), None);
    MonthTrend(ym, sum.totalIncome, sum.totalExpenses, sum.netIncome)
  }

  /** `getMonthlyTrends`: the six months ending with today's, oldest first;
      `fails` stands for a query throwing, which the helper answers with no
      entries at all. */
  function Trends(txs: seq<Row<TxData>>, user: nat, today: Date, fails: bool): (r: seq<MonthTrend>)
    requires Valid(today)
    ensures fails ==> r == []
    ensures !fails ==> |r| == 6 && r[5].month == MonthOf(today)
    ensures !fails ==> forall i :: 0 <= i < 6 ==> r[i].month == ShiftMonth(MonthOf(today), i - 5)
    ensures forall i :: 0 <= i < |r| ==> r[i].net == r[i].income - r[i].expense
  {
    if fails then []
    else
      ShiftMonthByZero(MonthOf(today));
      MonthsBack(txs, user, today, 5)
  }

  /** The loop `for (i = from; i >= 0; i--)`: the entries for `from`, ...,
      1, 0 months back. */
  function MonthsBack(txs: seq<Row<TxData>>, user: nat, today: Date, from: nat): (r: seq<MonthTrend>)
    requires Valid(today)
    ensures |r| == from + 1
    ensures forall j :: 0 <= j < |r| ==> r[j].month == ShiftMonth(MonthOf(today), j - from)
    ensures forall j :: 0 <= j < |r| ==> r[j] == MonthTotals(txs, user, r[j].month)
  {
    var head := MonthTotals(txs, user, TrendMonth(today, from));
    if from == 0 then [head]
    else [head] + MonthsBack(txs, user, today, from - 1)
  }

  lemma ShiftMonthByZero(ym: YearMonth)
    requires 1 <= ym.month <= 12
    ensures ShiftMonth(ym, 0) == ym
  {
    assert (ym.month - 1) / 12 == 0 && (ym.month - 1) % 12 == ym.month - 1;
  }

  /** The caller's live rows of one type dated in one calendar month. */
  function InMonth(user: nat, ym: YearMonth, kind: TxType): Row<TxData> -> bool
  {
    (t: Row<TxData>) => !t.deleted && t.owner == user && t.data.kind == kind && MonthOf(t.data.date) == ym
  }

  predicate DatesValid(txs: seq<Row<TxData>>)
  {
    forall k :: 0 <= k < |txs| ==> Valid(txs[k].data.date)
  }

  /** On a log of real dates the date window of a trend month is exactly that
      calendar month: each entry sums the income and the expense booked in its
      own month, and nothing from the months around it. */
  lemma TrendIsCalendarMonth(txs: seq<Row<TxData>>, user: nat, today: Date, i: nat)
    requires Valid(today) && DatesValid(txs) && i < 6
    ensures var r := Trends(txs, user, today, false);
            && r[i].income == SumOf(txs, InMonth(user, r[i].month, INCOME), Amount)
            && r[i].expense == SumOf(txs, InMonth(user, r[i].month, EXPENSE), Amount)
  {
    var ym := ShiftMonth(MonthOf(today), i - 5);
    assert Trends(txs, user, today, false)[i] == MonthTotals(txs, user, ym);
    MonthWindowSums(txs, user, ym, INCOME);
    MonthWindowSums(txs, user, ym, EXPENSE);
  }

  lemma MonthWindowSums(txs: seq<Row<TxData>>, user: nat, ym: YearMonth, kind: TxType)
    requires DatesValid(txs) && 1 <= ym.month <= 12
    ensures SumOf(txs, InScopeOfKind(user, Some(MonthStart(ym)), Some(MonthEnd(ym)), None, kind), Amount)
            == SumOf(txs, InMonth(user, ym, kind), Amount)
  {
    var p := InScopeOfKind(user, Some(MonthStart(ym)), Some(MonthEnd(ym)), None, kind);
    forall k | 0 <= k < |txs|
      ensures p(txs[k]) == InMonth(user, ym, kind)(txs[k])
    {
      var t := txs[k];
      var d := t.data.date;
      InMonthWindow(d, ym);
      assert p(t) == (InScope(user, Some(MonthStart(ym)), Some(MonthEnd(ym)), None)(t) && t.data.kind == kind);
      assert InScope(user, Some(MonthStart(ym)), Some(MonthEnd(ym)), None)(t)
             == (!t.deleted && t.owner == user && InWindow(d, Some(MonthStart(ym)), Some(MonthEnd(ym))));
      assert InWindow(d, Some(MonthStart(ym)), Some(MonthEnd(ym))) == IsDateInRange(d, MonthStart(ym), MonthEnd(ym));
    }
    SameConditionSameSum(txs, p, InMonth(user, ym, kind));
  }

  // ---------------------------------------------------------------- recent transactions

  /** One entry of `recent_transactions`. */
  datatype RecentEntry = RecentEntry(id: nat, description: string, amount: real, kind: TxType,
                                     date: Date, accountName: string, categoryName: Option<string>)

  /** The rows of the recent query: the caller's live transactions on a live
      account. */
  function RecentRow(s: Store, user: nat): Row<TxData> -> bool
  {
    (t: Row<TxData>) => t.owner == user && !t.deleted && LiveById(s.accounts, t.data.account).Some?
  }

  /** `ORDER BY transaction_date DESC, created_at DESC` as one key: the date
      number plus a fraction below 1 that grows with the id, which stands in
      for the creation time. */
  function Recency(t: Row<TxData>): real
  {
    DateKey(t.data.date) as real + IdFraction(t.id)
  }

  function IdFraction(id: nat): real
  {
    id as real / (id as real + 1.0)
  }

  lemma IdFractionBounds(id: nat)
    ensures 0.0 <= IdFraction(id) < 1.0
  {
    var x := id as real;
    assert IdFraction(id) * (x + 1.0) == x;
  }

  lemma IdFractionMonotone(a: nat, b: nat)
    requires a < b
    ensures IdFraction(a) < IdFraction(b)
  {
    var x, y := a as real, b as real;
    assert IdFraction(a) == 1.0 - 1.0 / (x + 1.0);
    assert IdFraction(b) == 1.0 - 1.0 / (y + 1.0);
    assert 1.0 / (y + 1.0) < 1.0 / (x + 1.0) by {
      assert (1.0 / (y + 1.0)) * (y + 1.0) == 1.0;
      assert (1.0 / (x + 1.0)) * (x + 1.0) == 1.0;
    }
  }

  /** A row with a larger key is on a later date, or on the same date with a
      larger id: the key orders rows as the two `ORDER BY` terms do. */
  lemma RecencyOrder(a: Row<TxData>, b: Row<TxData>)
    requires Recency(b) <= Recency(a)
    ensures DateKey(b.data.date) <= DateKey(a.data.date)
    ensures DateKey(b.data.date) == DateKey(a.data.date) ==> b.id <= a.id
  {
    IdFractionBounds(a.id);
    IdFractionBounds(b.id);
    if DateKey(b.data.date) == DateKey(a.data.date) && a.id < b.id {
      IdFractionMonotone(a.id, b.id);
    }
  }

  /** The ten newest qualifying rows, newest first. */
  function RecentRows(s: Store, user: nat): (r: seq<Row<TxData>>)
    ensures |r| <= 10
    ensures forall t :: t in r ==> t in s.transactions && RecentRow(s, user)(t)
    ensures SortedDesc(r, Recency)
  {
    var rows := Filter(s.transactions, RecentRow(s, user));
    var sorted := SortDesc(rows, Recency);
    SortDescSameRows(rows, Recency);
    TakeKeepsOrder(sorted, 10, Recency);
    assert forall t :: t in Take(sorted, 10) ==> t in sorted;
    Take(sorted, 10)
  }

  /** No qualifying row left out of the ten is newer than any row shown, and
      fewer than ten are shown only when there are no more. */
  lemma RecentRowsAreNewest(s: Store, user: nat)
    ensures var r := RecentRows(s, user);
            && (forall t :: t in s.transactions && RecentRow(s, user)(t) && t !in r ==>
                  |r| == 10 && forall k :: 0 <= k < |r| ==> Recency(t) <= Recency(r[k]))
  {
    var rows := Filter(s.transactions, RecentRow(s, user));
    var sorted := SortDesc(rows, Recency);
    var r := RecentRows(s, user);
    FilterKeeps(s.transactions, RecentRow(s, user));
    SortDescSameRows(rows, Recency);
    TakeKeepsOrder(sorted, 10, Recency);
    forall t | t in s.transactions && RecentRow(s, user)(t) && t !in r
      ensures |r| == 10 && forall k :: 0 <= k < |r| ==> Recency(t) <= Recency(r[k])
    {
      var j :| 0 <= j < |sorted| && sorted[j] == t;
    }
  }

  /** A row as the recent list shows it. */
  function EntryOf(s: Store, t: Row<TxData>): (e: RecentEntry)
    ensures e.id == t.id && e.kind == t.data.kind && e.date == t.data.date
  {
    var account := AccountName(s.accounts, t.data.account);
    var category := match t.data.category
                    case None => None
                    case Some(c) =>
                      match FirstById(s.categories, c)
                      case None => None
                      case Some(k) => Some(s.categories[k].data.name);
    RecentEntry(t.id, OrText(t.data.description, TxTypeName(t.data.kind) + " - " + account),
                if t.data.kind == EXPENSE then -t.data.amount else t.data.amount,
                t.data.kind, t.data.date, account, category)
  }

  /** The shown amount is the row's effect on its account's balance for
      income and expense; a transfer leg, which moves no balance, shows its
      positive amount. A missing or empty description falls back to the type
      and the account name. */
  lemma EntryMatchesLedger(s: Store, t: Row<TxData>)
    ensures t.data.kind != TRANSFER ==> EntryOf(s, t).amount == Signed(t)
    ensures t.data.kind == TRANSFER ==> EntryOf(s, t).amount == t.data.amount && Signed(t) == 0.0
    ensures Truthy(t.data.description) ==> EntryOf(s, t).description == t.data.description.value
    ensures !Truthy(t.data.description) ==>
              EntryOf(s, t).description == TxTypeName(t.data.kind) + " - " + EntryOf(s, t).accountName
  {
  }

  function Recent(s: Store, user: nat): (r: seq<RecentEntry>)
    ensures |r| == |RecentRows(s, user)|
    ensures forall k :: 0 <= k < |r| ==> r[k] == EntryOf(s, RecentRows(s, user)[k])
  {
    var rows := RecentRows(s, user);
    seq(|rows|, k requires 0 <= k < |rows| => EntryOf(s, rows[k]))
  }

  // ---------------------------------------------------------------- top categories

  /** The spending report restricted to the caller's EXPENSE rows of today's
      month. */
  function MonthQuery(user: nat, today: Date): SpendingQuery
  {
    SpendingQuery(user, EXPENSE, Some(StartOfMonth(today)), Some(EndOfMonth(today)))
  }

  /** `top_categories`: the five largest lines of the month's spending report. */
  function TopCategories(s: Store, user: nat, today: Date): (r: seq<SpendingEntry>)
    ensures |r| <= 5
    ensures SortedDesc(r, EntryTotal) && DistinctBy(r, EntryCategory)
    ensures forall e :: e in r ==> LineOf(s.transactions, s.categories, MonthQuery(user, today), e)
    ensures forall e :: e in Spending(s, MonthQuery(user, today)) && e !in r ==>
              |r| == 5 && forall k :: 0 <= k < |r| ==> e.totalAmount <= r[k].totalAmount
  {
    var q := MonthQuery(user, today);
    SpendingLines(s, q);
    TopOfReport(s.transactions, s.categories, q, Spending(s, q));
    Take(Spending(s, q), 5)
  }

  /** The first five lines of a sorted report are its five largest. */
  lemma TopOfReport(txs: seq<Row<TxData>>, cats: seq<Row<CategoryData>>, q: SpendingQuery, all: seq<SpendingEntry>)
    requires SortedDesc(all, EntryTotal) && DistinctBy(all, EntryCategory)
    requires forall e :: e in all ==> LineOf(txs, cats, q, e)
    ensures var top := Take(all, 5);
            && SortedDesc(top, EntryTotal) && DistinctBy(top, EntryCategory)
            && (forall e :: e in top ==> LineOf(txs, cats, q, e))
            && (forall e :: e in all && e !in top ==>
                  |top| == 5 && forall k :: 0 <= k < |top| ==> e.totalAmount <= top[k].totalAmount)
  {
    var top := Take(all, 5);
    TakeKeepsOrder(all, 5, EntryTotal);
    assert forall e :: e in top ==> e in all;
    forall e | e in all && e !in top
      ensures |top| == 5 && forall k :: 0 <= k < |top| ==> e.totalAmount <= top[k].totalAmount
    {
      var j :| 0 <= j < |all| && all[j] == e;
    }
  }

  /** On a log of real dates the month's report counts exactly the expense
      rows booked in today's calendar month. */
  lemma MonthQueryIsCalendarMonth(s: Store, user: nat, today: Date, t: Row<TxData>)
    requires Valid(today) && Valid(t.data.date)
    ensures Joined(s.categories, MonthQuery(user, today))(t)
            <==> InMonth(user, MonthOf(today), EXPENSE)(t)
                 && t.data.category.Some? && LiveById(s.categories, t.data.category.value).Some?
  {
    InMonthWindow(t.data.date, MonthOf(today));
  }

  // ---------------------------------------------------------------- the summary

  /** The response of GET /dashboard/summary, before `toFixed` rounding. */
  datatype DashboardSummary = DashboardSummary(netWorth: real, totalCash: real, totalInvestments: real,
                                               totalLiabilities: real, balances: seq<AccountView>,
                                               investment: PortfolioSummary, recent: seq<RecentEntry>,
                                               trends: seq<MonthTrend>, topCategories: seq<SpendingEntry>)

  /** The whole summary; `portfolioFails` and `trendsFail` stand for the two
      helpers' queries throwing. */
  function GetSummary(s: Store, user: nat, today: Date, portfolioFails: bool, trendsFail: bool): (r: DashboardSummary)
    requires Valid(today)
    ensures r.netWorth == Total(r.balances, Contribution) + r.investment.totalValue
    ensures r.netWorth == r.totalCash + r.totalInvestments + r.investment.totalValue - r.totalLiabilities
    ensures Totals(r.totalCash, r.totalInvestments, r.totalLiabilities) == BucketTotals(r.balances)
    ensures r.totalLiabilities >= 0.0
    ensures r.balances == ListAccounts(s, user)
    ensures forall k :: 0 <= k < |r.balances| ==>
              r.balances[k].account in s.accounts && r.balances[k].account.owner == user && !r.balances[k].account.deleted
              && r.balances[k].currentBalance == Balance(s.transactions, r.balances[k].account)
    ensures forall k :: 0 <= k < |s.accounts| && s.accounts[k].owner == user && !s.accounts[k].deleted ==>
              exists j :: 0 <= j < |r.balances| && r.balances[j].account == s.accounts[k]
    ensures r.recent == Recent(s, user)
    ensures r.trends == Trends(s.transactions, user, today, trendsFail)
    ensures r.topCategories == TopCategories(s, user, today)
    ensures r.investment == PortfolioSummaryOf(s, user, portfolioFails)
    ensures |r.recent| <= 10 && |r.topCategories| <= 5
    ensures |r.trends| == (if trendsFail then 0 else 6)
  {
    var balances := ListAccounts(s, user);
    var totals := BucketTotals(balances);
    var portfolio := PortfolioSummaryOf(s, user, portfolioFails);
    TotalsAreContributions(balances);
    DashboardSummary(totals.cash + totals.investments + portfolio.totalValue - totals.liabilities,
                     totals.cash, totals.investments, totals.liabilities, balances, portfolio,
                     Recent(s, user), Trends(s.transactions, user, today, trendsFail),
                     TopCategories(s, user, today))
  }
}

=== FILE: date_helpers.dfy ===
/** Calendar arithmetic of the API's date helpers, on proleptic Gregorian
    (year, month, day) triples instead of millisecond timestamps. */
module DateHelpers {
  import opened Common

  /** A calendar day; `month` is 1-based, `day` is the day of the month. */
  datatype Date = Date(year: int, month: int, day: int)

  predicate IsLeapYear(y: int)
  {
    y % 4 == 0 && (y % 100 != 0 || y % 400 == 0)
  }

  function DaysInMonth(y: int, m: int): (n: int)
    requires 1 <= m <= 12
    ensures 28 <= n <= 31
    ensures n == 29 <==> m == 2 && IsLeapYear(y)
    ensures n == 28 <==> m == 2 && !IsLeapYear(y)
    ensures n == 30 <==> m in {4, 6, 9, 11}
  {
    if m == 2 then (if IsLeapYear(y) then 29 else 28)
    else if m == 4 || m == 6 || m == 9 || m == 11 then 30
    else 31
  }

  /** A triple that names a real calendar day. */
  predicate Valid(d: Date)
  {
    1 <= d.month <= 12 && 1 <= d.day <= DaysInMonth(d.year, d.month)
  }

  /** Chronological order on days (`<=` on the timestamps of two midnights). */
  predicate Le(a: Date, b: Date)
  {
    a.year < b.year
    || (a.year == b.year && a.month < b.month)
    || (a.year == b.year && a.month == b.month && a.day <= b.day)
  }

  predicate Lt(a: Date, b: Date)
  {
    Le(a, b) && a != b
  }

  lemma LeTotal(a: Date, b: Date)
    ensures Le(a, b) || Le(b, a)
    ensures Le(a, b) && Le(b, a) ==> a == b
  {
  }

  lemma LeTransitive(a: Date, b: Date, c: Date)
    requires Le(a, b) && Le(b, c)
    ensures Le(a, c)
  {
  }

  /** The day after `d`, rolling over month and year ends. */
  function NextDay(d: Date): (r: Date)
    requires Valid(d)
    ensures Valid(r) && Lt(d, r)
  {
    if d.day < DaysInMonth(d.year, d.month) then Date(d.year, d.month, d.day + 1)
    else if d.month < 12 then Date(d.year, d.month + 1, 1)
    else Date(d.year + 1, 1, 1)
  }

  /** The day before `d`, rolling back over month and year starts. */
  function PrevDay(d: Date): (r: Date)
    requires Valid(d)
    ensures Valid(r) && Lt(r, d)
  {
    if d.day > 1 then Date(d.year, d.month, d.day - 1)
    else if d.month > 1 then Date(d.year, d.month - 1, DaysInMonth(d.year, d.month - 1))
    else Date(d.year - 1, 12, 31)
  }

  lemma PrevDayOfNextDay(d: Date)
    requires Valid(d)
    ensures PrevDay(NextDay(d)) == d
  {
  }

  lemma NextDayOfPrevDay(d: Date)
    requires Valid(d)
    ensures NextDay(PrevDay(d)) == d
  {
  }

  /** `addDays`: `setDate(getDate() + n)`, which the Date object normalises
      across month and year boundaries; here one day at a time. */
  function AddDays(d: Date, n: int): (r: Date)
    requires Valid(d)
    ensures Valid(r)
    ensures n > 0 ==> Lt(d, r)
    ensures n < 0 ==> Lt(r, d)
    decreases if n < 0 then -n else n
  {
    if n == 0 then d
    else if n > 0 then
      var r := AddDays(NextDay(d), n - 1);
      LeTransitive(d, NextDay(d), r);
      r
    else
      var r := AddDays(PrevDay(d), n + 1);
      LeTransitive(r, PrevDay(d), d);
      r
  }

  /** `subtractDays`: `setDate(getDate() - n)`. */
  function SubtractDays(d: Date, n: int): (r: Date)
    requires Valid(d)
    ensures Valid(r)
    ensures n > 0 ==> Lt(r, d)
  {
    AddDays(d, -n)
  }

  /** Stepping one day forward and then `n` more is stepping `n + 1`. */
  lemma {:induction false} AddDaysShift(d: Date, n: int)
    requires Valid(d)
    ensures AddDays(NextDay(d), n) == AddDays(d, n + 1)
    decreases if n < 0 then -n else n
  {
    if n == 0 {
    } else if n > 0 {
    } else if n == -1 {
      PrevDayOfNextDay(d);
    } else {
      PrevDayOfNextDay(d);
      var p := PrevDay(d);
      NextDayOfPrevDay(d);
      AddDaysShift(p, n + 1);
    }
  }

  /** Adding `a` days and then `b` days is adding `a + b` days. */
  lemma {:induction false} AddDaysCompose(d: Date, a: int, b: int)
    requires Valid(d)
    ensures AddDays(AddDays(d, a), b) == AddDays(d, a + b)
    decreases if a < 0 then -a else a
  {
    if a == 0 {
    } else if a > 0 {
      AddDaysCompose(NextDay(d), a - 1, b);
      AddDaysShift(d, a - 1 + b);
    } else {
      var p := PrevDay(d);
      AddDaysCompose(p, a + 1, b);
      NextDayOfPrevDay(d);
      AddDaysShift(p, a + b);
    }
  }

  /** `subtractDays(addDays(d, n), n)` gives back `d`, and the other way round. */
  lemma SubtractAfterAddDays(d: Date, n: int)
    requires Valid(d)
    ensures SubtractDays(AddDays(d, n), n) == d
    ensures AddDays(SubtractDays(d, n), n) == d
  {
    AddDaysCompose(d, n, -n);
    AddDaysCompose(d, -n, n);
  }

  /** The JavaScript constructor `new Date(year, monthIndex, day)`: a 0-based
      month index that may run outside 0..11 and a day that may run outside the
      month, both normalised. */
  function MakeDate(year: int, monthIndex: int, day: int): (r: Date)
    ensures Valid(r)
  {
    AddDays(Date(year + monthIndex / 12, monthIndex % 12 + 1, 1), day - 1)
  }

  /** `getStartOfMonth`. */
  function StartOfMonth(d: Date): (r: Date)
    ensures Valid(r)
  {
    MakeDate(d.year, d.month - 1, 1)
  }

  /** `getEndOfMonth`: day 0 of the following month. */
  function EndOfMonth(d: Date): (r: Date)
    ensures Valid(r)
  {
    MakeDate(d.year, d.month, 0)
  }

  /** `getStartOfYear`. */
  function StartOfYear(d: Date): (r: Date)
    ensures Valid(r)
  {
    MakeDate(d.year, 0, 1)
  }

  /** `getEndOfYear`. */
  function EndOfYear(d: Date): (r: Date)
    ensures Valid(r)
  {
    MakeDate(d.year, 11, 31)
  }

  /** `isDateInRange`: both ends inclusive. */
  predicate IsDateInRange(d: Date, start: Date, end: Date)
  {
    Le(start, d) && Le(d, end)
  }

  /** The optional `startDate` / `endDate` filters of the listing queries
      (`transaction_date >= ?`, `transaction_date <= ?`). */
  predicate InWindow(d: Date, start: Option<Date>, end: Option<Date>)
  {
    (start.None? || Le(start.value, d)) && (end.None? || Le(d, end.value))
  }

  lemma StartOfMonthIsDayOne(d: Date)
    requires Valid(d)
    ensures StartOfMonth(d) == Date(d.year, d.month, 1)
  {
    assert (d.month - 1) / 12 == 0 && (d.month - 1) % 12 == d.month - 1;
  }

  /** Day 0 of month `m + 1` is the last day of month `m`, whatever the
      month length and leap year. */
  lemma EndOfMonthIsLastDay(d: Date)
    requires Valid(d)
    ensures EndOfMonth(d) == Date(d.year, d.month, DaysInMonth(d.year, d.month))
  {
    var first := Date(d.year + d.month / 12, d.month % 12 + 1, 1);
    assert AddDays(first, -1) == AddDays(PrevDay(first), 0);
    if d.month == 12 {
      assert first == Date(d.year + 1, 1, 1);
    } else {
      assert d.month / 12 == 0 && d.month % 12 == d.month;
    }
  }

  lemma YearBounds(d: Date)
    ensures StartOfYear(d) == Date(d.year, 1, 1)
    ensures EndOfYear(d) == Date(d.year, 12, 31)
  {
    assert AddDays(Date(d.year, 12, 1), 30) == Date(d.year, 12, 31) by {
      var k := 0;
      while k < 30
        invariant 0 <= k <= 30
        invariant AddDays(Date(d.year, 12, 1 + k), 30 - k) == AddDays(Date(d.year, 12, 1), 30)
      {
        assert NextDay(Date(d.year, 12, 1 + k)) == Date(d.year, 12, 2 + k);
        k := k + 1;
      }
    }
  }

  /** Every day lies within its own month: `startOfMonth(d) <= d <= endOfMonth(d)`. */
  lemma MonthContainsDay(d: Date)
    requires Valid(d)
    ensures IsDateInRange(d, StartOfMonth(d), EndOfMonth(d))
  {
    StartOfMonthIsDayOne(d);
    EndOfMonthIsLastDay(d);
  }

  /** Every day lies within its own year. */
  lemma YearContainsDay(d: Date)
    requires Valid(d)
    ensures IsDateInRange(d, StartOfYear(d), EndOfYear(d))
  {
    YearBounds(d);
  }

  /** A calendar month, as the `YYYY-MM` label of the dashboard trend. */
  datatype YearMonth = YearMonth(year: int, month: int)

  function MonthOf(d: Date): YearMonth
  {
    YearMonth(d.year, d.month)
  }

  /** The month `k` months after `ym` (before it when `k < 0`). */
  function ShiftMonth(ym: YearMonth, k: int): (r: YearMonth)
    requires 1 <= ym.month <= 12
    ensures 1 <= r.month <= 12
    ensures r.year * 12 + r.month == ym.year * 12 + ym.month + k
  {
    var idx := ym.month - 1 + k;
    YearMonth(ym.year + idx / 12, idx % 12 + 1)
  }

  lemma ShiftMonthMatchesMakeDate(d: Date, i: int)
    requires Valid(d)
    ensures MonthOf(MakeDate(d.year, d.month - 1 - i, 1)) == ShiftMonth(MonthOf(d), -i)
  {
  }

  /** The window of one trend month: `new Date(year, month, 1)` to
      `new Date(year, month + 1, 0)` with a 0-based `month`. */
  function MonthStart(ym: YearMonth): Date
  {
    StartOfMonth(Date(ym.year, ym.month, 1))
  }

  function MonthEnd(ym: YearMonth): Date
  {
    EndOfMonth(Date(ym.year, ym.month, 1))
  }

  /** A real day falls in a month's window exactly when it is a day of that
      month: the inclusive bounds neither lose the last day nor reach into
      the neighbouring months. */
  lemma InMonthWindow(d: Date, ym: YearMonth)
    requires Valid(d) && 1 <= ym.month <= 12
    ensures IsDateInRange(d, MonthStart(ym), MonthEnd(ym)) <==> MonthOf(d) == ym
  {
    var first := Date(ym.year, ym.month, 1);
    StartOfMonthIsDayOne(first);
    EndOfMonthIsLastDay(first);
  }

  /** The number `YYYYMMDD`, whose order is the order of the `YYYY-MM-DD`
      strings the queries sort by. */
  function DateKey(d: Date): int
  {
    d.year * 10000 + d.month * 100 + d.day
  }

  lemma DateKeyOrder(a: Date, b: Date)
    requires Valid(a) && Valid(b)
    ensures Le(a, b) <==> DateKey(a) <= DateKey(b)
  {
  }
}

=== FILE: error_handler.dfy ===
/** The API's last-resort error middleware (`errorHandler.js`): it turns
    whatever a handler threw into a status and an `error` message. */
module ErrorHandler {
  import opened Common
  import opened Schema

  /** The fields of a thrown error the middleware reads. A field the error
      does not carry is `None`. */
  datatype ThrownError = ThrownError(message: Option<string>, status: Option<int>, code: Option<string>,
                                     name: Option<string>, stack: Option<string>)

  /** The reply: status, the `error` field (absent when the chosen message
      is `undefined`) and the `stack` field (absent outside development). */
  datatype ErrorReply = ErrorReply(status: int, message: Option<string>, stack: Option<string>)

  predicate Named(e: ThrownError, name: string)
  {
    e.name == Some(name)
  }

  /** The four classifications, applied in source order; a later match
      overwrites an earlier one. */
  function Classify(e: ThrownError): (r: (int, Option<string>))
  {
    var message := Some(OrText(e.message, "Internal Server Error"));
    var status := if e.status.Some? && e.status.value != 0 then e.status.value else 500;
    var (status, message) := if e.code == Some("SQLITE_CONSTRAINT_UNIQUE") then (409, Some("Resource already exists")) else (status, message);
    var (status, message) := if Named(e, "JsonWebTokenError") then (401, Some("Invalid token")) else (status, message);
    var (status, message) := if Named(e, "TokenExpiredError") then (401, Some("Token expired")) else (status, message);
    if Named(e, "ValidationError") then (400, e.message) else (status, message)
  }

  /** `errorHandler`: the classification, with the stack only in the
      development environment. */
  function HandleError(e: ThrownError, development: bool): (r: ErrorReply)
    ensures Named(e, "ValidationError") ==> r.status == 400 && r.message == e.message
    ensures Named(e, "JsonWebTokenError") ==> r.status == 401 && r.message == Some("Invalid token")
    ensures Named(e, "TokenExpiredError") ==> r.status == 401 && r.message == Some("Token expired")
    ensures e.code == Some("SQLITE_CONSTRAINT_UNIQUE")
            && !Named(e, "ValidationError") && !Named(e, "JsonWebTokenError") && !Named(e, "TokenExpiredError") ==>
              r.status == 409 && r.message == Some("Resource already exists")
    ensures r.stack == (if development then e.stack else None)
  {
    var (status, message) := Classify(e);
    ErrorReply(status, message, if development then e.stack else None)
  }

  /** An error none of the rules recognise keeps its own non-empty message
      and non-zero status, falling back to 'Internal Server Error' and 500. */
  lemma UnrecognisedKeepsOwnFields(e: ThrownError, development: bool)
    requires e.code != Some("SQLITE_CONSTRAINT_UNIQUE")
    requires !Named(e, "ValidationError") && !Named(e, "JsonWebTokenError") && !Named(e, "TokenExpiredError")
    ensures var r := HandleError(e, development);
            && r.status == (if e.status.Some? && e.status.value != 0 then e.status.value else 500)
            && r.message == Some(if Truthy(e.message) then e.message.value else "Internal Server Error")
  {
  }

  /** How the sqlite3 driver reports a failed statement: the SQLite result
      code as `code` and, after it, SQLite's text as `message`; no status and
      no name. The code is the primary one, so a UNIQUE violation reports
      `SQLITE_CONSTRAINT`. */
  function DriverError(code: string, text: string): ThrownError
  {
    ThrownError(Some(DriverMessage(code, text)), None, Some(code), None, None)
  }

  function DriverMessage(code: string, text: string): string
  {
    code + ": " + text
  }

  const UniqueViolationCode := "SQLITE_CONSTRAINT"

  /** A UNIQUE violation on `column`, as the driver reports it. */
  function UniqueViolation(column: string): ThrownError
  {
    DriverError(UniqueViolationCode, "UNIQUE constraint failed: " + column)
  }

  /** A driver error reaches the client as a 500 with the driver's text: its
      code is not the one the 409 rule compares against. */
  lemma DriverErrorIs500(code: string, text: string, development: bool)
    requires code != "SQLITE_CONSTRAINT_UNIQUE"
    ensures HandleError(DriverError(code, text), development).status == 500
    ensures HandleError(DriverError(code, text), development).message == Some(DriverMessage(code, text))
  {
    UnrecognisedKeepsOwnFields(DriverError(code, text), development);
  }

  /** With this driver a UNIQUE violation is a 500, not the 409 "Resource
      already exists" the handler reserves for `SQLITE_CONSTRAINT_UNIQUE`. */
  lemma UniqueViolationIs500(column: string, development: bool)
    ensures HandleError(UniqueViolation(column), development).status == 500
    ensures HandleError(UniqueViolation(column), development).message
            == Some(DriverMessage(UniqueViolationCode, "UNIQUE constraint failed: " + column))
  {
    DriverErrorIs500(UniqueViolationCode, "UNIQUE constraint failed: " + column, development);
  }

  /** The name rules beat the database code: an error that carries both is
      classified by its name. */
  lemma NameBeatsCode(e: ThrownError, development: bool)
    requires e.code == Some("SQLITE_CONSTRAINT_UNIQUE")
    requires Named(e, "ValidationError") || Named(e, "JsonWebTokenError") || Named(e, "TokenExpiredError")
    ensures HandleError(e, development).status != 409
  {
  }

  /** Every reply is either one of the four fixed classifications or the
      error's own status (500 when it has none). */
  lemma StatusIsClassifiedOrOwn(e: ThrownError, development: bool)
    ensures var s := HandleError(e, development).status;
            s in {400, 401, 409} || s == (if e.status.Some? && e.status.value != 0 then e.status.value else 500)
  {
  }
}

=== FILE: folds.dfy ===
/** The aggregate shapes the SQL queries compute — `SUM(CASE WHEN ... THEN
    amount ELSE 0 END)` and `COUNT(CASE WHEN ... THEN 1 END)` — as folds over a
    row log, with the facts the ledger proofs rest on. */
module Folds {

  /** The rows satisfying `p`, in log order. */
  function Filter<T>(xs: seq<T>, p: T -> bool): (r: seq<T>)
    ensures |r| <= |xs|
    ensures forall k :: 0 <= k < |r| ==> p(r[k]) && r[k] in xs
  {
    if |xs| == 0 then []
    else
      var rest := Filter(xs[..|xs| - 1], p);
      if p(xs[|xs| - 1]) then rest + [xs[|xs| - 1]] else rest
  }

  /** Sum of `f` over every row. */
  function Total<T>(xs: seq<T>, f: T -> real): real
  {
    if |xs| == 0 then 0.0 else Total(xs[..|xs| - 1], f) + f(xs[|xs| - 1])
  }

  /** `SUM(CASE WHEN p THEN f ELSE 0 END)`: an empty match sums to 0, which is
      what the handlers' `|| 0` fallback produces for SQL's NULL. */
  function SumOf<T>(xs: seq<T>, p: T -> bool, f: T -> real): real
  {
    if |xs| == 0 then 0.0
    else SumOf(xs[..|xs| - 1], p, f) + (if p(xs[|xs| - 1]) then f(xs[|xs| - 1]) else 0.0)
  }

  /** `COUNT(CASE WHEN p THEN 1 END)`. */
  function CountOf<T>(xs: seq<T>, p: T -> bool): (n: nat)
    ensures n <= |xs|
  {
    if |xs| == 0 then 0
    else CountOf(xs[..|xs| - 1], p) + (if p(xs[|xs| - 1]) then 1 else 0)
  }

  /** Every element that passes the test is kept. */
  lemma {:induction false} FilterKeeps<T>(xs: seq<T>, p: T -> bool)
    ensures forall x :: x in xs && p(x) ==> x in Filter(xs, p)
  {
    if |xs| > 0 {
      FilterKeeps(xs[..|xs| - 1], p);
      assert xs == xs[..|xs| - 1] + [xs[|xs| - 1]];
    }
  }

  /** No element occurs twice. */
  predicate Distinct<T(==)>(xs: seq<T>)
  {
    forall i, j :: 0 <= i < j < |xs| ==> xs[i] != xs[j]
  }

  /** Filtering a list without repeats gives a list without repeats. */
  lemma {:induction false} FilterKeepsDistinct<T>(xs: seq<T>, p: T -> bool)
    ensures Distinct(xs) ==> Distinct(Filter(xs, p))
  {
    if |xs| > 0 && Distinct(xs) {
      var init := xs[..|xs| - 1];
      var last := xs[|xs| - 1];
      FilterKeepsDistinct(init, p);
      var f := Filter(init, p);
      assert last !in init;
      assert forall k :: 0 <= k < |f| ==> f[k] != last;
      assert xs == init + [last];
    }
  }

  lemma {:induction false} FilterAppend<T>(a: seq<T>, b: seq<T>, p: T -> bool)
    ensures Filter(a + b, p) == Filter(a, p) + Filter(b, p)
    decreases |b|
  {
    if |b| == 0 {
      assert a + b == a;
    } else {
      assert (a + b)[..|a + b| - 1] == a + b[..|b| - 1];
      FilterAppend(a, b[..|b| - 1], p);
    }
  }

  lemma {:induction false} TotalAppend<T>(a: seq<T>, b: seq<T>, f: T -> real)
    ensures Total(a + b, f) == Total(a, f) + Total(b, f)
    decreases |b|
  {
    if |b| == 0 {
      assert a + b == a;
    } else {
      assert (a + b)[..|a + b| - 1] == a + b[..|b| - 1];
      TotalAppend(a, b[..|b| - 1], f);
    }
  }

  lemma {:induction false} SumOfAppend<T>(a: seq<T>, b: seq<T>, p: T -> bool, f: T -> real)
    ensures SumOf(a + b, p, f) == SumOf(a, p, f) + SumOf(b, p, f)
    decreases |b|
  {
    if |b| == 0 {
      assert a + b == a;
    } else {
      assert (a + b)[..|a + b| - 1] == a + b[..|b| - 1];
      SumOfAppend(a, b[..|b| - 1], p, f);
    }
  }

  lemma {:induction false} CountOfAppend<T>(a: seq<T>, b: seq<T>, p: T -> bool)
    ensures CountOf(a + b, p) == CountOf(a, p) + CountOf(b, p)
    decreases |b|
  {
    if |b| == 0 {
      assert a + b == a;
    } else {
      assert (a + b)[..|a + b| - 1] == a + b[..|b| - 1];
      CountOfAppend(a, b[..|b| - 1], p);
    }
  }

  /** The conditional sum is the plain sum over the matching rows: the SQL
      aggregate and "filter, then add up" agree. */
  lemma {:induction false} SumOfIsTotalOfFilter<T>(xs: seq<T>, p: T -> bool, f: T -> real)
    ensures SumOf(xs, p, f) == Total(Filter(xs, p), f)
  {
    if |xs| > 0 {
      var init := xs[..|xs| - 1];
      SumOfIsTotalOfFilter(init, p, f);
      if p(xs[|xs| - 1]) {
        TotalAppend(Filter(init, p), [xs[|xs| - 1]], f);
        assert Total([xs[|xs| - 1]], f) == f(xs[|xs| - 1]) by {
          assert [xs[|xs| - 1]][..0] == [];
        }
      }
    }
  }

  /** The conditional count is the number of matching rows. */
  lemma {:induction false} CountOfIsSizeOfFilter<T>(xs: seq<T>, p: T -> bool)
    ensures CountOf(xs, p) == |Filter(xs, p)|
  {
    if |xs| > 0 {
      CountOfIsSizeOfFilter(xs[..|xs| - 1], p);
    }
  }

  /** A narrower condition counts no more rows than a wider one, and exactly
      as many only when every row the wider one counts passes the narrower. */
  lemma {:induction false} CountOfNarrower<T>(xs: seq<T>, p: T -> bool, q: T -> bool)
    requires forall k :: 0 <= k < |xs| && p(xs[k]) ==> q(xs[k])
    ensures CountOf(xs, p) <= CountOf(xs, q)
    ensures CountOf(xs, p) == CountOf(xs, q) <==> forall k :: 0 <= k < |xs| && q(xs[k]) ==> p(xs[k])
  {
    if |xs| > 0 {
      var init, last := xs[..|xs| - 1], xs[|xs| - 1];
      assert forall k :: 0 <= k < |init| ==> init[k] == xs[k];
      CountOfNarrower(init, p, q);
      if q(last) && !p(last) {
        assert CountOf(xs, p) < CountOf(xs, q);
      } else {
        assert (forall k :: 0 <= k < |xs| && q(xs[k]) ==> p(xs[k]))
               <==> (forall k :: 0 <= k < |init| && q(init[k]) ==> p(init[k]));
      }
    }
  }

  /** Filtering by a broader condition first does not change a narrower filter. */
  lemma {:induction false} FilterNarrow<T>(xs: seq<T>, wide: T -> bool, p: T -> bool)
    requires forall x :: p(x) ==> wide(x)
    ensures Filter(Filter(xs, wide), p) == Filter(xs, p)
  {
    if |xs| > 0 {
      var init := xs[..|xs| - 1];
      var last := xs[|xs| - 1];
      FilterNarrow(init, wide, p);
      if wide(last) {
        FilterAppend(Filter(init, wide), [last], p);
        assert Filter([last], p) == (if p(last) then [last] else []) by {
          assert [last][..0] == [];
        }
      }
    }
  }

  /** Two logs whose matching rows are the same, in the same order, have the
      same conditional sum — whatever else they hold. */
  lemma SumOfDependsOnlyOnMatches<T>(a: seq<T>, b: seq<T>, p: T -> bool, f: T -> real)
    requires Filter(a, p) == Filter(b, p)
    ensures SumOf(a, p, f) == SumOf(b, p, f)
  {
    SumOfIsTotalOfFilter(a, p, f);
    SumOfIsTotalOfFilter(b, p, f);
  }

  /** Row-by-row agreement on the condition, and on the value where the
      condition holds, gives equal sums. */
  lemma {:induction false} SumOfPointwise<T>(a: seq<T>, b: seq<T>, p: T -> bool, f: T -> real)
    requires |a| == |b|
    requires forall k :: 0 <= k < |a| ==> p(a[k]) == p(b[k])
    requires forall k :: 0 <= k < |a| && p(a[k]) ==> f(a[k]) == f(b[k])
    ensures SumOf(a, p, f) == SumOf(b, p, f)
  {
    if |a| > 0 {
      SumOfPointwise(a[..|a| - 1], b[..|b| - 1], p, f);
    }
  }

  /** Rows that never match add nothing. */
  lemma {:induction false} SumOfNoMatch<T>(xs: seq<T>, p: T -> bool, f: T -> real)
    requires forall k :: 0 <= k < |xs| ==> !p(xs[k])
    ensures SumOf(xs, p, f) == 0.0
  {
    if |xs| > 0 {
      SumOfNoMatch(xs[..|xs| - 1], p, f);
    }
  }

  lemma {:induction false} CountOfNoMatch<T>(xs: seq<T>, p: T -> bool)
    requires forall k :: 0 <= k < |xs| ==> !p(xs[k])
    ensures CountOf(xs, p) == 0
  {
    if |xs| > 0 {
      CountOfNoMatch(xs[..|xs| - 1], p);
    }
  }

  lemma {:induction false} CountOfPointwise<T>(a: seq<T>, b: seq<T>, p: T -> bool)
    requires |a| == |b|
    requires forall k :: 0 <= k < |a| ==> p(a[k]) == p(b[k])
    ensures CountOf(a, p) == CountOf(b, p)
  {
    if |a| > 0 {
      CountOfPointwise(a[..|a| - 1], b[..|b| - 1], p);
    }
  }

  /** A sum of non-negative values is non-negative. */
  lemma {:induction false} SumOfNonNegative<T>(xs: seq<T>, p: T -> bool, f: T -> real)
    requires forall k :: 0 <= k < |xs| && p(xs[k]) ==> f(xs[k]) >= 0.0
    ensures SumOf(xs, p, f) >= 0.0
  {
    if |xs| > 0 {
      SumOfNonNegative(xs[..|xs| - 1], p, f);
    }
  }
}

=== FILE: ledger.dfy ===
/** The account balance every route recomputes from the transaction log:
    initial balance plus the live INCOME amounts minus the live EXPENSE amounts
    of the account. */
module Ledger {
  import opened Common
  import opened Rows
  import opened Folds
  import opened Schema

  function Amount(t: Row<TxData>): real
  {
    t.data.amount
  }

  /** `deleted_at IS NULL`. */
  function Live(t: Row<TxData>): bool
  {
    !t.deleted
  }

  /** A live row of the account carrying this transaction type. */
  function OfKind(account: nat, kind: TxType): Row<TxData> -> bool
  {
    (t: Row<TxData>) => !t.deleted && t.data.account == account && t.data.kind == kind
  }

  /** `SUM(CASE WHEN transaction_type = kind THEN amount ELSE 0 END)` over the
      live rows of one account. */
  function TotalOf(txs: seq<Row<TxData>>, account: nat, kind: TxType): real
  {
    SumOf(txs, OfKind(account, kind), Amount)
  }

  /** `current_balance`. */
  function Balance(txs: seq<Row<TxData>>, a: Row<AccountData>): real
  {
    a.data.initialBalance + TotalOf(txs, a.id, INCOME) - TotalOf(txs, a.id, EXPENSE)
  }

  /** The effect of one row on its account's balance: income adds, expense
      subtracts, a transfer leg does nothing. */
  function Signed(t: Row<TxData>): real
  {
    match t.data.kind
    case INCOME => t.data.amount
    case EXPENSE => -t.data.amount
    case TRANSFER => 0.0
  }

  function LiveOn(account: nat): Row<TxData> -> bool
  {
    (t: Row<TxData>) => !t.deleted && t.data.account == account
  }

  /** The balance is the initial balance plus the signed effect of every live
      row of the account: the two SQL sums and a one-pass running balance
      agree. */
  lemma {:induction false} BalanceIsRunningSum(txs: seq<Row<TxData>>, a: Row<AccountData>)
    ensures Balance(txs, a) == a.data.initialBalance + SumOf(txs, LiveOn(a.id), Signed)
  {
    RunningSumSplit(txs, a.id);
  }

  lemma {:induction false} RunningSumSplit(txs: seq<Row<TxData>>, account: nat)
    ensures SumOf(txs, LiveOn(account), Signed)
            == TotalOf(txs, account, INCOME) - TotalOf(txs, account, EXPENSE)
  {
    if |txs| > 0 {
      RunningSumSplit(txs[..|txs| - 1], account);
    }
  }

  /** Rows that are not live INCOME or EXPENSE rows of the account — transfer
      legs, deleted rows, other accounts' rows — leave its balance alone, wherever
      they are appended. */
  lemma BalanceIgnoresInertRows(txs: seq<Row<TxData>>, extra: seq<Row<TxData>>, a: Row<AccountData>)
    requires forall k :: 0 <= k < |extra| ==>
               extra[k].deleted || extra[k].data.account != a.id || extra[k].data.kind == TRANSFER
    ensures Balance(txs + extra, a) == Balance(txs, a)
  {
    SumOfAppend(txs, extra, OfKind(a.id, INCOME), Amount);
    SumOfAppend(txs, extra, OfKind(a.id, EXPENSE), Amount);
    SumOfNoMatch(extra, OfKind(a.id, INCOME), Amount);
    SumOfNoMatch(extra, OfKind(a.id, EXPENSE), Amount);
  }

  /** TRANSFER rows contribute nothing: adding transfer legs, live or not,
      changes no balance. */
  lemma TransferLegsDoNotMoveBalances(txs: seq<Row<TxData>>, legs: seq<Row<TxData>>, a: Row<AccountData>)
    requires forall k :: 0 <= k < |legs| ==> legs[k].data.kind == TRANSFER
    ensures Balance(txs + legs, a) == Balance(txs, a)
  {
    BalanceIgnoresInertRows(txs, legs, a);
  }

  /** The balance depends only on the live rows: two logs with the same live
      rows, in the same order, give every account the same balance. */
  lemma BalanceDependsOnlyOnLiveRows(a1: seq<Row<TxData>>, a2: seq<Row<TxData>>, a: Row<AccountData>)
    requires Filter(a1, Live) == Filter(a2, Live)
    ensures Balance(a1, a) == Balance(a2, a)
  {
    forall kind: TxType
      ensures TotalOf(a1, a.id, kind) == TotalOf(a2, a.id, kind)
    {
      FilterNarrow(a1, Live, OfKind(a.id, kind));
      FilterNarrow(a2, Live, OfKind(a.id, kind));
      SumOfDependsOnlyOnMatches(a1, a2, OfKind(a.id, kind), Amount);
    }
  }

  /** An account no row refers to still has its initial balance. */
  lemma UntouchedAccountHasInitialBalance(txs: seq<Row<TxData>>, a: Row<AccountData>)
    requires forall k :: 0 <= k < |txs| ==> txs[k].data.account != a.id
    ensures Balance(txs, a) == a.data.initialBalance
  {
    SumOfNoMatch(txs, OfKind(a.id, INCOME), Amount);
    SumOfNoMatch(txs, OfKind(a.id, EXPENSE), Amount);
  }
}

=== FILE: number_helpers.dfy ===
/** The API's numeric helpers (`numberHelpers.js`) over exact reals. */
module NumberHelpers {
  import opened Common

  function Pow10(d: nat): (p: real)
    ensures p >= 1.0
  {
    if d == 0 then 1.0 else 10.0 * Pow10(d - 1)
  }

  /** `Math.round`: nearest integer, halves rounded toward +infinity. */
  function RoundHalfUp(x: real): (n: int)
    ensures x - 0.5 < n as real <= x + 0.5
  {
    (x + 0.5).Floor
  }

  /** `roundToDecimals(x, d)`: `Math.round(x * 10^d) / 10^d`. */
  function RoundToDecimals(x: real, d: nat): (r: real)
    ensures (r * Pow10(d)).Floor as real == r * Pow10(d)
    ensures x - 0.5 / Pow10(d) < r <= x + 0.5 / Pow10(d)
  {
    ScaleBack(x, RoundHalfUp(x * Pow10(d)), Pow10(d));
    RoundHalfUp(x * Pow10(d)) as real / Pow10(d)
  }

  lemma ScaleBack(x: real, n: int, p: real)
    requires p >= 1.0
    requires x * p - 0.5 < n as real <= x * p + 0.5
    ensures (n as real / p * p).Floor == n
    ensures x - 0.5 / p < n as real / p <= x + 0.5 / p
  {
    assert n as real / p * p == n as real;
    assert (x - 0.5 / p) * p == x * p - 0.5;
    assert (x + 0.5 / p) * p == x * p + 0.5;
  }

  /** A whole number of hundredths. */
  predicate InCents(r: real)
  {
    (r * 100.0).Floor as real == r * 100.0
  }

  /** `r` is `x` rounded half up to cents: a whole number of hundredths in
      the half-up window around `x` (unique, by `CentIsUnique`). */
  predicate NearestCent(x: real, r: real)
  {
    InCents(r) && x - 0.005 < r <= x + 0.005
  }

  /** The default two-decimal rounding used for percentages and money. */
  function Round2(x: real): (r: real)
    ensures NearestCent(x, r)
  {
    assert Pow10(2) == 100.0;
    RoundToDecimals(x, 2)
  }

  /** `NearestCent` pins its value: whatever lies on the cent grid within the
      half-up window of `x` is `Round2(x)`. */
  lemma CentIsUnique(x: real, r: real)
    requires NearestCent(x, r)
    ensures r == Round2(x)
  {
    var q := Round2(x);
    var a := (r * 100.0).Floor;
    var b := (q * 100.0).Floor;
    assert a as real - b as real < 1.0 && b as real - a as real < 1.0;
    assert a == b;
  }

  /** Rounding an already rounded amount to cents changes nothing. */
  lemma Round2Idempotent(x: real)
    ensures Round2(Round2(x)) == Round2(x)
  {
    assert Pow10(2) == 100.0;
    var r := Round2(x);
    assert r == RoundHalfUp(x * 100.0) as real / 100.0;
    assert RoundHalfUp(r * 100.0) == RoundHalfUp(x * 100.0);
  }

  // ---------------------------------------------------------------- parseCurrency

  /** The characters `/[^0-9.-]/g` leaves in place. */
  predicate Kept(c: char)
  {
    '0' <= c <= '9' || c == '.' || c == '-'
  }

  predicate IsDigit(c: char)
  {
    '0' <= c <= '9'
  }

  /** `replace(/[^0-9.-]/g, '')`: the kept characters, in their original order. */
  function Clean(s: string): (r: string)
    ensures |r| <= |s|
    ensures forall i :: 0 <= i < |r| ==> Kept(r[i])
  {
    if |s| == 0 then ""
    else if Kept(s[0]) then [s[0]] + Clean(s[1..])
    else Clean(s[1..])
  }

  lemma {:induction false} CleanAppend(a: string, b: string)
    ensures Clean(a + b) == Clean(a) + Clean(b)
  {
    if |a| == 0 {
      assert a + b == b;
    } else {
      assert (a + b)[1..] == a[1..] + b;
      CleanAppend(a[1..], b);
    }
  }

  lemma {:induction false} CleanKeepsKept(s: string)
    requires forall i :: 0 <= i < |s| ==> Kept(s[i])
    ensures Clean(s) == s
  {
    if |s| > 0 {
      CleanKeepsKept(s[1..]);
    }
  }

  /** Length of the run of decimal digits at the start of `s`. */
  function DigitRun(s: string): (n: nat)
    ensures n <= |s|
    ensures forall i :: 0 <= i < n ==> IsDigit(s[i])
    ensures n < |s| ==> !IsDigit(s[n])
  {
    if |s| > 0 && IsDigit(s[0]) then 1 + DigitRun(s[1..]) else 0
  }

  /** The value of a string of decimal digits. */
  function DigitsValue(ds: string): nat
    requires forall i :: 0 <= i < |ds| ==> IsDigit(ds[i])
  {
    if |ds| == 0 then 0
    else
      assert IsDigit(ds[|ds| - 1]);
      10 * DigitsValue(ds[..|ds| - 1]) + (ds[|ds| - 1] as int - '0' as int)
  }

  /** `parseFloat` on a string of digits, dots and minus signs: the longest
      prefix of the form `-? digits* (. digits*)?` holding at least one digit;
      `None` stands for NaN. */
  function ParseFloat(t: string): (r: Option<real>)
    ensures r.None? <==> DigitRun(if |t| > 0 && t[0] == '-' then t[1..] else t) == 0
                          && var b := if |t| > 0 && t[0] == '-' then t[1..] else t;
                             !(|b| > 1 && b[0] == '.' && IsDigit(b[1]))
  {
    var negative := |t| > 0 && t[0] == '-';
    match ParseMagnitude(if negative then t[1..] else t)
    case None => None
    case Some(m) => Some(if negative then -m else m)
  }

  /** The unsigned part of `parseFloat`: `digits* (. digits*)?` with at least
      one digit. */
  function ParseMagnitude(body: string): (r: Option<real>)
    ensures r.None? <==> DigitRun(body) == 0 && !(|body| > 1 && body[0] == '.' && IsDigit(body[1]))
  {
    var n := DigitRun(body);
    var rest := body[n..];
    var fraction := if |rest| > 0 && rest[0] == '.' then rest[1..][..DigitRun(rest[1..])] else "";
    if n + |fraction| == 0 then None
    else Some(DigitsValue(body[..n]) as real + FractionValue(fraction))
  }

  /** The value of the digits after a decimal point: `fp` over 10^|fp|. */
  function FractionValue(fp: string): (v: real)
    requires forall i :: 0 <= i < |fp| ==> IsDigit(fp[i])
    ensures 0.0 <= v
  {
    DigitsValue(fp) as real / Pow10(|fp|)
  }

  /** `parseCurrency`: strip everything but digits, '.' and '-', parse, and
      fall back to 0 when the result is NaN (or 0). */
  function ParseCurrency(s: string): real
  {
    match ParseFloat(Clean(s))
    case None => 0.0
    case Some(v) => v
  }

  /** Currency symbols, thousands separators and spaces are invisible to
      `parseCurrency`: removing such a character anywhere changes nothing. */
  lemma ParseCurrencyIgnoresOtherChars(a: string, c: char, b: string)
    requires !Kept(c)
    ensures ParseCurrency(a + [c] + b) == ParseCurrency(a + b)
  {
    assert [c][1..] == [];
    assert Clean([c]) == "";
    CleanAppend(a + [c], b);
    CleanAppend(a, [c]);
    CleanAppend(a, b);
    assert Clean(a + [c] + b) == Clean(a + b);
  }

  /** A plain run of digits parses to its decimal value. */
  lemma ParseCurrencyOfDigits(ds: string)
    requires forall i :: 0 <= i < |ds| ==> IsDigit(ds[i])
    ensures ParseCurrency(ds) == DigitsValue(ds) as real
  {
    CleanKeepsKept(ds);
    if |ds| > 0 {
      ParseFloatOfDigits(ds);
    }
  }

  lemma {:induction false} ParseFloatOfDigits(ds: string)
    requires |ds| > 0 && forall i :: 0 <= i < |ds| ==> IsDigit(ds[i])
    ensures ParseFloat(ds) == Some(DigitsValue(ds) as real)
  {
    assert Signed(false, ds + "") == ds;
    SignedInteger(false, ds, "");
  }

  lemma {:induction false} DigitRunAll(ds: string)
    requires forall i :: 0 <= i < |ds| ==> IsDigit(ds[i])
    ensures DigitRun(ds) == |ds|
  {
    if |ds| > 0 {
      DigitRunAll(ds[1..]);
    }
  }

  /** The text `-? ip (. fp)? tail`. */
  function DecimalText(negative: bool, ip: string, dot: bool, fp: string, tail: string): string
  {
    Signed(negative, if dot then ip + ("." + fp) + tail else ip + tail)
  }

  function Signed(negative: bool, body: string): string
  {
    if negative then "-" + body else body
  }

  /** `parseFloat` reads a signed decimal `-? ip (. fp)?` followed by any
      tail that cannot extend it, and yields exactly its value. */
  lemma {:induction false} ParseFloatOfDecimal(negative: bool, ip: string, dot: bool, fp: string, tail: string)
    requires forall i :: 0 <= i < |ip| ==> IsDigit(ip[i])
    requires forall i :: 0 <= i < |fp| ==> IsDigit(fp[i])
    requires |ip| + |fp| > 0
    requires !dot ==> fp == ""
    requires |tail| > 0 ==> !IsDigit(tail[0]) && (!dot ==> tail[0] != '.')
    ensures var magnitude := DigitsValue(ip) as real + FractionValue(fp);
            ParseFloat(DecimalText(negative, ip, dot, fp, tail)) == Some(if negative then -magnitude else magnitude)
  {
    if dot {
      FractionDecimal(negative, ip, dot, fp, tail);
    } else {
      IntegerDecimal(negative, ip, dot, fp, tail);
    }
  }

  lemma {:induction false} FractionDecimal(negative: bool, ip: string, dot: bool, fp: string, tail: string)
    requires dot
    requires forall i :: 0 <= i < |ip| ==> IsDigit(ip[i])
    requires forall i :: 0 <= i < |fp| ==> IsDigit(fp[i])
    requires |ip| + |fp| > 0
    requires |tail| > 0 ==> !IsDigit(tail[0])
    ensures var magnitude := DigitsValue(ip) as real + FractionValue(fp);
            ParseFloat(DecimalText(negative, ip, dot, fp, tail)) == Some(if negative then -magnitude else magnitude)
  {
    assert DecimalText(negative, ip, dot, fp, tail) == Signed(negative, ip + ("." + fp) + tail);
    SignedFraction(negative, ip, fp, tail);
  }

  lemma {:induction false} IntegerDecimal(negative: bool, ip: string, dot: bool, fp: string, tail: string)
    requires !dot && fp == ""
    requires forall i :: 0 <= i < |ip| ==> IsDigit(ip[i])
    requires |ip| > 0
    requires |tail| > 0 ==> !IsDigit(tail[0]) && tail[0] != '.'
    ensures var magnitude := DigitsValue(ip) as real + FractionValue(fp);
            ParseFloat(DecimalText(negative, ip, dot, fp, tail)) == Some(if negative then -magnitude else magnitude)
  {
    var m := DigitsValue(ip) as real;
    assert ParseFloat(DecimalText(negative, ip, dot, fp, tail)) == Some(if negative then -m else m) by {
      assert DecimalText(negative, ip, dot, fp, tail) == Signed(negative, ip + tail);
      SignedInteger(negative, ip, tail);
    }
    NoFraction();
  }

  lemma {:induction false} SignedFraction(negative: bool, ip: string, fp: string, tail: string)
    requires forall i :: 0 <= i < |ip| ==> IsDigit(ip[i])
    requires forall i :: 0 <= i < |fp| ==> IsDigit(fp[i])
    requires |ip| + |fp| > 0
    requires |tail| > 0 ==> !IsDigit(tail[0])
    ensures var magnitude := DigitsValue(ip) as real + FractionValue(fp);
            ParseFloat(Signed(negative, ip + ("." + fp) + tail)) == Some(if negative then -magnitude else magnitude)
  {
    var body := ip + ("." + fp) + tail;
    var m := DigitsValue(ip) as real + FractionValue(fp);
    assert ParseMagnitude(body) == Some(m) by {
      MagnitudeOfFraction(ip, fp, tail);
    }
    assert |body| > 0 && body[0] != '-' by {
      if |ip| > 0 { assert body[0] == ip[0] && IsDigit(ip[0]); } else { assert body[0] == '.'; }
    }
    SignThenMagnitude(negative, body, m);
  }

  lemma {:induction false} SignedInteger(negative: bool, ip: string, tail: string)
    requires forall i :: 0 <= i < |ip| ==> IsDigit(ip[i])
    requires |ip| > 0
    requires |tail| > 0 ==> !IsDigit(tail[0]) && tail[0] != '.'
    ensures ParseFloat(Signed(negative, ip + tail)) == Some(if negative then -(DigitsValue(ip) as real) else DigitsValue(ip) as real)
  {
    assert ParseMagnitude(ip + tail) == Some(DigitsValue(ip) as real) by {
      MagnitudeOfInteger(ip, tail);
    }
    assert |ip + tail| > 0 && (ip + tail)[0] != '-' by {
      assert (ip + tail)[0] == ip[0] && IsDigit(ip[0]);
    }
    SignThenMagnitude(negative, ip + tail, DigitsValue(ip) as real);
  }

  lemma NoFraction()
    ensures FractionValue("") == 0.0
  {
    assert Pow10(0) == 1.0;
  }

  lemma {:induction false} SignThenMagnitude(negative: bool, body: string, m: real)
    requires |body| > 0 && body[0] != '-'
    requires ParseMagnitude(body) == Some(m)
    ensures ParseFloat(Signed(negative, body)) == Some(if negative then -m else m)
  {
    if negative {
      assert ("-" + body)[0] == '-' && ("-" + body)[1..] == body;
    } else {
      assert Signed(negative, body) == body;
    }
  }

  lemma {:induction false} MagnitudeOfInteger(ip: string, tail: string)
    requires forall i :: 0 <= i < |ip| ==> IsDigit(ip[i])
    requires |ip| > 0
    requires |tail| > 0 ==> !IsDigit(tail[0]) && tail[0] != '.'
    ensures ParseMagnitude(ip + tail) == Some(DigitsValue(ip) as real)
  {
    DigitRunPrefix(ip, tail);
    assert (ip + tail)[|ip|..] == tail;
    assert (ip + tail)[..|ip|] == ip;
    assert Pow10(0) == 1.0;
  }

  lemma {:induction false} MagnitudeOfFraction(ip: string, fp: string, tail: string)
    requires forall i :: 0 <= i < |ip| ==> IsDigit(ip[i])
    requires forall i :: 0 <= i < |fp| ==> IsDigit(fp[i])
    requires |ip| + |fp| > 0
    requires |tail| > 0 ==> !IsDigit(tail[0])
    ensures ParseMagnitude(ip + ("." + fp) + tail) == Some(DigitsValue(ip) as real + FractionValue(fp))
  {
    var body := ip + ("." + fp) + tail;
    FractionLayout(ip, fp, tail);
    DigitRunPrefix(ip, "." + fp + tail);
    DigitRunPrefix(fp, tail);
    MagnitudeOfParts(body, ip, fp);
  }

  /** Where the pieces of `ip.fp tail` sit. */
  lemma {:induction false} FractionLayout(ip: string, fp: string, tail: string)
    ensures ip + ("." + fp) + tail == ip + ("." + fp + tail)
    ensures (ip + ("." + fp) + tail)[..|ip|] == ip
    ensures |ip + ("." + fp) + tail| > |ip| && (ip + ("." + fp) + tail)[|ip|] == '.'
    ensures (ip + ("." + fp) + tail)[|ip| + 1..] == fp + tail
    ensures (fp + tail)[..|fp|] == fp
  {
  }

  lemma {:induction false} MagnitudeOfParts(body: string, ip: string, fp: string)
    requires DigitRun(body) == |ip| && body[..|ip|] == ip
    requires |body| > |ip| && body[|ip|] == '.'
    requires DigitRun(body[|ip| + 1..]) == |fp| && body[|ip| + 1..][..|fp|] == fp
    requires |ip| + |fp| > 0
    ensures ParseMagnitude(body) == Some(DigitsValue(ip) as real + FractionValue(fp))
  {
    assert body[|ip|..][1..] == body[|ip| + 1..];
  }

  lemma {:induction false} DigitRunPrefix(ds: string, rest: string)
    requires forall i :: 0 <= i < |ds| ==> IsDigit(ds[i])
    requires |rest| > 0 ==> !IsDigit(rest[0])
    ensures DigitRun(ds + rest) == |ds|
  {
    if |ds| > 0 {
      assert (ds + rest)[1..] == ds[1..] + rest;
      DigitRunPrefix(ds[1..], rest);
    } else {
      assert ds + rest == rest;
    }
  }

  /** A string without any digit has no parse and reads as 0. */
  lemma ParseCurrencyWithoutDigits(s: string)
    requires forall i :: 0 <= i < |s| ==> !IsDigit(s[i])
    ensures ParseCurrency(s) == 0.0
  {
    NoDigitsSurviveClean(s);
  }

  lemma {:induction false} NoDigitsSurviveClean(s: string)
    requires forall i :: 0 <= i < |s| ==> !IsDigit(s[i])
    ensures forall i :: 0 <= i < |Clean(s)| ==> !IsDigit(Clean(s)[i])
  {
    if |s| > 0 {
      NoDigitsSurviveClean(s[1..]);
    }
  }

  // ---------------------------------------------------------------- percentages

  /** `calculatePercentage(part, total)`. */
  function CalculatePercentage(part: real, total: real): (r: real)
    ensures total == 0.0 ==> r == 0.0
    ensures total != 0.0 ==> NearestCent(part / total * 100.0, r)
  {
    if total == 0.0 then 0.0 else Round2(part / total * 100.0)
  }

  /** A part equal to its nonzero total is 100 percent, and an empty part of a
      nonzero total is 0 percent. */
  lemma PercentageOfWholeAndNothing(total: real)
    requires total != 0.0
    ensures CalculatePercentage(total, total) == 100.0
    ensures CalculatePercentage(0.0, total) == 0.0
  {
    CentIsUnique(total / total * 100.0, 100.0);
    CentIsUnique(0.0 / total * 100.0, 0.0);
  }

  // ---------------------------------------------------------------- formatLargeNumber

  /** The output of `formatLargeNumber`: a value followed by a suffix. */
  datatype Abbreviated = Abbreviated(value: real, suffix: string)

  /** `formatLargeNumber`: scale into billions, millions or thousands by range. */
  function FormatLargeNumber(x: real): (r: Abbreviated)
    ensures r.suffix == "B" <==> x >= 1000000000.0
    ensures r.suffix == "M" <==> 1000000.0 <= x < 1000000000.0
    ensures r.suffix == "K" <==> 1000.0 <= x < 1000000.0
    ensures r.suffix == "" <==> x < 1000.0
    ensures r.suffix == "" ==> r.value == x
    ensures var unit := if r.suffix == "B" then 1000000000.0
                        else if r.suffix == "M" then 1000000.0
                        else if r.suffix == "K" then 1000.0 else 1.0;
            r.suffix != "" ==> NearestCent(x / unit, r.value)
  {
    if x >= 1000000000.0 then Abbreviated(Round2(x / 1000000000.0), "B")
    else if x >= 1000000.0 then Abbreviated(Round2(x / 1000000.0), "M")
    else if x >= 1000.0 then Abbreviated(Round2(x / 1000.0), "K")
    else Abbreviated(x, "")
  }

  /** A number whose scaled value is already a whole number of hundredths
      loses nothing: 1500 is 1.5 thousands, 2250000 is 2.25 millions. */
  lemma {:induction false} FormatLargeNumberKeepsCents(x: real, unit: real)
    requires x >= 1000.0
    requires unit == (if x >= 1000000000.0 then 1000000000.0 else if x >= 1000000.0 then 1000000.0 else 1000.0)
    requires InCents(x / unit)
    ensures FormatLargeNumber(x).value == x / unit
  {
    CentIsUnique(x / unit, FormatLargeNumber(x).value);
    CentIsUnique(x / unit, x / unit);
  }
}

=== FILE: portfolio.dfy ===
/** The portfolio routes: the holdings fold over stock trades, trade creation
    with its security find-or-create and companion transaction, and the trade
    soft delete and restore. */
module Portfolio {
  import opened Common
  import opened Rows
  import opened Folds
  import opened Text
  import opened DateHelpers
  import opened Schema
  import opened Ledger
  import opened ErrorHandler

  // ---------------------------------------------------------------- the position fold

  /** The running figures of one holding: `total_quantity`, `total_invested`
      and `trades_count`. */
  datatype Position = Position(quantity: real, invested: real, trades: nat)

  const Flat := Position(0.0, 0.0, 0)

  /** A sell of a non-negative quantity. A negative sell on a holding with no
      shares makes the sell ratio divide by zero, and negative sells are
      outside the model. */
  predicate SellNonNegative(t: TradeData)
  {
    t.side == SELL ==> t.quantity >= 0.0
  }

  predicate SellsNonNegative(ts: seq<TradeData>)
  {
    forall k :: 0 <= k < |ts| ==> SellNonNegative(ts[k])
  }

  /** The quantity a trade adds to its holding. */
  function NetQuantity(t: TradeData): real
  {
    if t.side == BUY then t.quantity else -t.quantity
  }

  function Notional(t: TradeData): real
  {
    t.quantity * t.price
  }

  /** One trade applied to a holding. A BUY adds its quantity and its cost; a
      SELL removes its quantity and, while shares remain, cuts the invested
      amount by the sold fraction `q / (quantity_after + q)`. With
      `resetOnClose` a sell that leaves no shares also clears the invested
      amount; the holdings route runs with it off. */
  function Apply(p: Position, t: TradeData, resetOnClose: bool): (r: Position)
    requires SellNonNegative(t)
    ensures r.quantity == p.quantity + NetQuantity(t)
    ensures r.trades == p.trades + 1
  {
    match t.side
    case BUY => Position(p.quantity + t.quantity, p.invested + Notional(t), p.trades + 1)
    case SELL =>
      var after := p.quantity - t.quantity;
      if after > 0.0 then
        Position(after, p.invested - p.invested * (t.quantity / (after + t.quantity)), p.trades + 1)
      else if resetOnClose then Position(after, 0.0, p.trades + 1)
      else Position(after, p.invested, p.trades + 1)
  }

  /** `average_cost_basis`: invested per share held. */
  function AverageCost(p: Position): real
    requires p.quantity > 0.0
  {
    p.invested / p.quantity
  }

  /** The trades of one holding folded in order from `start`. */
  function Replay(start: Position, ts: seq<TradeData>, resetOnClose: bool): (r: Position)
    requires SellsNonNegative(ts)
    ensures r.trades == start.trades + |ts|
    ensures r.quantity == start.quantity + Total(ts, NetQuantity)
  {
    if |ts| == 0 then start
    else Apply(Replay(start, ts[..|ts| - 1], resetOnClose), ts[|ts| - 1], resetOnClose)
  }

  lemma {:induction false} ReplayAppend(start: Position, xs: seq<TradeData>, ys: seq<TradeData>, resetOnClose: bool)
    requires SellsNonNegative(xs) && SellsNonNegative(ys)
    ensures SellsNonNegative(xs + ys)
    ensures Replay(start, xs + ys, resetOnClose) == Replay(Replay(start, xs, resetOnClose), ys, resetOnClose)
    decreases |ys|
  {
    assert forall k :: 0 <= k < |xs + ys| ==> (xs + ys)[k] == if k < |xs| then xs[k] else ys[k - |xs|];
    if |ys| == 0 {
      assert xs + ys == xs;
    } else {
      var init := ys[..|ys| - 1];
      ReplayAppend(start, xs, init, resetOnClose);
      assert (xs + ys)[..|xs + ys| - 1] == xs + init;
    }
  }

  /** A SELL that leaves shares keeps the average cost `invested / quantity`:
      the ratio's divisor `quantity_after + q` is the quantity before the sell. */
  lemma SellKeepsAverageCost(p: Position, t: TradeData, resetOnClose: bool)
    requires t.side == SELL && t.quantity >= 0.0
    requires p.quantity - t.quantity > 0.0
    ensures p.quantity > 0.0 && Apply(p, t, resetOnClose).quantity > 0.0
    ensures AverageCost(Apply(p, t, resetOnClose)) == AverageCost(p)
  {
    var q := t.quantity;
    var before := p.quantity;
    var after := before - q;
    var i := p.invested;
    assert after + q == before;
    calc {
      i - i * (q / before);
      == { assert i * (q / before) == i * q / before; }
      i - i * q / before;
      == { assert i == i * before / before; }
      (i * before - i * q) / before;
      ==
      i * after / before;
    }
    assert (i * after / before) / after == i / before;
  }

  /** A SELL that leaves no shares does not touch the invested amount when
      `resetOnClose` is off. */
  lemma ClosingSellKeepsInvested(p: Position, t: TradeData)
    requires t.side == SELL && t.quantity >= 0.0
    requires p.quantity - t.quantity <= 0.0
    ensures Apply(p, t, false).invested == p.invested
    ensures Apply(p, t, false).quantity <= 0.0
  {
  }

  /** A holding made only of purchases holds their total quantity at their
      total cost. */
  lemma {:induction false} BuysOnlyReplay(ts: seq<TradeData>, resetOnClose: bool)
    requires forall k :: 0 <= k < |ts| ==> ts[k].side == BUY
    ensures SellsNonNegative(ts)
    ensures Replay(Flat, ts, resetOnClose) == Position(Total(ts, NetQuantity), Total(ts, Notional), |ts|)
  {
    if |ts| > 0 {
      BuysOnlyReplay(ts[..|ts| - 1], resetOnClose);
    }
  }

  /** BUY 10 at 100, then SELL 4: six shares at 600 invested, still 100 each. */
  lemma BuyThenPartialSell(account: nat, security: nat, sellPrice: real, d: Date)
    ensures var ts := [TradeData(account, security, BUY, 10.0, 100.0, d), TradeData(account, security, SELL, 4.0, sellPrice, d)];
            SellsNonNegative(ts) && Replay(Flat, ts, false) == Position(6.0, 600.0, 2)
  {
    var ts := [TradeData(account, security, BUY, 10.0, 100.0, d), TradeData(account, security, SELL, 4.0, sellPrice, d)];
    assert ts[..1] == [ts[0]];
    assert [ts[0]][..0] == [];
    assert Replay(Flat, ts[..1], false) == Position(10.0, 1000.0, 1);
    assert 4.0 / (6.0 + 4.0) == 0.4;
  }

  /** As written, a position that is sold out keeps its old cost: BUY 10 at
      100, SELL all 10, BUY 5 at 50 reports 1250 invested (250 a share), where
      the last purchase alone is 250 invested (50 a share). */
  lemma StaleCostAfterClose(account: nat, security: nat, d: Date)
    ensures var before := [TradeData(account, security, BUY, 10.0, 100.0, d)];
            var close := TradeData(account, security, SELL, 10.0, 100.0, d);
            var after := [TradeData(account, security, BUY, 5.0, 50.0, d)];
            SellsNonNegative(before + [close] + after) && SellsNonNegative(after)
            && Replay(Flat, before, false).quantity == close.quantity
            && Replay(Flat, before + [close] + after, false) == Position(5.0, 1250.0, 3)
            && Replay(Flat, after, false) == Position(5.0, 250.0, 1)
  {
    var before := [TradeData(account, security, BUY, 10.0, 100.0, d)];
    var close := TradeData(account, security, SELL, 10.0, 100.0, d);
    var after := [TradeData(account, security, BUY, 5.0, 50.0, d)];
    var all := before + [close] + after;
    assert before[..0] == [] && after[..0] == [];
    assert all[..2] == before + [close];
    assert (before + [close])[..1] == before;
  }

  /** Two positions with the same quantity and invested amount evolve alike;
      only the trade counter can differ. */
  lemma {:induction false} ReplayIgnoresCounter(p1: Position, p2: Position, ts: seq<TradeData>, resetOnClose: bool)
    requires SellsNonNegative(ts)
    requires p1.quantity == p2.quantity && p1.invested == p2.invested
    ensures Replay(p1, ts, resetOnClose).quantity == Replay(p2, ts, resetOnClose).quantity
    ensures Replay(p1, ts, resetOnClose).invested == Replay(p2, ts, resetOnClose).invested
  {
    if |ts| > 0 {
      var init := ts[..|ts| - 1];
      ReplayIgnoresCounter(p1, p2, init, resetOnClose);
      ApplyIgnoresCounter(Replay(p1, init, resetOnClose), Replay(p2, init, resetOnClose), ts[|ts| - 1], resetOnClose);
    }
  }

  lemma ApplyIgnoresCounter(p1: Position, p2: Position, t: TradeData, resetOnClose: bool)
    requires SellNonNegative(t)
    requires p1.quantity == p2.quantity && p1.invested == p2.invested
    ensures Apply(p1, t, resetOnClose).quantity == Apply(p2, t, resetOnClose).quantity
    ensures Apply(p1, t, resetOnClose).invested == Apply(p2, t, resetOnClose).invested
  {
  }

  /** With `resetOnClose`, a sell that closes the position exactly wipes its
      history: what follows is valued as if the holding had just been opened. */
  lemma ResettingForgetsClosedHistory(before: seq<TradeData>, close: TradeData, after: seq<TradeData>)
    requires SellsNonNegative(before) && SellsNonNegative(after)
    requires close.side == SELL && close.quantity >= 0.0
    requires Replay(Flat, before, true).quantity == close.quantity
    ensures SellsNonNegative(before + [close] + after)
    ensures Replay(Flat, before + [close] + after, true).quantity == Replay(Flat, after, true).quantity
    ensures Replay(Flat, before + [close] + after, true).invested == Replay(Flat, after, true).invested
  {
    ReplayAppend(Flat, before, [close], true);
    ReplayAppend(Flat, before + [close], after, true);
    assert [close][..0] == [];
    var closed := Replay(Flat, before + [close], true);
    assert closed.quantity == 0.0 && closed.invested == 0.0;
    ReplayIgnoresCounter(closed, Flat, after, true);
  }

  // ---------------------------------------------------------------- GET /portfolio/holdings

  /** The map key of the holdings fold: `${security_id}-${account_name}`. */
  datatype HoldingKey = HoldingKey(security: nat, accountName: string)

  /** One returned holding, before `toFixed` formatting. */
  datatype Holding = Holding(security: nat, ticker: string, name: string, assetType: string,
                             accountName: string, quantity: real, invested: real,
                             tradesCount: nat, averageCost: real)

  /** The rows the holdings query returns: the caller's live trades whose
      account is live and whose security row exists. */
  function HoldingRow(s: Store, user: nat): Row<TradeData> -> bool
  {
    (t: Row<TradeData>) =>
      t.owner == user && !t.deleted && LiveById(s.accounts, t.data.account).Some?
      && FirstById(s.securities, t.data.security).Some?
  }

  function HoldingRows(s: Store, user: nat): seq<Row<TradeData>>
  {
    Filter(s.trades, HoldingRow(s, user))
  }

  /** `accounts.account_name` of the joined account. */
  function AccountName(accounts: seq<Row<AccountData>>, id: nat): string
  {
    match LiveById(accounts, id)
    case None => ""
    case Some(k) => accounts[k].data.name
  }

  function KeyOf(accounts: seq<Row<AccountData>>, t: Row<TradeData>): HoldingKey
  {
    HoldingKey(t.data.security, AccountName(accounts, t.data.account))
  }

  /** Some row belongs to the holding. */
  predicate HasKey(rows: seq<Row<TradeData>>, accounts: seq<Row<AccountData>>, key: HoldingKey)
  {
    exists j :: 0 <= j < |rows| && KeyOf(accounts, rows[j]) == key
  }

  lemma HasKeySnoc(rows: seq<Row<TradeData>>, accounts: seq<Row<AccountData>>, key: HoldingKey)
    requires |rows| > 0
    ensures HasKey(rows, accounts, key)
            <==> HasKey(rows[..|rows| - 1], accounts, key) || KeyOf(accounts, rows[|rows| - 1]) == key
  {
    var init := rows[..|rows| - 1];
    if j :| 0 <= j < |init| && KeyOf(accounts, init[j]) == key {
      assert rows[j] == init[j];
    }
    if j :| 0 <= j < |rows| && KeyOf(accounts, rows[j]) == key {
      if j < |init| {
        assert init[j] == rows[j];
      }
    }
  }

  /** Every sell among the rows has a non-negative quantity. */
  predicate RowSellsNonNegative(rows: seq<Row<TradeData>>)
  {
    forall k :: 0 <= k < |rows| ==> SellNonNegative(rows[k].data)
  }

  /** The trades of one holding, in row order. */
  function GroupTrades(rows: seq<Row<TradeData>>, accounts: seq<Row<AccountData>>, key: HoldingKey): (r: seq<TradeData>)
    ensures |r| > 0 <==> HasKey(rows, accounts, key)
    ensures |r| <= |rows|
    ensures RowSellsNonNegative(rows) ==> SellsNonNegative(r)
  {
    if |rows| == 0 then []
    else
      var init := rows[..|rows| - 1];
      var last := rows[|rows| - 1];
      HasKeySnoc(rows, accounts, key);
      var g := GroupTrades(init, accounts, key);
      if KeyOf(accounts, last) == key then g + [last.data] else g
  }

  /** The single pass of the route: a map from holding key to its running
      position, updated row by row. Each entry is the fold of its own
      holding's trades. */
  function Pass(rows: seq<Row<TradeData>>, accounts: seq<Row<AccountData>>): (m: map<HoldingKey, Position>)
    requires RowSellsNonNegative(rows)
    ensures forall key :: key in m <==> HasKey(rows, accounts, key)
    ensures forall key :: key in m ==> m[key] == Replay(Flat, GroupTrades(rows, accounts, key), false)
  {
    if |rows| == 0 then map[]
    else
      var init := rows[..|rows| - 1];
      var last := rows[|rows| - 1];
      var m := Pass(init, accounts);
      var key := KeyOf(accounts, last);
      var p := if key in m then m[key] else Flat;
      PassStep(rows, accounts, m);
      m[key := Apply(p, last.data, false)]
  }

  lemma PassStep(rows: seq<Row<TradeData>>, accounts: seq<Row<AccountData>>, m: map<HoldingKey, Position>)
    requires |rows| > 0 && RowSellsNonNegative(rows)
    requires forall key :: key in m <==> HasKey(rows[..|rows| - 1], accounts, key)
    requires forall key :: key in m ==> m[key] == Replay(Flat, GroupTrades(rows[..|rows| - 1], accounts, key), false)
    ensures SellNonNegative(rows[|rows| - 1].data)
    ensures var last := rows[|rows| - 1];
            var key := KeyOf(accounts, last);
            var m' := m[key := Apply(if key in m then m[key] else Flat, last.data, false)];
            (forall k :: k in m' <==> HasKey(rows, accounts, k))
            && (forall k :: k in m' ==> m'[k] == Replay(Flat, GroupTrades(rows, accounts, k), false))
  {
    var init := rows[..|rows| - 1];
    var last := rows[|rows| - 1];
    var key := KeyOf(accounts, last);
    var m' := m[key := Apply(if key in m then m[key] else Flat, last.data, false)];
    assert RowSellsNonNegative(init);
    forall k | true
      ensures k in m' <==> HasKey(rows, accounts, k)
      ensures k in m' ==> m'[k] == Replay(Flat, GroupTrades(rows, accounts, k), false)
    {
      HasKeySnoc(rows, accounts, k);
      var g := GroupTrades(init, accounts, k);
      if k == key {
        assert GroupTrades(rows, accounts, k) == g + [last.data];
        assert (g + [last.data])[..|g|] == g;
        if k !in m {
          assert g == [];
        }
      } else {
        assert GroupTrades(rows, accounts, k) == g;
      }
    }
  }

  /** The group keys in order of first appearance, which is the order a
      JavaScript `Map` iterates them in. */
  function KeyList(rows: seq<Row<TradeData>>, accounts: seq<Row<AccountData>>): (ks: seq<HoldingKey>)
    ensures Distinct(ks)
    ensures forall key :: key in ks <==> HasKey(rows, accounts, key)
  {
    if |rows| == 0 then []
    else
      var init := rows[..|rows| - 1];
      var ks := KeyList(init, accounts);
      var key := KeyOf(accounts, rows[|rows| - 1]);
      assert forall k :: HasKey(rows, accounts, k) <==> HasKey(init, accounts, k) || k == key by {
        forall k
          ensures HasKey(rows, accounts, k) <==> HasKey(init, accounts, k) || k == key
        {
          HasKeySnoc(rows, accounts, k);
        }
      }
      if key in ks then ks else ks + [key]
  }

  /** A returned holding with the `average_cost_basis` the route adds. */
  function MakeHolding(securities: seq<Row<SecurityData>>, key: HoldingKey, p: Position): (h: Holding)
    requires p.quantity > 0.0
    ensures h.security == key.security && h.accountName == key.accountName
    ensures h.quantity == p.quantity && h.invested == p.invested && h.tradesCount == p.trades
    ensures h.averageCost == AverageCost(p)
  {
    var sec := match FirstById(securities, key.security)
               case None => SecurityData("", "", "")
               case Some(k) => securities[k].data;
    Holding(key.security, sec.ticker, sec.name, sec.assetType, key.accountName,
            p.quantity, p.invested, p.trades, p.invested / p.quantity)
  }

  function HoldingKeyOf(h: Holding): HoldingKey
  {
    HoldingKey(h.security, h.accountName)
  }

  /** The entry of `m` a holding was made from. */
  predicate MadeFrom(h: Holding, m: map<HoldingKey, Position>)
  {
    && HoldingKeyOf(h) in m
    && m[HoldingKeyOf(h)] == Position(h.quantity, h.invested, h.tradesCount)
    && h.quantity > 0.0
    && h.averageCost == AverageCost(m[HoldingKeyOf(h)])
  }

  /** The map's entries in key order, keeping those with shares. */
  function Collect(securities: seq<Row<SecurityData>>, ks: seq<HoldingKey>, m: map<HoldingKey, Position>): (r: seq<Holding>)
    requires forall k :: k in ks ==> k in m
    ensures forall i :: 0 <= i < |r| ==> HoldingKeyOf(r[i]) in ks && MadeFrom(r[i], m)
    ensures forall k :: k in ks && m[k].quantity > 0.0 ==> exists i :: 0 <= i < |r| && HoldingKeyOf(r[i]) == k
    ensures Distinct(ks) ==> forall i, j :: 0 <= i < j < |r| ==> HoldingKeyOf(r[i]) != HoldingKeyOf(r[j])
  {
    var held := (k: HoldingKey) => k in m && m[k].quantity > 0.0;
    var open := Filter(ks, held);
    FilterKeeps(ks, held);
    FilterKeepsDistinct(ks, held);
    var r := seq(|open|, i requires 0 <= i < |open| => MakeHolding(securities, open[i], m[open[i]]));
    assert forall i :: 0 <= i < |r| ==> HoldingKeyOf(r[i]) == open[i];
    assert forall k :: k in open ==> exists i :: 0 <= i < |r| && HoldingKeyOf(r[i]) == k;
    r
  }

  /** GET /portfolio/holdings: one entry per (security, account name) pair of
      the caller's live trades on live accounts that still holds shares, with
      the fold of that pair's trades and its average cost. */
  function Holdings(s: Store, user: nat): (r: seq<Holding>)
    requires RowSellsNonNegative(HoldingRows(s, user))
    ensures forall i :: 0 <= i < |r| ==> InHolding(HoldingRows(s, user), s.accounts, r[i])
    ensures forall k :: 0 <= k < |HoldingRows(s, user)| ==>
              var key := KeyOf(s.accounts, HoldingRows(s, user)[k]);
              Replay(Flat, GroupTrades(HoldingRows(s, user), s.accounts, key), false).quantity > 0.0 ==>
                exists i :: 0 <= i < |r| && HoldingKeyOf(r[i]) == key
    ensures forall i, j :: 0 <= i < j < |r| ==> HoldingKeyOf(r[i]) != HoldingKeyOf(r[j])
  {
    var rows := HoldingRows(s, user);
    var m := Pass(rows, s.accounts);
    var ks := KeyList(rows, s.accounts);
    HoldingsSound(s.securities, s.accounts, rows);
    HoldingsComplete(s.securities, s.accounts, rows);
    Collect(s.securities, ks, m)
  }

  lemma HoldingsSound(securities: seq<Row<SecurityData>>, accounts: seq<Row<AccountData>>, rows: seq<Row<TradeData>>)
    requires RowSellsNonNegative(rows)
    ensures forall k :: k in KeyList(rows, accounts) ==> k in Pass(rows, accounts)
    ensures var r := Collect(securities, KeyList(rows, accounts), Pass(rows, accounts));
            forall i :: 0 <= i < |r| ==> InHolding(rows, accounts, r[i])
  {
    var m := Pass(rows, accounts);
    var ks := KeyList(rows, accounts);
    forall k | k in ks
      ensures k in m
    {
      assert HasKey(rows, accounts, k);
    }
    var r := Collect(securities, ks, m);
    forall i | 0 <= i < |r|
      ensures InHolding(rows, accounts, r[i])
    {
      MadeFromPass(rows, accounts, r[i]);
    }
  }

  /** A holding made from the single-pass map is the fold of its own group. */
  lemma MadeFromPass(rows: seq<Row<TradeData>>, accounts: seq<Row<AccountData>>, h: Holding)
    requires RowSellsNonNegative(rows)
    requires MadeFrom(h, Pass(rows, accounts))
    ensures InHolding(rows, accounts, h)
  {
    var g := GroupTrades(rows, accounts, HoldingKeyOf(h));
    assert SellsNonNegative(g);
    assert Pass(rows, accounts)[HoldingKeyOf(h)] == Replay(Flat, g, false);
  }

  lemma HoldingsComplete(securities: seq<Row<SecurityData>>, accounts: seq<Row<AccountData>>, rows: seq<Row<TradeData>>)
    requires RowSellsNonNegative(rows)
    requires forall k :: k in KeyList(rows, accounts) ==> k in Pass(rows, accounts)
    ensures forall k :: 0 <= k < |rows| ==> FoundIfHeld(securities, accounts, rows, k)
  {
    forall k | 0 <= k < |rows|
      ensures FoundIfHeld(securities, accounts, rows, k)
    {
      PassedKey(accounts, rows, k);
      HoldingFound(securities, KeyList(rows, accounts), Pass(rows, accounts), KeyOf(accounts, rows[k]));
    }
  }

  /** The holding of row `k`, if it still holds shares, is listed. */
  predicate FoundIfHeld(securities: seq<Row<SecurityData>>, accounts: seq<Row<AccountData>>, rows: seq<Row<TradeData>>, k: nat)
    requires RowSellsNonNegative(rows) && k < |rows|
    requires forall k :: k in KeyList(rows, accounts) ==> k in Pass(rows, accounts)
  {
    var key := KeyOf(accounts, rows[k]);
    var r := Collect(securities, KeyList(rows, accounts), Pass(rows, accounts));
    Replay(Flat, GroupTrades(rows, accounts, key), false).quantity > 0.0 ==>
      exists i :: 0 <= i < |r| && HoldingKeyOf(r[i]) == key
  }

  /** The key of every row is listed and mapped to the fold of its group. */
  lemma PassedKey(accounts: seq<Row<AccountData>>, rows: seq<Row<TradeData>>, k: nat)
    requires RowSellsNonNegative(rows) && k < |rows|
    ensures var key := KeyOf(accounts, rows[k]);
            && key in KeyList(rows, accounts)
            && key in Pass(rows, accounts)
            && Pass(rows, accounts)[key] == Replay(Flat, GroupTrades(rows, accounts, key), false)
  {
    assert HasKey(rows, accounts, KeyOf(accounts, rows[k]));
  }

  lemma HoldingFound(securities: seq<Row<SecurityData>>, ks: seq<HoldingKey>, m: map<HoldingKey, Position>, key: HoldingKey)
    requires forall k :: k in ks ==> k in m
    requires key in ks
    ensures key in m
    ensures m[key].quantity > 0.0 ==>
              var r := Collect(securities, ks, m);
              exists i :: 0 <= i < |r| && HoldingKeyOf(r[i]) == key
  {
    var r := Collect(securities, ks, m);
    if m[key].quantity > 0.0 {
      assert key in ks && m[key].quantity > 0.0;
      assert exists i :: 0 <= i < |r| && HoldingKeyOf(r[i]) == key;
    }
  }

  /** A holding of the rows: its figures are the fold of its own group of
      trades, it holds shares, and its average cost is invested / quantity. */
  predicate InHolding(rows: seq<Row<TradeData>>, accounts: seq<Row<AccountData>>, h: Holding)
  {
    var g := GroupTrades(rows, accounts, HoldingKeyOf(h));
    && SellsNonNegative(g)
    && Replay(Flat, g, false) == Position(h.quantity, h.invested, h.tradesCount)
    && h.tradesCount == |g|
    && h.quantity > 0.0
    && h.averageCost == AverageCost(Position(h.quantity, h.invested, h.tradesCount))
  }

  // ---------------------------------------------------------------- POST /portfolio/trades

  /** The body of a trade request. `quantityText` and `priceText` are the body
      values as sent, which the companion transaction's description quotes;
      `quantity` and `price` are their parsed values. */
  datatype TradeRequest = TradeRequest(account: nat, ticker: string, side: TradeSide,
                                       quantity: real, price: real,
                                       quantityText: string, priceText: string,
                                       date: Option<Date>)

  function SideName(side: TradeSide): string
  {
    match side
    case BUY => "BUY"
    case SELL => "SELL"
  }

  /** The first live security with this ticker. */
  function FindTicker(securities: seq<Row<SecurityData>>, ticker: string): (r: Option<nat>)
    ensures r.Some? ==> r.value < |securities| && securities[r.value].data.ticker == ticker && !securities[r.value].deleted
    ensures r.Some? ==> forall k :: 0 <= k < r.value ==> securities[k].data.ticker != ticker || securities[k].deleted
    ensures r.None? <==> forall k :: 0 <= k < |securities| ==> securities[k].data.ticker != ticker || securities[k].deleted
  {
    if |securities| == 0 then None
    else if securities[0].data.ticker == ticker && !securities[0].deleted then Some(0)
    else match FindTicker(securities[1..], ticker)
      case None => None
      case Some(k) => Some(k + 1)
  }

  /** Some securities row, live or soft-deleted, holds this ticker. */
  predicate TickerHeld(securities: seq<Row<SecurityData>>, ticker: string)
  {
    exists k :: 0 <= k < |securities| && securities[k].data.ticker == ticker
  }

  /** The UNIQUE constraint on `securities.ticker_symbol`: no two rows, live
      or soft-deleted, share a ticker. */
  predicate TickersUnique(securities: seq<Row<SecurityData>>)
  {
    forall i, j :: 0 <= i < |securities| && 0 <= j < |securities| && i != j ==>
      securities[i].data.ticker != securities[j].data.ticker
  }

  /** The security a trade on this ticker uses, and the securities table after
      it is found or created. The lookup sees only live rows; when a
      soft-deleted row holds the ticker the insert breaks the UNIQUE
      constraint and there is no security (`None`). */
  function FindOrCreateSecurity(securities: seq<Row<SecurityData>>, ticker: string): (r: Option<(nat, seq<Row<SecurityData>>)>)
    ensures FindTicker(securities, ToUpper(ticker)).Some? ==>
              r == Some((securities[FindTicker(securities, ToUpper(ticker)).value].id, securities))
    ensures r.None? <==> FindTicker(securities, ToUpper(ticker)).None? && TickerHeld(securities, ToUpper(ticker))
    ensures FindTicker(securities, ToUpper(ticker)).None? && r.Some? ==>
              r.value.1 == securities + [Row(r.value.0, 0, SecurityData(ToUpper(ticker), ToUpper(ticker), "Stock"), false)]
              && forall k :: 0 <= k < |securities| ==> securities[k].id != r.value.0
    ensures r.Some? ==> FindTicker(r.value.1, ToUpper(ticker)).Some? && r.value.1[FindTicker(r.value.1, ToUpper(ticker)).value].id == r.value.0
  {
    var up := ToUpper(ticker);
    match FindTicker(securities, up)
    case Some(k) => Some((securities[k].id, securities))
    case None =>
      if TickerHeld(securities, up) then None
      else
        var rows := Insert(securities, 0, SecurityData(up, up, "Stock"));
        assert FindTicker(rows, up) == Some(|securities|) by {
          assert forall k :: 0 <= k < |securities| ==> rows[k] == securities[k];
        }
        Some((NextId(securities), rows))
  }

  /** The driver error the refused security insert raises. */
  const TickerClash := UniqueViolation("securities.ticker_symbol")

  /** The companion transaction's `description`. */
  function TradeDescription(req: TradeRequest): string
  {
    SideName(req.side) + " " + req.quantityText + " shares of " + ToUpper(req.ticker) + " @ " + req.priceText
  }

  /** POST /portfolio/trades: 400 "Invalid account" unless the caller holds the
      live account; otherwise find or create the security by upper-cased
      ticker, insert the trade, and insert one companion transaction: an
      EXPENSE of quantity x price for a BUY, an INCOME for a SELL. A refused
      security insert reaches the error middleware before anything is
      written. */
  function CreateTrade(s: Store, user: nat, req: TradeRequest, today: Date): (r: Reply<Row<TradeData>>)
    ensures FindLive(s.accounts, req.account, user).None? ==> r == Reply(Fail(400, "Invalid account"), s)
    ensures FindLive(s.accounts, req.account, user).Some? && FindOrCreateSecurity(s.securities, req.ticker).None? ==>
              && r.store == s && r.response.Fail?
              && HandleError(TickerClash, false) == ErrorReply(r.response.status, Some(r.response.message), None)
    ensures r.response.Ok? <==>
              FindLive(s.accounts, req.account, user).Some? && FindOrCreateSecurity(s.securities, req.ticker).Some?
    ensures r.response.Ok? ==>
              var t := r.response.value;
              var date := req.date.GetOr(today);
              && r.store.users == s.users && r.store.accounts == s.accounts && r.store.categories == s.categories
              && r.store.trades == s.trades + [t]
              && (forall k :: 0 <= k < |s.trades| ==> s.trades[k].id != t.id)
              && t.owner == user && !t.deleted
              && t.data == TradeData(req.account, t.data.security, req.side, req.quantity, req.price, date)
              && FindOrCreateSecurity(s.securities, req.ticker) == Some((t.data.security, r.store.securities))
              && r.store.transactions
                 == s.transactions + [Row(NextId(s.transactions), user,
                                          TxData(req.account, None, if req.side == BUY then EXPENSE else INCOME,
                                                 req.quantity * req.price, Some(TradeDescription(req)), date, None),
                                          false)]
  {
    if FindLive(s.accounts, req.account, user).None? then Reply(Fail(400, "Invalid account"), s)
    else match FindOrCreateSecurity(s.securities, req.ticker)
      case None =>
        UniqueViolationIs500("securities.ticker_symbol", false);
        Reply(Fail(500, HandleError(TickerClash, false).message.GetOr("")), s)
      case Some((security, securities)) =>
        var date := req.date.GetOr(today);
        var trade := Row(NextId(s.trades), user, TradeData(req.account, security, req.side, req.quantity, req.price, date), false);
        var tx := TxData(req.account, None, if req.side == BUY then EXPENSE else INCOME,
                         req.quantity * req.price, Some(TradeDescription(req)), date, None);
        Reply(Ok(trade), s.(securities := securities, trades := s.trades + [trade],
                            transactions := Insert(s.transactions, user, tx)))
  }

  /** Trade creation keeps the UNIQUE constraint on tickers: it either reuses
      a live security, refuses, or adds a ticker no row holds. */
  lemma CreateTradeKeepsTickersUnique(s: Store, user: nat, req: TradeRequest, today: Date)
    requires TickersUnique(s.securities)
    ensures TickersUnique(CreateTrade(s, user, req, today).store.securities)
  {
    var r := CreateTrade(s, user, req, today);
    var up := ToUpper(req.ticker);
    if r.response.Ok? && FindTicker(s.securities, up).None? {
      var after := r.store.securities;
      assert !TickerHeld(s.securities, up);
      forall i, j | 0 <= i < |after| && 0 <= j < |after| && i != j
        ensures after[i].data.ticker != after[j].data.ticker
      {
        if i < |s.securities| && j < |s.securities| {
          assert after[i] == s.securities[i] && after[j] == s.securities[j];
        } else if i < |s.securities| {
          assert after[i] == s.securities[i] && after[j].data.ticker == up;
        } else {
          assert after[j] == s.securities[j] && after[i].data.ticker == up;
        }
      }
    }
  }

  /** The companion transaction moves the trade's account by the trade's
      notional: down for a BUY, up for a SELL. No other account moves. */
  lemma TradeMovesBalance(s: Store, user: nat, req: TradeRequest, today: Date, a: Row<AccountData>)
    requires CreateTrade(s, user, req, today).response.Ok?
    ensures var after := CreateTrade(s, user, req, today).store.transactions;
            Balance(after, a)
            == Balance(s.transactions, a)
               + (if a.id != req.account then 0.0
                  else if req.side == BUY then -(req.quantity * req.price)
                  else req.quantity * req.price)
  {
    var after := CreateTrade(s, user, req, today).store.transactions;
    var row := after[|s.transactions|];
    assert after == s.transactions + [row];
    assert [row][..0] == [];
    SumOfAppend(s.transactions, [row], OfKind(a.id, INCOME), Amount);
    SumOfAppend(s.transactions, [row], OfKind(a.id, EXPENSE), Amount);
  }

  /** A second trade on the same ticker in any letter case reuses the security
      the first one found or created. */
  lemma SameTickerSameSecurity(s: Store, user: nat, first: TradeRequest, second: TradeRequest, today: Date)
    requires CreateTrade(s, user, first, today).response.Ok?
    requires |first.ticker| == |second.ticker|
    requires forall i :: 0 <= i < |first.ticker| ==> UpperChar(first.ticker[i]) == UpperChar(second.ticker[i])
    requires FindLive(s.accounts, second.account, user).Some?
    ensures var mid := CreateTrade(s, user, first, today);
            var r := CreateTrade(mid.store, user, second, today);
            r.response.Ok? && r.store.securities == mid.store.securities
            && r.response.value.data.security == mid.response.value.data.security
  {
    ToUpperIgnoresCase(first.ticker, second.ticker);
  }

  // ---------------------------------------------------------------- GET /portfolio/trades

  /** The trade list's query filters; the ticker and side are upper-cased
      before comparing, and an empty string is no filter. */
  datatype TradeFilter = TradeFilter(account: Option<nat>, ticker: Option<string>, side: Option<string>)

  predicate Given(text: Option<string>)
  {
    text.Some? && text.value != ""
  }

  /** The pagination count's `WHERE`. It joins the securities only when a
      ticker filter is given, and never joins the accounts. */
  function TradeCounted(securities: seq<Row<SecurityData>>, user: nat, f: TradeFilter): Row<TradeData> -> bool
  {
    (t: Row<TradeData>) =>
      !t.deleted && t.owner == user
      && (f.account.None? || t.data.account == f.account.value)
      && (!Given(f.side) || SideName(t.data.side) == ToUpper(f.side.value))
      && (!Given(f.ticker)
          || (FirstById(securities, t.data.security).Some?
              && securities[FirstById(securities, t.data.security).value].data.ticker == ToUpper(f.ticker.value)))
  }

  /** The listing's `WHERE`: the counted rows that also join a security and
      a live account. */
  function TradeShown(accounts: seq<Row<AccountData>>, securities: seq<Row<SecurityData>>, user: nat, f: TradeFilter): Row<TradeData> -> bool
  {
    (t: Row<TradeData>) =>
      TradeCounted(securities, user, f)(t)
      && FirstById(securities, t.data.security).Some? && LiveById(accounts, t.data.account).Some?
  }

  datatype TradePage = TradePage(trades: seq<Row<TradeData>>, total: nat)

  /** What SQLite raises for the pagination count once the ticker filter has
      joined `securities`: both joined tables have a `deleted_at` column, and
      the count's `whereNull('deleted_at')` does not say which. */
  const AmbiguousColumn := "ambiguous column name: deleted_at"
  const AmbiguousDeletedAt := DriverError("SQLITE_ERROR", AmbiguousColumn)

  /** GET /portfolio/trades as written: with a ticker filter the count query
      fails and the error middleware answers; otherwise the joined rows, and
      a total that also counts the caller's trades the joins drop. */
  function ListTrades(s: Store, user: nat, f: TradeFilter): (r: Response<TradePage>)
    ensures r.Fail? <==> Given(f.ticker)
    ensures r.Fail? ==> HandleError(AmbiguousDeletedAt, false) == ErrorReply(r.status, Some(r.message), None)
    ensures r.Fail? ==> r == Fail(500, DriverMessage("SQLITE_ERROR", AmbiguousColumn))
    ensures r.Ok? ==> forall t :: t in r.value.trades <==> t in s.trades && TradeShown(s.accounts, s.securities, user, f)(t)
    ensures r.Ok? ==> |r.value.trades| <= r.value.total
    ensures r.Ok? ==>
              (|r.value.trades| == r.value.total <==>
                 forall k :: 0 <= k < |s.trades| && TradeCounted(s.securities, user, f)(s.trades[k]) ==>
                   FirstById(s.securities, s.trades[k].data.security).Some?
                   && LiveById(s.accounts, s.trades[k].data.account).Some?)
  {
    if Given(f.ticker) then
      var e := HandleError(AmbiguousDeletedAt, false);
      DriverErrorIs500("SQLITE_ERROR", AmbiguousColumn, false);
      Fail(500, e.message.GetOr(""))
    else Ok(ListTradesQualified(s, user, f))
  }

  /** GET /portfolio/trades with the count's filter written
      `stock_trades.deleted_at`: every filter combination answers with the
      joined rows and the total. */
  function ListTradesQualified(s: Store, user: nat, f: TradeFilter): (r: TradePage)
    ensures forall t :: t in r.trades <==> t in s.trades && TradeShown(s.accounts, s.securities, user, f)(t)
    ensures |r.trades| <= r.total
    ensures |r.trades| == r.total <==>
              forall k :: 0 <= k < |s.trades| && TradeCounted(s.securities, user, f)(s.trades[k]) ==>
                FirstById(s.securities, s.trades[k].data.security).Some?
                && LiveById(s.accounts, s.trades[k].data.account).Some?
  {
    var shown := TradeShown(s.accounts, s.securities, user, f);
    FilterKeeps(s.trades, shown);
    CountOfIsSizeOfFilter(s.trades, shown);
    CountOfNarrower(s.trades, shown, TradeCounted(s.securities, user, f));
    TradePage(Filter(s.trades, shown), CountOf(s.trades, TradeCounted(s.securities, user, f)))
  }

  /** A caller who holds one live AAPL trade and asks for "aapl": as written
      the answer is the driver's 500; with the qualified count it is that
      trade with a total of 1. */
  lemma TickerFilterFails(user: nat, d: Date)
    ensures var aapl := Row(1, 0, SecurityData("AAPL", "AAPL", "Stock"), false);
            var account := Row(1, user, AccountData("Brokerage", "investment", 0.0), false);
            var trade := Row(1, user, TradeData(1, 1, BUY, 1.0, 100.0, d), false);
            var s := Store([], [account], [], [], [aapl], [trade]);
            var f := TradeFilter(None, Some("aapl"), None);
            && ListTrades(s, user, f) == Fail(500, DriverMessage("SQLITE_ERROR", AmbiguousColumn))
            && ListTradesQualified(s, user, f) == TradePage([trade], 1)
  {
    var aapl := Row(1, 0, SecurityData("AAPL", "AAPL", "Stock"), false);
    var account := Row(1, user, AccountData("Brokerage", "investment", 0.0), false);
    var trade := Row(1, user, TradeData(1, 1, BUY, 1.0, 100.0, d), false);
    var s := Store([], [account], [], [], [aapl], [trade]);
    var f := TradeFilter(None, Some("aapl"), None);
    assert ToUpper("aapl") == "AAPL";
    assert FirstById(s.securities, 1) == Some(0);
    assert LiveById(s.accounts, 1) == Some(0);
    assert Given(f.ticker) && !Given(f.side);
    assert s.securities[0].data.ticker == ToUpper(f.ticker.value);
    assert TradeCounted(s.securities, user, f)(trade);
    assert TradeShown(s.accounts, s.securities, user, f)(trade);
    assert [trade][..0] == [];
    assert Filter(s.trades, TradeShown(s.accounts, s.securities, user, f)) == [trade];
    assert CountOf(s.trades, TradeCounted(s.securities, user, f)) == 1;
  }

  // ---------------------------------------------------------------- delete and restore

  /** DELETE /portfolio/trades/:id: soft-delete the caller's live trade; the
      companion transaction stays. */
  function DeleteTrade(s: Store, user: nat, id: nat): (r: Reply<()>)
    ensures r.response.Fail? <==> FindLive(s.trades, id, user).None?
    ensures r.response.Fail? ==> r == Reply(Fail(404, "Stock trade not found"), s)
    ensures r.response.Ok? ==> r.store == s.(trades := SetDeleted(s.trades, id, true))
  {
    var (resp, rows) := SoftDelete(s.trades, id, user, "Stock trade");
    Reply(resp, s.(trades := rows))
  }

  /** PUT /portfolio/trades/:id/restore: 404 for an unknown or foreign trade,
      400 for a live one, otherwise clear the marker. */
  function RestoreTrade(s: Store, user: nat, id: nat): (r: Reply<()>)
    ensures Find(s.trades, id, user, false).None? ==> r == Reply(Fail(404, "Stock trade not found"), s)
    ensures Find(s.trades, id, user, false).Some? && !s.trades[Find(s.trades, id, user, false).value].deleted ==>
              r == Reply(Fail(400, "Stock trade is not deleted"), s)
    ensures r.response.Ok? <==> Find(s.trades, id, user, false).Some? && s.trades[Find(s.trades, id, user, false).value].deleted
    ensures r.response.Ok? ==> r.store == s.(trades := SetDeleted(s.trades, id, false))
  {
    assert "Stock trade" + " not found" == "Stock trade not found";
    assert "Stock trade" + " is not deleted" == "Stock trade is not deleted";
    var (resp, rows) := Restore(s.trades, id, user, "Stock trade");
    Reply(resp, s.(trades := rows))
  }

  /** Deleting a live trade and restoring it gives back the store we started
      from; every balance is the same throughout. */
  lemma TradeDeleteThenRestore(s: Store, user: nat, id: nat, a: Row<AccountData>)
    requires UniqueIds(s.trades)
    requires FindLive(s.trades, id, user).Some?
    ensures DeleteTrade(s, user, id).response.Ok?
    ensures Balance(DeleteTrade(s, user, id).store.transactions, a) == Balance(s.transactions, a)
    ensures RestoreTrade(DeleteTrade(s, user, id).store, user, id) == Reply(Ok(()), s)
  {
    DeleteThenRestore(s.trades, id, user, "Stock trade");
  }
}

=== FILE: ranking.dfy ===
/** `ORDER BY <total> DESC` and `LIMIT n` on query results: a stable
    insertion sort by a real-valued key, largest first. */
module Ranking {
  import opened Folds

  predicate SortedDesc<T>(xs: seq<T>, key: T -> real)
  {
    forall i, j :: 0 <= i < j < |xs| ==> key(xs[i]) >= key(xs[j])
  }

  /** Put `x` after every element whose key is at least its own. */
  function InsertDesc<T>(x: T, xs: seq<T>, key: T -> real): (r: seq<T>)
    requires SortedDesc(xs, key)
    ensures SortedDesc(r, key)
    ensures multiset(r) == multiset(xs) + multiset{x}
    ensures |r| == |xs| + 1
  {
    if |xs| == 0 then [x]
    else if key(xs[0]) >= key(x) then
      var tail := xs[1..];
      var rest := InsertDesc(x, tail, key);
      assert xs == [xs[0]] + tail;
      assert forall k :: 0 <= k < |tail| ==> tail[k] == xs[k + 1];
      BoundSurvives(rest, tail, x, key, key(xs[0]));
      ConsSorted(xs[0], rest, key);
      [xs[0]] + rest
    else
      ConsSorted(x, xs, key);
      [x] + xs
  }

  /** A bound on every key of `zs` and on `x` bounds every key of a list
      holding the same rows as `zs` plus `x`. */
  lemma BoundSurvives<T>(ys: seq<T>, zs: seq<T>, x: T, key: T -> real, b: real)
    requires multiset(ys) == multiset(zs) + multiset{x}
    requires key(x) <= b && forall k :: 0 <= k < |zs| ==> key(zs[k]) <= b
    ensures forall k :: 0 <= k < |ys| ==> key(ys[k]) <= b
  {
    forall k | 0 <= k < |ys|
      ensures key(ys[k]) <= b
    {
      assert ys[k] in multiset(zs) + multiset{x};
      if ys[k] != x {
        assert ys[k] in zs;
      }
    }
  }

  /** A head whose key bounds every key of a sorted tail keeps it sorted. */
  lemma ConsSorted<T>(h: T, xs: seq<T>, key: T -> real)
    requires SortedDesc(xs, key)
    requires forall k :: 0 <= k < |xs| ==> key(h) >= key(xs[k])
    ensures SortedDesc([h] + xs, key)
  {
    forall i, j | 0 <= i < j < |[h] + xs|
      ensures key(([h] + xs)[i]) >= key(([h] + xs)[j])
    {
      if i > 0 {
        assert ([h] + xs)[i] == xs[i - 1];
      }
      assert ([h] + xs)[j] == xs[j - 1];
    }
  }

  /** The rows ordered by non-increasing key; rows with equal keys keep their
      relative order. */
  function SortDesc<T>(xs: seq<T>, key: T -> real): (r: seq<T>)
    ensures SortedDesc(r, key)
    ensures multiset(r) == multiset(xs)
    ensures |r| == |xs|
  {
    if |xs| == 0 then []
    else
      assert xs == xs[..|xs| - 1] + [xs[|xs| - 1]];
      InsertDesc(xs[|xs| - 1], SortDesc(xs[..|xs| - 1], key), key)
  }

  /** Sorting keeps exactly the rows it was given. */
  lemma SortDescSameRows<T>(xs: seq<T>, key: T -> real)
    ensures forall x :: x in SortDesc(xs, key) <==> x in xs
  {
    var r := SortDesc(xs, key);
    forall x
      ensures x in r <==> x in xs
    {
      assert x in r <==> x in multiset(r);
      assert x in xs <==> x in multiset(xs);
    }
  }

  /** A row given to the sort is in its output. */
  lemma SortDescHas<T>(xs: seq<T>, key: T -> real, x: T)
    requires x in xs
    ensures x in SortDesc(xs, key)
  {
    assert x in multiset(xs);
  }

  /** `LIMIT n`. */
  function Take<T>(xs: seq<T>, n: nat): (r: seq<T>)
    ensures |r| <= n && |r| <= |xs|
    ensures r == xs[..|r|]
    ensures |xs| <= n ==> r == xs
  {
    if |xs| <= n then xs else xs[..n]
  }

  /** Reordering keeps any sum over the rows. */
  lemma {:induction false} InsertDescKeepsTotal<T>(x: T, xs: seq<T>, key: T -> real, f: T -> real)
    requires SortedDesc(xs, key)
    ensures Total(InsertDesc(x, xs, key), f) == f(x) + Total(xs, f)
  {
    if |xs| == 0 {
      assert [x][..0] == [];
    } else if key(xs[0]) >= key(x) {
      InsertDescKeepsTotal(x, xs[1..], key, f);
      TotalCons(xs[0], xs[1..], f);
      TotalCons(xs[0], InsertDesc(x, xs[1..], key), f);
      assert xs == [xs[0]] + xs[1..];
    } else {
      TotalCons(x, xs, f);
    }
  }

  lemma {:induction false} SortDescKeepsTotal<T>(xs: seq<T>, key: T -> real, f: T -> real)
    ensures Total(SortDesc(xs, key), f) == Total(xs, f)
  {
    if |xs| > 0 {
      var init := xs[..|xs| - 1];
      SortDescKeepsTotal(init, key, f);
      InsertDescKeepsTotal(xs[|xs| - 1], SortDesc(init, key), key, f);
    }
  }

  lemma TotalCons<T>(x: T, xs: seq<T>, f: T -> real)
    ensures Total([x] + xs, f) == f(x) + Total(xs, f)
  {
    TotalAppend([x], xs, f);
    assert [x][..0] == [];
  }

  /** No two rows share the value of `f`. */
  predicate DistinctBy<T>(xs: seq<T>, f: T -> nat)
  {
    forall i, j :: 0 <= i < j < |xs| ==> f(xs[i]) != f(xs[j])
  }

  lemma {:induction false} InsertDescKeepsDistinct<T>(x: T, xs: seq<T>, key: T -> real, f: T -> nat)
    requires SortedDesc(xs, key) && DistinctBy(xs, f)
    requires forall k :: 0 <= k < |xs| ==> f(xs[k]) != f(x)
    ensures DistinctBy(InsertDesc(x, xs, key), f)
  {
    if |xs| > 0 && key(xs[0]) >= key(x) {
      var tail := xs[1..];
      InsertDescKeepsDistinct(x, tail, key, f);
      var rest := InsertDesc(x, tail, key);
      forall k | 0 <= k < |rest|
        ensures f(xs[0]) != f(rest[k])
      {
        assert rest[k] in multiset(tail) + multiset{x};
        if rest[k] != x {
          assert rest[k] in tail;
          var j :| 0 <= j < |tail| && tail[j] == rest[k];
          assert xs[j + 1] == rest[k];
        }
      }
    }
  }

  /** Sorting neither creates nor merges rows, so distinct rows stay distinct. */
  lemma {:induction false} SortDescKeepsDistinct<T>(xs: seq<T>, key: T -> real, f: T -> nat)
    requires DistinctBy(xs, f)
    ensures DistinctBy(SortDesc(xs, key), f)
  {
    if |xs| > 0 {
      var init := xs[..|xs| - 1];
      var x := xs[|xs| - 1];
      SortDescKeepsDistinct(init, key, f);
      var sorted := SortDesc(init, key);
      forall k | 0 <= k < |sorted|
        ensures f(sorted[k]) != f(x)
      {
        assert sorted[k] in multiset(init);
        var j :| 0 <= j < |init| && init[j] == sorted[k];
        assert xs[j] == sorted[k];
      }
      InsertDescKeepsDistinct(x, sorted, key, f);
    }
  }

  /** A prefix of a sorted list is sorted and holds its largest keys. */
  lemma TakeKeepsOrder<T>(xs: seq<T>, n: nat, key: T -> real)
    requires SortedDesc(xs, key)
    ensures SortedDesc(Take(xs, n), key)
    ensures forall i, j :: 0 <= i < |Take(xs, n)| <= j < |xs| ==> key(Take(xs, n)[i]) >= key(xs[j])
  {
  }
}

=== FILE: rows.dfy ===
/** Tables of rows that carry an id, an owning user and a soft-delete marker
    (`deleted_at IS NULL` means live), with the lookups and the soft delete and
    restore that every route repeats. */
module Rows {
  import opened Common

  /** One table row; `deleted` abstracts the `deleted_at` timestamp. */
  datatype Row<T> = Row(id: nat, owner: nat, data: T, deleted: bool)

  /** Auto-increment keys are never repeated. */
  predicate UniqueIds<T>(rows: seq<Row<T>>)
  {
    forall i, j :: 0 <= i < |rows| && 0 <= j < |rows| && rows[i].id == rows[j].id ==> i == j
  }

  /** The row matches `WHERE id = ? AND user_id = ?`, plus `deleted_at IS NULL`
      when `liveOnly` holds. */
  predicate Matches<T>(r: Row<T>, id: nat, owner: nat, liveOnly: bool)
  {
    r.id == id && r.owner == owner && (liveOnly ==> !r.deleted)
  }

  /** `.first()` of that query: the index of the first matching row. */
  function Find<T>(rows: seq<Row<T>>, id: nat, owner: nat, liveOnly: bool): (r: Option<nat>)
    ensures r.Some? ==> r.value < |rows| && Matches(rows[r.value], id, owner, liveOnly)
    ensures r.Some? ==> forall k :: 0 <= k < r.value ==> !Matches(rows[k], id, owner, liveOnly)
    ensures r.None? <==> forall k :: 0 <= k < |rows| ==> !Matches(rows[k], id, owner, liveOnly)
  {
    if |rows| == 0 then None
    else if Matches(rows[0], id, owner, liveOnly) then Some(0)
    else match Find(rows[1..], id, owner, liveOnly)
      case None => None
      case Some(k) => Some(k + 1)
  }

  /** The caller's live row with this id, if there is one. */
  function FindLive<T>(rows: seq<Row<T>>, id: nat, owner: nat): Option<nat>
  {
    Find(rows, id, owner, true)
  }

  /** The first live row with this id, whoever owns it: an inner join on the
      key with `deleted_at IS NULL` on the joined table. */
  function LiveById<T>(rows: seq<Row<T>>, id: nat): (r: Option<nat>)
    ensures r.Some? ==> r.value < |rows| && rows[r.value].id == id && !rows[r.value].deleted
    ensures r.None? <==> forall k :: 0 <= k < |rows| ==> rows[k].id != id || rows[k].deleted
  {
    if |rows| == 0 then None
    else if rows[0].id == id && !rows[0].deleted then Some(0)
    else match LiveById(rows[1..], id)
      case None => None
      case Some(k) => Some(k + 1)
  }

  /** The first row with this id, whoever owns it and whether or not it is
      deleted: a join on the key with no filter on the joined table. */
  function FirstById<T>(rows: seq<Row<T>>, id: nat): (r: Option<nat>)
    ensures r.Some? ==> r.value < |rows| && rows[r.value].id == id
    ensures r.None? <==> forall k :: 0 <= k < |rows| ==> rows[k].id != id
  {
    if |rows| == 0 then None
    else if rows[0].id == id then Some(0)
    else match FirstById(rows[1..], id)
      case None => None
      case Some(k) => Some(k + 1)
  }

  /** `1 + max(id)`: the key SQLite hands to the next insert. */
  function NextId<T>(rows: seq<Row<T>>): (n: nat)
    ensures n > 0
    ensures forall k :: 0 <= k < |rows| ==> rows[k].id < n
  {
    if |rows| == 0 then 1
    else
      var m := NextId(rows[..|rows| - 1]);
      var last := rows[|rows| - 1].id;
      if last < m then m else last + 1
  }

  /** Insert a live row under a fresh key. */
  function Insert<T>(rows: seq<Row<T>>, owner: nat, data: T): (r: seq<Row<T>>)
    ensures |r| == |rows| + 1 && r[..|rows|] == rows
    ensures r[|rows|] == Row(NextId(rows), owner, data, false)
    ensures UniqueIds(rows) ==> UniqueIds(r)
  {
    rows + [Row(NextId(rows), owner, data, false)]
  }

  /** `UPDATE ... SET deleted_at = <now or NULL> WHERE id = ?`: the rows with
      this id take the flag, every other row is left as it was. */
  function SetDeleted<T>(rows: seq<Row<T>>, id: nat, flag: bool): (r: seq<Row<T>>)
    ensures |r| == |rows|
    ensures forall k :: 0 <= k < |rows| ==>
              r[k].id == rows[k].id && r[k].owner == rows[k].owner && r[k].data == rows[k].data
    ensures forall k :: 0 <= k < |rows| ==> r[k].deleted == (if rows[k].id == id then flag else rows[k].deleted)
    ensures UniqueIds(rows) ==> UniqueIds(r)
  {
    seq(|rows|, k requires 0 <= k < |rows| => if rows[k].id == id then rows[k].(deleted := flag) else rows[k])
  }

  /** The rows a listing shows: the caller's live rows, in table order. */
  function LiveOf<T>(rows: seq<Row<T>>, owner: nat): (r: seq<Row<T>>)
    ensures forall k :: 0 <= k < |r| ==> r[k] in rows && r[k].owner == owner && !r[k].deleted
    ensures forall k :: 0 <= k < |rows| && rows[k].owner == owner && !rows[k].deleted ==> rows[k] in r
    ensures |r| <= |rows|
  {
    if |rows| == 0 then []
    else
      var rest := LiveOf(rows[..|rows| - 1], owner);
      var last := rows[|rows| - 1];
      assert rows == rows[..|rows| - 1] + [last];
      if last.owner == owner && !last.deleted then rest + [last] else rest
  }

  /** The trash listing: the caller's soft-deleted rows. */
  function DeletedOf<T>(rows: seq<Row<T>>, owner: nat): (r: seq<Row<T>>)
    ensures forall k :: 0 <= k < |r| ==> r[k] in rows && r[k].owner == owner && r[k].deleted
    ensures forall k :: 0 <= k < |rows| && rows[k].owner == owner && rows[k].deleted ==> rows[k] in r
  {
    if |rows| == 0 then []
    else
      var rest := DeletedOf(rows[..|rows| - 1], owner);
      var last := rows[|rows| - 1];
      assert rows == rows[..|rows| - 1] + [last];
      if last.owner == owner && last.deleted then rest + [last] else rest
  }

  /** The shared shape of the DELETE routes: 404 `<entity> not found` unless the
      caller holds a live row with this id; otherwise soft-delete it. */
  function SoftDelete<T>(rows: seq<Row<T>>, id: nat, owner: nat, entity: string): (r: (Response<()>, seq<Row<T>>))
    ensures r.0.Fail? <==> FindLive(rows, id, owner).None?
    ensures r.0.Fail? ==> r.0.status == 404 && r.1 == rows
    ensures r.0.Ok? ==> r.1 == SetDeleted(rows, id, true)
  {
    match FindLive(rows, id, owner)
    case None => (Fail(404, entity + " not found"), rows)
    case Some(_) => (Ok(()), SetDeleted(rows, id, true))
  }

  /** The shared shape of the restore routes: 404 unless the caller holds a row
      with this id (deleted or not), 400 `<entity> is not deleted` when that row is
      live, otherwise clear its marker. */
  function Restore<T>(rows: seq<Row<T>>, id: nat, owner: nat, entity: string): (r: (Response<()>, seq<Row<T>>))
    ensures Find(rows, id, owner, false).None? ==> r.0 == Fail(404, entity + " not found") && r.1 == rows
    ensures Find(rows, id, owner, false).Some? && !rows[Find(rows, id, owner, false).value].deleted ==>
              r.0 == Fail(400, entity + " is not deleted") && r.1 == rows
    ensures r.0.Ok? <==> Find(rows, id, owner, false).Some? && rows[Find(rows, id, owner, false).value].deleted
    ensures r.0.Ok? ==> r.1 == SetDeleted(rows, id, false)
  {
    match Find(rows, id, owner, false)
    case None => (Fail(404, entity + " not found"), rows)
    case Some(k) =>
      if !rows[k].deleted then (Fail(400, entity + " is not deleted"), rows)
      else (Ok(()), SetDeleted(rows, id, false))
  }

  /** Deleting a live row and then restoring it succeeds and gives back exactly
      the table we started from. */
  lemma DeleteThenRestore<T>(rows: seq<Row<T>>, id: nat, owner: nat, entity: string)
    requires UniqueIds(rows)
    requires FindLive(rows, id, owner).Some?
    ensures SoftDelete(rows, id, owner, entity).0.Ok?
    ensures Restore(SoftDelete(rows, id, owner, entity).1, id, owner, entity) == (Ok(()), rows)
  {
    var k := FindLive(rows, id, owner).value;
    var deleted := SetDeleted(rows, id, true);
    assert Find(deleted, id, owner, false) == Some(k) by {
      FindUnique(deleted, id, owner, k);
    }
    assert deleted[k].deleted;
    var back := SetDeleted(deleted, id, false);
    forall j | 0 <= j < |rows|
      ensures back[j] == rows[j]
    {
      if rows[j].id == id {
        assert j == k;
      }
    }
    assert back == rows;
  }

  /** With unique keys, a row that carries the id and owner is the one `Find`
      returns. */
  lemma FindUnique<T>(rows: seq<Row<T>>, id: nat, owner: nat, k: nat)
    requires UniqueIds(rows)
    requires k < |rows| && rows[k].id == id && rows[k].owner == owner
    ensures Find(rows, id, owner, false) == Some(k)
  {
  }
}

=== FILE: schema.dfy ===
/** The rows of the API's tables (users, accounts, categories, transactions,
    securities, stock trades) and the in-memory store the route handlers read
    and write in place of the SQL database. */
module Schema {
  import opened Common
  import opened Rows
  import opened DateHelpers

  /** `users`: the login name and address; the password hash is not modelled. */
  datatype UserData = UserData(username: string, email: string)

  /** `accounts`; `kind` is the free-text `account_type` ('Bank', 'Loan', ...). */
  datatype AccountData = AccountData(name: string, kind: string, initialBalance: real)

  /** `category_type`: 'Income' or 'Expense'. */
  datatype CategoryType = IncomeCategory | ExpenseCategory

  datatype CategoryData = CategoryData(name: string, kind: CategoryType)

  /** `transaction_type`. */
  datatype TxType = INCOME | EXPENSE | TRANSFER

  /** `transactions`; `group` is the `transfer_group_id` linking the two legs
      of a transfer (a fresh number here, a uuid in the database). */
  datatype TxData = TxData(account: nat, category: Option<nat>, kind: TxType, amount: real,
                           description: Option<string>, date: Date, group: Option<nat>)

  /** `securities`: shared by all users, so their rows carry owner 0. */
  datatype SecurityData = SecurityData(ticker: string, name: string, assetType: string)

  datatype TradeSide = BUY | SELL

  /** `stock_trades`. */
  datatype TradeData = TradeData(account: nat, security: nat, side: TradeSide,
                                 quantity: real, price: real, date: Date)

  /** The whole database. */
  datatype Store = Store(users: seq<Row<UserData>>,
                         accounts: seq<Row<AccountData>>,
                         categories: seq<Row<CategoryData>>,
                         transactions: seq<Row<TxData>>,
                         securities: seq<Row<SecurityData>>,
                         trades: seq<Row<TradeData>>)

  /** A handler's answer together with the store it leaves behind. */
  datatype Reply<+T> = Reply(response: Response<T>, store: Store)

  /** Every table keeps its auto-increment keys distinct. */
  predicate KeysUnique(s: Store)
  {
    UniqueIds(s.users) && UniqueIds(s.accounts) && UniqueIds(s.categories)
    && UniqueIds(s.transactions) && UniqueIds(s.securities) && UniqueIds(s.trades)
  }

  /** `transaction_type` as stored. */
  function TxTypeName(t: TxType): string
  {
    match t
    case INCOME => "INCOME"
    case EXPENSE => "EXPENSE"
    case TRANSFER => "TRANSFER"
  }

  /** `category_type` as stored. */
  function CategoryTypeName(t: CategoryType): string
  {
    match t
    case IncomeCategory => "Income"
    case ExpenseCategory => "Expense"
  }

  /** JavaScript truthiness of an optional string field: absent and `""` are
      both falsy. */
  predicate Truthy(s: Option<string>)
  {
    s.Some? && s.value != ""
  }

  /** `x || fallback` for a text field. */
  function OrText(x: Option<string>, fallback: string): (r: string)
    ensures Truthy(x) ==> r == x.value
    ensures !Truthy(x) ==> r == fallback
  {
    if Truthy(x) then x.value else fallback
  }

  /** `x || fallback` for an id field: absent and 0 are both falsy. */
  function OrId(x: Option<nat>, fallback: nat): (r: nat)
    ensures x.Some? && x.value != 0 ==> r == x.value
    ensures x.None? || x.value == 0 ==> r == fallback
  {
    if x.Some? && x.value != 0 then x.value else fallback
  }

  function Abs(x: real): (r: real)
    ensures r >= 0.0 && (r == x || r == -x)
  {
    if x < 0.0 then -x else x
  }
}

=== FILE: text.dfy ===
/** String primitives the handlers rely on: `trim()` and `toUpperCase()`,
    restricted to ASCII letters and the ASCII whitespace set. */
module Text {

  predicate IsWhitespace(c: char)
  {
    c == ' ' || c == '\t' || c == '\n' || c == '\r' || c == '\U{000B}' || c == '\U{000C}'
  }

  function TrimStart(s: string): (r: string)
    ensures |r| <= |s| && r == s[|s| - |r|..]
    ensures |r| > 0 ==> !IsWhitespace(r[0])
    ensures forall i :: 0 <= i < |s| - |r| ==> IsWhitespace(s[i])
  {
    if |s| > 0 && IsWhitespace(s[0]) then TrimStart(s[1..]) else s
  }

  function TrimEnd(s: string): (r: string)
    ensures |r| <= |s| && r == s[..|r|]
    ensures |r| > 0 ==> !IsWhitespace(r[|r| - 1])
    ensures forall i :: |r| <= i < |s| ==> IsWhitespace(s[i])
  {
    if |s| > 0 && IsWhitespace(s[|s| - 1]) then TrimEnd(s[..|s| - 1]) else s
  }

  /** `String.prototype.trim`: drop leading and trailing whitespace. */
  function Trim(s: string): (r: string)
    ensures |r| <= |s|
    ensures |r| > 0 ==> !IsWhitespace(r[0]) && !IsWhitespace(r[|r| - 1])
  {
    TrimEnd(TrimStart(s))
  }

  /** Trimming a string that has no outer whitespace leaves it as it is,
      so trimming twice is trimming once. */
  lemma TrimIdempotent(s: string)
    ensures Trim(Trim(s)) == Trim(s)
  {
    var t := Trim(s);
    if |t| > 0 {
      assert TrimStart(t) == t;
      assert TrimEnd(t) == t;
    }
  }

  function UpperChar(c: char): (u: char)
    ensures 'a' <= c <= 'z' ==> 'A' <= u <= 'Z'
    ensures !('a' <= c <= 'z') ==> u == c
  {
    if 'a' <= c <= 'z' then (c as int - 'a' as int + 'A' as int) as char else c
  }

  /** `toUpperCase` on the ASCII range. */
  function ToUpper(s: string): (r: string)
    ensures |r| == |s|
    ensures forall i :: 0 <= i < |s| ==> r[i] == UpperChar(s[i])
  {
    seq(|s|, i requires 0 <= i < |s| => UpperChar(s[i]))
  }

  lemma ToUpperIdempotent(s: string)
    ensures ToUpper(ToUpper(s)) == ToUpper(s)
  {
  }

  /** Two spellings that differ only in letter case name the same ticker. */
  lemma ToUpperIgnoresCase(a: string, b: string)
    requires |a| == |b|
    requires forall i :: 0 <= i < |a| ==> UpperChar(a[i]) == UpperChar(b[i])
    ensures ToUpper(a) == ToUpper(b)
  {
  }
}

=== FILE: transactions.dfy ===
/** The transactions routes: create, transfer, update, the soft delete and
    restore that cascade over a transfer's two legs, and the summary. */
module Transactions {
  import opened Common
  import opened Rows
  import opened Folds
  import opened DateHelpers
  import opened Schema
  import opened Ledger

  // ---------------------------------------------------------------- transfer groups

  /** A transfer group id no row uses yet (the uuid the route generates). */
  function FreshGroup(txs: seq<Row<TxData>>): (g: nat)
    ensures forall k :: 0 <= k < |txs| ==> txs[k].data.group != Some(g)
    ensures forall k :: 0 <= k < |txs| && txs[k].data.group.Some? ==> txs[k].data.group.value < g
  {
    if |txs| == 0 then 0
    else
      var g := FreshGroup(txs[..|txs| - 1]);
      var last := txs[|txs| - 1].data.group;
      if last.Some? && last.value >= g then last.value + 1 else g
  }

  /** `UPDATE transactions SET deleted_at = ... WHERE transfer_group_id = g`. */
  function SetGroupDeleted(txs: seq<Row<TxData>>, g: nat, flag: bool): (r: seq<Row<TxData>>)
    ensures |r| == |txs|
    ensures forall k :: 0 <= k < |txs| ==>
              r[k].id == txs[k].id && r[k].owner == txs[k].owner && r[k].data == txs[k].data
    ensures forall k :: 0 <= k < |txs| ==>
              r[k].deleted == (if txs[k].data.group == Some(g) then flag else txs[k].deleted)
    ensures UniqueIds(txs) ==> UniqueIds(r)
  {
    seq(|txs|, k requires 0 <= k < |txs| =>
      if txs[k].data.group == Some(g) then txs[k].(deleted := flag) else txs[k])
  }

  /** The shape transfers give the log: only TRANSFER rows carry a group id,
      and the rows of one group are live or deleted together. */
  predicate GroupsWellFormed(txs: seq<Row<TxData>>)
  {
    && (forall k :: 0 <= k < |txs| && txs[k].data.group.Some? ==> txs[k].data.kind == TRANSFER)
    && (forall i, j ::
          0 <= i < |txs| && 0 <= j < |txs| && txs[i].data.group.Some? && txs[i].data.group == txs[j].data.group
          ==> txs[i].deleted == txs[j].deleted)
  }

  // ---------------------------------------------------------------- create

  /** The transaction type a category admits: INCOME for an Income category,
      EXPENSE for any other. */
  function ExpectedType(c: CategoryType): TxType
  {
    if c == IncomeCategory then INCOME else EXPENSE
  }

  /** The category check of the create route, after the account check. */
  function CheckCategory(s: Store, user: nat, category: Option<nat>, kind: TxType): (r: Response<()>)
    ensures r.Ok? <==> category.None? || category.value == 0
                       || (FindLive(s.categories, category.value, user).Some?
                           && kind == ExpectedType(s.categories[FindLive(s.categories, category.value, user).value].data.kind))
    ensures r.Fail? ==> r.status == 400
    ensures r.Fail? && FindLive(s.categories, category.value, user).None? ==> r.message == "Invalid category"
  {
    if category.None? || category.value == 0 then Ok(())
    else match FindLive(s.categories, category.value, user)
      case None => Fail(400, "Invalid category")
      case Some(k) =>
        var c := s.categories[k].data.kind;
        if kind != ExpectedType(c) then
          Fail(400, "Transaction type " + TxTypeName(kind) + " doesn't match category type " + CategoryTypeName(c))
        else Ok(())
  }

  /** POST /transactions: the caller's live account is required, then a
      category (when given) of the caller's whose type agrees; the amount is
      stored as its absolute value; the date defaults to today. */
  function CreateTransaction(s: Store, user: nat, account: nat, category: Option<nat>, amount: real,
                             kind: TxType, description: Option<string>, date: Option<Date>, today: Date): (r: Reply<nat>)
    ensures FindLive(s.accounts, account, user).None? ==> r.response == Fail(400, "Invalid account")
    ensures FindLive(s.accounts, account, user).Some? && CheckCategory(s, user, category, kind).Fail? ==>
              r.response == Fail(400, CheckCategory(s, user, category, kind).message)
    ensures r.response.Ok? <==> FindLive(s.accounts, account, user).Some? && CheckCategory(s, user, category, kind).Ok?
    ensures r.response.Fail? ==> r.store == s
    ensures r.response.Ok? ==>
              r.store == s.(transactions := s.transactions
                              + [Row(r.response.value, user,
                                     TxData(account, category, kind, Abs(amount), description, date.GetOr(today), None), false)])
              && forall k :: 0 <= k < |s.transactions| ==> s.transactions[k].id != r.response.value
  {
    if FindLive(s.accounts, account, user).None? then Reply(Fail(400, "Invalid account"), s)
    else match CheckCategory(s, user, category, kind)
      case Fail(st, msg) => Reply(Fail(st, msg), s)
      case Ok(_) =>
        var data := TxData(account, category, kind, Abs(amount), description, date.GetOr(today), None);
        Reply(Ok(NextId(s.transactions)), s.(transactions := Insert(s.transactions, user, data)))
  }

  // ---------------------------------------------------------------- transfer

  /** The two legs a transfer inserts: equal absolute amounts and dates, one
      shared group id, descriptions defaulting to "Transfer to/from <name>". */
  function TransferLegs(txs: seq<Row<TxData>>, user: nat, from: Row<AccountData>, to: Row<AccountData>,
                        amount: real, description: Option<string>, date: Date): seq<Row<TxData>>
  {
    var g := FreshGroup(txs);
    var id := NextId(txs);
    [Row(id, user, TxData(from.id, None, TRANSFER, Abs(amount), Some(OrText(description, "Transfer to " + to.data.name)), date, Some(g)), false),
     Row(id + 1, user, TxData(to.id, None, TRANSFER, Abs(amount), Some(OrText(description, "Transfer from " + from.data.name)), date, Some(g)), false)]
  }

  /** POST /transactions/transfer: errors in a fixed order — an invalid
      from-account, then an invalid to-account, then the same account on both
      sides; on success exactly the two legs are appended. */
  function Transfer(s: Store, user: nat, from: nat, to: nat, amount: real, description: Option<string>,
                    date: Option<Date>, today: Date): (r: Reply<nat>)
    ensures FindLive(s.accounts, from, user).None? ==> r.response == Fail(400, "Invalid from account")
    ensures FindLive(s.accounts, from, user).Some? && FindLive(s.accounts, to, user).None? ==>
              r.response == Fail(400, "Invalid to account")
    ensures FindLive(s.accounts, from, user).Some? && FindLive(s.accounts, to, user).Some? && from == to ==>
              r.response == Fail(400, "Cannot transfer to the same account")
    ensures r.response.Ok? <==>
              FindLive(s.accounts, from, user).Some? && FindLive(s.accounts, to, user).Some? && from != to
    ensures r.response.Fail? ==> r.store == s
    ensures r.response.Ok? ==> |r.store.transactions| == |s.transactions| + 2
    ensures r.response.Ok? ==>
              var legs := r.store.transactions[|s.transactions|..];
              && r.store == s.(transactions := s.transactions + legs)
              && |legs| == 2
              && legs[0].data.account == from && legs[1].data.account == to
              && legs[0].data.kind == TRANSFER && legs[1].data.kind == TRANSFER
              && legs[0].data.amount == legs[1].data.amount == Abs(amount)
              && legs[0].data.date == legs[1].data.date == date.GetOr(today)
              && legs[0].data.group == legs[1].data.group == Some(r.response.value)
              && !legs[0].deleted && !legs[1].deleted
              && legs[0].owner == user && legs[1].owner == user
              && (forall k :: 0 <= k < |s.transactions| ==>
                    s.transactions[k].data.group != Some(r.response.value)
                    && s.transactions[k].id != legs[0].id && s.transactions[k].id != legs[1].id)
              && legs[0].id != legs[1].id
  {
    var fromAccount := FindLive(s.accounts, from, user);
    var toAccount := FindLive(s.accounts, to, user);
    if fromAccount.None? then Reply(Fail(400, "Invalid from account"), s)
    else if toAccount.None? then Reply(Fail(400, "Invalid to account"), s)
    else if from == to then Reply(Fail(400, "Cannot transfer to the same account"), s)
    else
      var legs := TransferLegs(s.transactions, user, s.accounts[fromAccount.value], s.accounts[toAccount.value],
                               amount, description, date.GetOr(today));
      var txs := s.transactions + legs;
      assert txs[|s.transactions|..] == legs;
      Reply(Ok(FreshGroup(s.transactions)), s.(transactions := txs))
  }

  /** A transfer moves no account's balance: its legs are TRANSFER rows, which
      the balance formula ignores. */
  lemma TransferKeepsBalances(s: Store, user: nat, from: nat, to: nat, amount: real, description: Option<string>,
                              date: Option<Date>, today: Date, a: Row<AccountData>)
    ensures Balance(Transfer(s, user, from, to, amount, description, date, today).store.transactions, a)
            == Balance(s.transactions, a)
  {
    var r := Transfer(s, user, from, to, amount, description, date, today);
    if r.response.Ok? {
      TransferLegsDoNotMoveBalances(s.transactions, r.store.transactions[|s.transactions|..], a);
    }
  }

  // ---------------------------------------------------------------- update

  /** The row an update writes: every falsy field keeps the stored value, a
      truthy amount is stored as its absolute value, and a description that is
      present at all replaces the stored one. */
  function UpdatedTx(old_: TxData, account: Option<nat>, category: Option<nat>, amount: Option<real>,
                     kind: Option<TxType>, description: Option<string>, date: Option<Date>): TxData
  {
    TxData(OrId(account, old_.account),
           if category.Some? && category.value != 0 then category else old_.category,
           kind.GetOr(old_.kind),
           if amount.Some? && amount.value != 0.0 then Abs(amount.value) else old_.amount,
           if description.Some? then description else old_.description,
           date.GetOr(old_.date),
           old_.group)
  }

  /** The checks of the update route after the row is found: a transfer leg
      is refused, then an account or category that is given but is not the
      caller's live one. The category's type is not compared with the
      transaction type here, unlike in the create route. */
  function UpdateCheck(s: Store, user: nat, row: Row<TxData>, account: Option<nat>, category: Option<nat>): (r: Response<()>)
    ensures r.Ok? <==>
              row.data.kind != TRANSFER
              && (account.None? || account.value == 0 || FindLive(s.accounts, account.value, user).Some?)
              && (category.None? || category.value == 0 || FindLive(s.categories, category.value, user).Some?)
    ensures r.Fail? ==> r.status == 400
    ensures row.data.kind == TRANSFER ==>
              r.Fail? && r.message == "Transfer transactions cannot be updated individually. Please delete and recreate the transfer."
  {
    if row.data.kind == TRANSFER then
      Fail(400, "Transfer transactions cannot be updated individually. Please delete and recreate the transfer.")
    else if account.Some? && account.value != 0 && FindLive(s.accounts, account.value, user).None? then
      Fail(400, "Invalid account")
    else if category.Some? && category.value != 0 && FindLive(s.categories, category.value, user).None? then
      Fail(400, "Invalid category")
    else Ok(())
  }

  /** PUT /transactions/:id: 404 for a missing, foreign or deleted row, then
      the checks above; on success only that row's data changes. */
  function UpdateTransaction(s: Store, user: nat, id: nat, account: Option<nat>, category: Option<nat>,
                             amount: Option<real>, kind: Option<TxType>, description: Option<string>,
                             date: Option<Date>): (r: Reply<TxData>)
    ensures FindLive(s.transactions, id, user).None? ==> r.response == Fail(404, "Transaction not found")
    ensures FindLive(s.transactions, id, user).Some? ==>
              var row := s.transactions[FindLive(s.transactions, id, user).value];
              (r.response.Ok? <==> UpdateCheck(s, user, row, account, category).Ok?)
    ensures r.response.Fail? ==> r.store == s
    ensures r.response.Ok? ==>
              var k := FindLive(s.transactions, id, user).value;
              && r.response.value == UpdatedTx(s.transactions[k].data, account, category, amount, kind, description, date)
              && r.store == s.(transactions := s.transactions[k := s.transactions[k].(data := r.response.value)])
  {
    match FindLive(s.transactions, id, user)
    case None => Reply(Fail(404, "Transaction not found"), s)
    case Some(k) =>
      var row := s.transactions[k];
      match UpdateCheck(s, user, row, account, category)
      case Fail(st, msg) => Reply(Fail(st, msg), s)
      case Ok(_) =>
        var data := UpdatedTx(row.data, account, category, amount, kind, description, date);
        Reply(Ok(data), s.(transactions := s.transactions[k := row.(data := data)]))
  }

  // ---------------------------------------------------------------- delete / restore

  /** Whether deleting or restoring this row acts on its whole transfer group. */
  predicate Cascades(t: Row<TxData>)
  {
    t.data.kind == TRANSFER && t.data.group.Some?
  }

  /** DELETE /transactions/:id: 404 for a missing, foreign or deleted row; a
      transfer leg takes its whole group with it; any other row goes alone. */
  function DeleteTransaction(s: Store, user: nat, id: nat): (r: Reply<()>)
    ensures r.response.Fail? <==> FindLive(s.transactions, id, user).None?
    ensures r.response.Fail? ==> r.response == Fail(404, "Transaction not found") && r.store == s
    ensures r.response.Ok? ==>
              var t := s.transactions[FindLive(s.transactions, id, user).value];
              r.store == s.(transactions := if Cascades(t) then SetGroupDeleted(s.transactions, t.data.group.value, true)
                                            else SetDeleted(s.transactions, id, true))
  {
    match FindLive(s.transactions, id, user)
    case None => Reply(Fail(404, "Transaction not found"), s)
    case Some(k) =>
      var t := s.transactions[k];
      if Cascades(t) then Reply(Ok(()), s.(transactions := SetGroupDeleted(s.transactions, t.data.group.value, true)))
      else Reply(Ok(()), s.(transactions := SetDeleted(s.transactions, id, true)))
  }

  /** PUT /transactions/:id/restore: 404 for a missing or foreign row, 400 for
      a live one; a transfer leg brings its whole group back. */
  function RestoreTransaction(s: Store, user: nat, id: nat): (r: Reply<()>)
    ensures Find(s.transactions, id, user, false).None? ==> r.response == Fail(404, "Transaction not found")
    ensures Find(s.transactions, id, user, false).Some?
            && !s.transactions[Find(s.transactions, id, user, false).value].deleted ==>
              r.response == Fail(400, "Transaction is not deleted")
    ensures r.response.Ok? <==> Find(s.transactions, id, user, false).Some?
                                && s.transactions[Find(s.transactions, id, user, false).value].deleted
    ensures r.response.Fail? ==> r.store == s
    ensures r.response.Ok? ==>
              var t := s.transactions[Find(s.transactions, id, user, false).value];
              r.store == s.(transactions := if Cascades(t) then SetGroupDeleted(s.transactions, t.data.group.value, false)
                                            else SetDeleted(s.transactions, id, false))
  {
    match Find(s.transactions, id, user, false)
    case None => Reply(Fail(404, "Transaction not found"), s)
    case Some(k) =>
      var t := s.transactions[k];
      if !t.deleted then Reply(Fail(400, "Transaction is not deleted"), s)
      else if Cascades(t) then Reply(Ok(()), s.(transactions := SetGroupDeleted(s.transactions, t.data.group.value, false)))
      else Reply(Ok(()), s.(transactions := SetDeleted(s.transactions, id, false)))
  }

  /** Deleting a live transaction — a single row or a transfer leg with its
      partner — and restoring it gives back exactly the log we started from. */
  lemma TransactionDeleteThenRestore(s: Store, user: nat, id: nat)
    requires UniqueIds(s.transactions) && GroupsWellFormed(s.transactions)
    requires FindLive(s.transactions, id, user).Some?
    ensures DeleteTransaction(s, user, id).response.Ok?
    ensures RestoreTransaction(DeleteTransaction(s, user, id).store, user, id) == Reply(Ok(()), s)
  {
    var k := FindLive(s.transactions, id, user).value;
    var t := s.transactions[k];
    var mid := DeleteTransaction(s, user, id).store;
    FindUnique(mid.transactions, id, user, k);
    assert mid.transactions[k].data == t.data;
    assert mid.transactions[k].deleted;
    var back := RestoreTransaction(mid, user, id).store;
    forall j | 0 <= j < |s.transactions|
      ensures back.transactions[j] == s.transactions[j]
    {
      if !Cascades(t) && s.transactions[j].id == id {
        assert j == k;
      }
    }
    assert back.transactions == s.transactions;
  }

  /** Every write of this module keeps transfer groups well formed. */
  lemma CreateKeepsGroups(s: Store, user: nat, account: nat, category: Option<nat>, amount: real,
                          kind: TxType, description: Option<string>, date: Option<Date>, today: Date)
    requires GroupsWellFormed(s.transactions)
    ensures GroupsWellFormed(CreateTransaction(s, user, account, category, amount, kind, description, date, today).store.transactions)
  {
  }

  lemma TransferKeepsGroups(s: Store, user: nat, from: nat, to: nat, amount: real, description: Option<string>,
                            date: Option<Date>, today: Date)
    requires GroupsWellFormed(s.transactions)
    ensures GroupsWellFormed(Transfer(s, user, from, to, amount, description, date, today).store.transactions)
  {
    var r := Transfer(s, user, from, to, amount, description, date, today);
    if r.response.Ok? {
      AppendFreshGroup(s.transactions, r.store.transactions[|s.transactions|..], r.response.value);
    }
  }

  /** Appending two TRANSFER legs of one fresh group, both live, keeps the
      group invariant. */
  lemma AppendFreshGroup(txs: seq<Row<TxData>>, legs: seq<Row<TxData>>, g: nat)
    requires GroupsWellFormed(txs)
    requires |legs| == 2 && legs[0].data.group == legs[1].data.group == Some(g)
    requires legs[0].data.kind == TRANSFER && legs[1].data.kind == TRANSFER
    requires !legs[0].deleted && !legs[1].deleted
    requires forall k :: 0 <= k < |txs| ==> txs[k].data.group != Some(g)
    ensures GroupsWellFormed(txs + legs)
  {
    var all := txs + legs;
    assert forall k :: 0 <= k < |all| ==> all[k] == if k < |txs| then txs[k] else legs[k - |txs|];
  }

  lemma UpdateKeepsGroups(s: Store, user: nat, id: nat, account: Option<nat>, category: Option<nat>,
                          amount: Option<real>, kind: Option<TxType>, description: Option<string>, date: Option<Date>)
    requires GroupsWellFormed(s.transactions)
    ensures GroupsWellFormed(UpdateTransaction(s, user, id, account, category, amount, kind, description, date).store.transactions)
  {
  }

  lemma DeleteKeepsGroups(s: Store, user: nat, id: nat)
    requires UniqueIds(s.transactions) && GroupsWellFormed(s.transactions)
    ensures GroupsWellFormed(DeleteTransaction(s, user, id).store.transactions)
  {
    var r := DeleteTransaction(s, user, id);
    if r.response.Ok? {
      var k := FindLive(s.transactions, id, user).value;
      FlagChangeKeepsGroups(s.transactions, r.store.transactions, k, id, true);
    }
  }

  lemma RestoreKeepsGroups(s: Store, user: nat, id: nat)
    requires UniqueIds(s.transactions) && GroupsWellFormed(s.transactions)
    ensures GroupsWellFormed(RestoreTransaction(s, user, id).store.transactions)
  {
    var r := RestoreTransaction(s, user, id);
    if r.response.Ok? {
      var k := Find(s.transactions, id, user, false).value;
      FlagChangeKeepsGroups(s.transactions, r.store.transactions, k, id, false);
    }
  }

  /** Setting the flag of a whole group when the target row cascades, or of
      the target row alone when it carries no group, keeps groups uniform. */
  lemma FlagChangeKeepsGroups(txs: seq<Row<TxData>>, after: seq<Row<TxData>>, k: nat, id: nat, flag: bool)
    requires UniqueIds(txs) && GroupsWellFormed(txs)
    requires k < |txs| && txs[k].id == id
    requires Cascades(txs[k]) ==> after == SetGroupDeleted(txs, txs[k].data.group.value, flag)
    requires !Cascades(txs[k]) ==> after == SetDeleted(txs, id, flag)
    ensures GroupsWellFormed(after)
  {
    if !Cascades(txs[k]) {
      assert txs[k].data.group.None?;
      forall j | 0 <= j < |txs| && txs[j].id == id
        ensures j == k
      {
      }
    }
  }

  // ---------------------------------------------------------------- listing

  /** The list route's query filters. An id filter applies whenever it is
      given (a query string is truthy even when it reads "0"); a type given as
      the empty string is no filter. */
  datatype TxFilter = TxFilter(account: Option<nat>, category: Option<nat>, kind: Option<string>,
                               start: Option<Date>, end: Option<Date>)

  /** The pagination count's `WHERE`: the caller's live rows passing the
      filters. */
  function Counted(user: nat, f: TxFilter): Row<TxData> -> bool
  {
    (t: Row<TxData>) =>
      !t.deleted && t.owner == user
      && (f.account.None? || t.data.account == f.account.value)
      && (f.category.None? || t.data.category == f.category)
      && (f.kind.None? || f.kind.value == "" || TxTypeName(t.data.kind) == f.kind.value)
      && InWindow(t.data.date, f.start, f.end)
  }

  /** The listing's `WHERE`: the same rows, inner-joined to a live account. */
  function Shown(accounts: seq<Row<AccountData>>, user: nat, f: TxFilter): Row<TxData> -> bool
  {
    (t: Row<TxData>) => Counted(user, f)(t) && LiveById(accounts, t.data.account).Some?
  }

  /** The listed rows and `pagination.total`. */
  datatype TxPage = TxPage(transactions: seq<Row<TxData>>, total: nat)

  /** GET /transactions, as written: the rows are the joined ones, but the
      total comes from a count that never joins the accounts. */
  function ListTransactions(s: Store, user: nat, f: TxFilter): (r: TxPage)
    ensures forall t :: t in r.transactions <==> t in s.transactions && Shown(s.accounts, user, f)(t)
    ensures |r.transactions| <= r.total
    ensures |r.transactions| == r.total <==>
              forall k :: 0 <= k < |s.transactions| && Counted(user, f)(s.transactions[k]) ==>
                LiveById(s.accounts, s.transactions[k].data.account).Some?
  {
    var rows := Filter(s.transactions, Shown(s.accounts, user, f));
    FilterKeeps(s.transactions, Shown(s.accounts, user, f));
    CountOfIsSizeOfFilter(s.transactions, Shown(s.accounts, user, f));
    CountOfNarrower(s.transactions, Shown(s.accounts, user, f), Counted(user, f));
    TxPage(rows, CountOf(s.transactions, Counted(user, f)))
  }

  /** A live transaction left on a deleted account is never listed but is
      still counted: one page that reads "1 transaction" and shows none. */
  lemma HiddenRowIsCounted()
    ensures var acct := Row(1, 7, AccountData("Old card", "Credit Card", 0.0), true);
            var tx := Row(1, 7, TxData(1, None, EXPENSE, 20.0, None, Date(2024, 3, 1), None), false);
            var s := Store([], [acct], [], [tx], [], []);
            var r := ListTransactions(s, 7, TxFilter(None, None, None, None, None));
            r.transactions == [] && r.total == 1
  {
    var acct := Row(1, 7, AccountData("Old card", "Credit Card", 0.0), true);
    var tx := Row(1, 7, TxData(1, None, EXPENSE, 20.0, None, Date(2024, 3, 1), None), false);
    var s := Store([], [acct], [], [tx], [], []);
    var f := TxFilter(None, None, None, None, None);
    assert LiveById(s.accounts, 1).None?;
    assert Counted(7, f)(tx);
    assert s.transactions[..0] == [];
  }

  /** GET /transactions with the count taken over the same join as the rows,
      so `total` is the number of rows the pages hold. */
  function ListTransactionsCounted(s: Store, user: nat, f: TxFilter): (r: TxPage)
    ensures forall t :: t in r.transactions <==> t in s.transactions && Shown(s.accounts, user, f)(t)
    ensures |r.transactions| == r.total
  {
    var rows := Filter(s.transactions, Shown(s.accounts, user, f));
    FilterKeeps(s.transactions, Shown(s.accounts, user, f));
    CountOfIsSizeOfFilter(s.transactions, Shown(s.accounts, user, f));
    TxPage(rows, CountOf(s.transactions, Shown(s.accounts, user, f)))
  }

  // ---------------------------------------------------------------- summary

  /** GET /transactions/stats/summary. */
  datatype TxSummary = TxSummary(totalIncome: real, totalExpenses: real, netIncome: real,
                                 incomeTransactions: nat, expenseTransactions: nat, transferTransactions: nat)

  /** The summary's `WHERE`: the caller's live rows, optionally bounded by
      date (inclusive) and restricted to one account. */
  function InScope(user: nat, start: Option<Date>, end: Option<Date>, account: Option<nat>): Row<TxData> -> bool
  {
    (t: Row<TxData>) =>
      !t.deleted && t.owner == user
      && InWindow(t.data.date, start, end)
      && (account.None? || t.data.account == account.value)
  }

  function InScopeOfKind(user: nat, start: Option<Date>, end: Option<Date>, account: Option<nat>, kind: TxType): Row<TxData> -> bool
  {
    (t: Row<TxData>) => InScope(user, start, end, account)(t) && t.data.kind == kind
  }

  /** The totals are the sums of the amounts of the rows in scope of each
      type, the counts their numbers. */
  function Summary(txs: seq<Row<TxData>>, user: nat, start: Option<Date>, end: Option<Date>, account: Option<nat>): (r: TxSummary)
    ensures r.totalIncome == Total(Filter(txs, InScopeOfKind(user, start, end, account, INCOME)), Amount)
    ensures r.totalExpenses == Total(Filter(txs, InScopeOfKind(user, start, end, account, EXPENSE)), Amount)
    ensures r.netIncome == r.totalIncome - r.totalExpenses
    ensures r.incomeTransactions == |Filter(txs, InScopeOfKind(user, start, end, account, INCOME))|
    ensures r.expenseTransactions == |Filter(txs, InScopeOfKind(user, start, end, account, EXPENSE))|
    ensures r.transferTransactions == |Filter(txs, InScopeOfKind(user, start, end, account, TRANSFER))|
  {
    var income := SumOf(txs, InScopeOfKind(user, start, end, account, INCOME), Amount);
    var expenses := SumOf(txs, InScopeOfKind(user, start, end, account, EXPENSE), Amount);
    SumOfIsTotalOfFilter(txs, InScopeOfKind(user, start, end, account, INCOME), Amount);
    SumOfIsTotalOfFilter(txs, InScopeOfKind(user, start, end, account, EXPENSE), Amount);
    CountOfIsSizeOfFilter(txs, InScopeOfKind(user, start, end, account, INCOME));
    CountOfIsSizeOfFilter(txs, InScopeOfKind(user, start, end, account, EXPENSE));
    CountOfIsSizeOfFilter(txs, InScopeOfKind(user, start, end, account, TRANSFER));
    TxSummary(income, expenses, income - expenses,
              CountOf(txs, InScopeOfKind(user, start, end, account, INCOME)),
              CountOf(txs, InScopeOfKind(user, start, end, account, EXPENSE)),
              CountOf(txs, InScopeOfKind(user, start, end, account, TRANSFER)))
  }

  /** The three counts split the rows in scope: every live row of the caller
      in the window is counted under exactly its own type. */
  lemma {:induction false} SummaryCountsPartition(txs: seq<Row<TxData>>, user: nat, start: Option<Date>, end: Option<Date>, account: Option<nat>)
    ensures var r := Summary(txs, user, start, end, account);
            r.incomeTransactions + r.expenseTransactions + r.transferTransactions
            == CountOf(txs, InScope(user, start, end, account))
  {
    KindCountsPartition(txs, user, start, end, account);
  }

  lemma {:induction false} KindCountsPartition(txs: seq<Row<TxData>>, user: nat, start: Option<Date>, end: Option<Date>, account: Option<nat>)
    ensures CountOf(txs, InScopeOfKind(user, start, end, account, INCOME))
            + CountOf(txs, InScopeOfKind(user, start, end, account, EXPENSE))
            + CountOf(txs, InScopeOfKind(user, start, end, account, TRANSFER))
            == CountOf(txs, InScope(user, start, end, account))
  {
    if |txs| > 0 {
      KindCountsPartition(txs[..|txs| - 1], user, start, end, account);
    }
  }

  /** The net income is one pass over the rows in scope, each adding its
      signed effect: income up, expense down, transfers nothing. */
  lemma {:induction false} SummaryNetIsSignedSum(txs: seq<Row<TxData>>, user: nat, start: Option<Date>, end: Option<Date>, account: Option<nat>)
    ensures Summary(txs, user, start, end, account).netIncome == SumOf(txs, InScope(user, start, end, account), Signed)
  {
    if |txs| > 0 {
      var init := txs[..|txs| - 1];
      SummaryNetIsSignedSum(init, user, start, end, account);
    }
  }

  /** Restricted to one account of the caller with no date bounds, the
      summary's net income is exactly how far the account's balance has moved
      from its initial balance. */
  lemma {:induction false} SummaryAgreesWithBalance(txs: seq<Row<TxData>>, user: nat, a: Row<AccountData>)
    requires forall k :: 0 <= k < |txs| && txs[k].data.account == a.id ==> txs[k].owner == user
    ensures Summary(txs, user, None, None, Some(a.id)).netIncome == Balance(txs, a) - a.data.initialBalance
  {
    forall kind: TxType
      ensures SumOf(txs, InScopeOfKind(user, None, None, Some(a.id), kind), Amount) == TotalOf(txs, a.id, kind)
    {
      forall k | 0 <= k < |txs|
        ensures InScopeOfKind(user, None, None, Some(a.id), kind)(txs[k]) == OfKind(a.id, kind)(txs[k])
      {
        var t := txs[k];
        assert InScope(user, None, None, Some(a.id))(t) == (!t.deleted && t.owner == user && t.data.account == a.id);
        if t.data.account == a.id {
          assert t.owner == user;
        }
      }
      SameConditionSameSum(txs, InScopeOfKind(user, None, None, Some(a.id), kind), OfKind(a.id, kind));
    }
  }

  /** Two conditions that agree on every row of the log give equal sums. */
  lemma {:induction false} SameConditionSameSum(txs: seq<Row<TxData>>, p: Row<TxData> -> bool, q: Row<TxData> -> bool)
    requires forall k :: 0 <= k < |txs| ==> p(txs[k]) == q(txs[k])
    ensures SumOf(txs, p, Amount) == SumOf(txs, q, Amount)
  {
    if |txs| > 0 {
      SameConditionSameSum(txs[..|txs| - 1], p, q);
    }
  }
}

=== FILE: users.dfy ===
/** The profile routes: reading the caller's profile, updating username and
    email under the uniqueness rules, and the per-user counts. */
module Users {
  import opened Common
  import opened Rows
  import opened Folds
  import opened Text
  import opened DateHelpers
  import opened Schema
  import opened Ledger
  import opened Transactions
  import opened ErrorHandler

  /** GET /users/profile: 404 unless the caller's row is live. */
  function GetProfile(s: Store, user: nat): (r: Response<UserData>)
    ensures r.Fail? <==> forall k :: 0 <= k < |s.users| ==> s.users[k].id != user || s.users[k].deleted
    ensures r.Fail? ==> r == Fail(404, "User not found")
    ensures r.Ok? ==> exists k :: 0 <= k < |s.users| && s.users[k].id == user && !s.users[k].deleted
                                  && s.users[k].data == r.value
  {
    match LiveById(s.users, user)
    case None => Fail(404, "User not found")
    case Some(k) => Ok(s.users[k].data)
  }

  /** Another live user already holds this username. */
  predicate UsernameTaken(users: seq<Row<UserData>>, name: string, user: nat)
  {
    exists k :: 0 <= k < |users| && users[k].data.username == name && users[k].id != user && !users[k].deleted
  }

  predicate EmailTaken(users: seq<Row<UserData>>, email: string, user: nat)
  {
    exists k :: 0 <= k < |users| && users[k].data.email == email && users[k].id != user && !users[k].deleted
  }

  /** The profile after the update: each supplied (truthy) field trimmed,
      each other field as it was. */
  function Updated(d: UserData, username: Option<string>, email: Option<string>): (r: UserData)
    ensures r.username == (if Truthy(username) then Trim(username.value) else d.username)
    ensures r.email == (if Truthy(email) then Trim(email.value) else d.email)
  {
    UserData(if Truthy(username) then Trim(username.value) else d.username,
             if Truthy(email) then Trim(email.value) else d.email)
  }

  /** `UPDATE users SET ... WHERE user_id = ?`: every row with the caller's
      id, live or not. */
  function ApplyProfile(users: seq<Row<UserData>>, user: nat, username: Option<string>, email: Option<string>): (r: seq<Row<UserData>>)
    ensures |r| == |users|
    ensures forall k :: 0 <= k < |users| ==>
              r[k] == (if users[k].id == user then users[k].(data := Updated(users[k].data, username, email)) else users[k])
  {
    seq(|users|, k requires 0 <= k < |users| =>
          if users[k].id == user then users[k].(data := Updated(users[k].data, username, email)) else users[k])
  }

  /** The UNIQUE constraints on `users.username` and `users.email`: no two
      rows, live or soft-deleted, share either. */
  predicate StoredUnique(users: seq<Row<UserData>>)
  {
    forall i, j :: 0 <= i < |users| && 0 <= j < |users| && i != j ==>
      users[i].data.username != users[j].data.username && users[i].data.email != users[j].data.email
  }

  /** No two live users share a username, nor an email. */
  predicate ProfilesUnique(users: seq<Row<UserData>>)
  {
    forall i, j :: 0 <= i < |users| && 0 <= j < |users| && i != j && !users[i].deleted && !users[j].deleted ==>
      users[i].data.username != users[j].data.username && users[i].data.email != users[j].data.email
  }

  /** The column SQLite names when the UPDATE breaks a UNIQUE constraint; the
      username's constraint is declared, and checked, first. */
  function ClashColumn(users: seq<Row<UserData>>): string
  {
    if forall i, j :: 0 <= i < |users| && 0 <= j < |users| && i != j ==> users[i].data.username != users[j].data.username
    then "users.email" else "users.username"
  }

  /** PUT /users/profile. Neither field supplied is a 400; a trimmed username
      held by another live user is a 409, checked before the email; then the
      same for the email. The UPDATE itself fails when the new values clash
      with any other row, soft-deleted ones included, and the error
      middleware answers. The reply carries the caller's row after the
      update, if there is one. */
  function UpdateProfile(s: Store, user: nat, username: Option<string>, email: Option<string>): (r: Reply<Option<UserData>>)
    ensures !Truthy(username) && !Truthy(email) ==>
              r == Reply(Fail(400, "Username or email is required to update"), s)
    ensures Truthy(username) && UsernameTaken(s.users, Trim(username.value), user) ==>
              r == Reply(Fail(409, "Username already taken"), s)
    ensures Truthy(email) && EmailTaken(s.users, Trim(email.value), user)
            && !(Truthy(username) && UsernameTaken(s.users, Trim(username.value), user)) ==>
              r == Reply(Fail(409, "Email already registered"), s)
    ensures r.response.Fail? ==> r.store == s
    ensures (Truthy(username) || Truthy(email))
            && !(Truthy(username) && UsernameTaken(s.users, Trim(username.value), user))
            && !(Truthy(email) && EmailTaken(s.users, Trim(email.value), user))
            && !StoredUnique(ApplyProfile(s.users, user, username, email)) ==>
              && r.response.Fail?
              && HandleError(UniqueViolation(ClashColumn(ApplyProfile(s.users, user, username, email))), false)
                 == ErrorReply(r.response.status, Some(r.response.message), None)
    ensures r.response.Ok? <==>
              (Truthy(username) || Truthy(email))
              && !(Truthy(username) && UsernameTaken(s.users, Trim(username.value), user))
              && !(Truthy(email) && EmailTaken(s.users, Trim(email.value), user))
              && StoredUnique(ApplyProfile(s.users, user, username, email))
    ensures r.response.Ok? ==>
              && r.store == s.(users := ApplyProfile(s.users, user, username, email))
              && (r.response.value.Some? <==> exists k :: 0 <= k < |s.users| && s.users[k].id == user)
  {
    if !Truthy(username) && !Truthy(email) then
      Reply(Fail(400, "Username or email is required to update"), s)
    else if Truthy(username) && UsernameTaken(s.users, Trim(username.value), user) then
      Reply(Fail(409, "Username already taken"), s)
    else if Truthy(email) && EmailTaken(s.users, Trim(email.value), user) then
      Reply(Fail(409, "Email already registered"), s)
    else
      var users := ApplyProfile(s.users, user, username, email);
      if !StoredUnique(users) then
        UniqueViolationIs500(ClashColumn(users), false);
        Reply(Fail(500, HandleError(UniqueViolation(ClashColumn(users)), false).message.GetOr("")), s)
      else
        var shown := match FirstById(users, user)
                     case None => None
                     case Some(k) => Some(users[k].data);
        Reply(Ok(shown), s.(users := users))
  }

  /** Another user's row, live or soft-deleted, holds this username. */
  predicate UsernameHeld(users: seq<Row<UserData>>, name: string, user: nat)
  {
    exists k :: 0 <= k < |users| && users[k].data.username == name && users[k].id != user
  }

  predicate EmailHeld(users: seq<Row<UserData>>, email: string, user: nat)
  {
    exists k :: 0 <= k < |users| && users[k].data.email == email && users[k].id != user
  }

  /** Every update call keeps the stored table within its UNIQUE constraints,
      and so keeps usernames and emails unique among live users too. */
  lemma UpdateKeepsProfilesUnique(s: Store, user: nat, username: Option<string>, email: Option<string>)
    requires StoredUnique(s.users)
    ensures StoredUnique(UpdateProfile(s, user, username, email).store.users)
    ensures ProfilesUnique(UpdateProfile(s, user, username, email).store.users)
  {
    var after := UpdateProfile(s, user, username, email).store.users;
    assert StoredUnique(after);
  }

  /** Once the live checks pass, the UPDATE is refused exactly when a
      soft-deleted row of another user holds a new value: on a table within
      its constraints the live checks have already ruled out every live
      holder. */
  lemma DeletedHolderRefusesUpdate(s: Store, user: nat, username: Option<string>, email: Option<string>)
    requires UniqueIds(s.users) && StoredUnique(s.users)
    requires exists k :: 0 <= k < |s.users| && s.users[k].id == user
    requires Truthy(username) || Truthy(email)
    requires !(Truthy(username) && UsernameTaken(s.users, Trim(username.value), user))
    requires !(Truthy(email) && EmailTaken(s.users, Trim(email.value), user))
    ensures UpdateProfile(s, user, username, email).response.Fail? <==>
              (Truthy(username) && UsernameHeld(s.users, Trim(username.value), user))
              || (Truthy(email) && EmailHeld(s.users, Trim(email.value), user))
  {
    var after := ApplyProfile(s.users, user, username, email);
    if (Truthy(username) && UsernameHeld(s.users, Trim(username.value), user))
       || (Truthy(email) && EmailHeld(s.users, Trim(email.value), user)) {
      HeldBreaksConstraint(s.users, user, username, email);
    } else {
      FreeKeepsConstraint(s.users, user, username, email);
    }
  }

  lemma HeldBreaksConstraint(users: seq<Row<UserData>>, user: nat, username: Option<string>, email: Option<string>)
    requires exists k :: 0 <= k < |users| && users[k].id == user
    requires (Truthy(username) && UsernameHeld(users, Trim(username.value), user))
             || (Truthy(email) && EmailHeld(users, Trim(email.value), user))
    ensures !StoredUnique(ApplyProfile(users, user, username, email))
  {
    var after := ApplyProfile(users, user, username, email);
    var c :| 0 <= c < |users| && users[c].id == user;
    if Truthy(username) && UsernameHeld(users, Trim(username.value), user) {
      var k :| 0 <= k < |users| && users[k].data.username == Trim(username.value) && users[k].id != user;
      assert after[c].data.username == after[k].data.username;
    } else {
      var k :| 0 <= k < |users| && users[k].data.email == Trim(email.value) && users[k].id != user;
      assert after[c].data.email == after[k].data.email;
    }
  }

  lemma FreeKeepsConstraint(users: seq<Row<UserData>>, user: nat, username: Option<string>, email: Option<string>)
    requires UniqueIds(users) && StoredUnique(users)
    requires !(Truthy(username) && UsernameHeld(users, Trim(username.value), user))
    requires !(Truthy(email) && EmailHeld(users, Trim(email.value), user))
    ensures StoredUnique(ApplyProfile(users, user, username, email))
  {
    var after := ApplyProfile(users, user, username, email);
    forall i, j | 0 <= i < |after| && 0 <= j < |after| && i != j
      ensures after[i].data.username != after[j].data.username && after[i].data.email != after[j].data.email
    {
      if users[i].id == user && users[j].id == user {
        assert false;
      } else if users[i].id == user {
        UpdatedRowIsFree(users, user, username, email, i, j);
      } else if users[j].id == user {
        UpdatedRowIsFree(users, user, username, email, j, i);
      }
    }
  }

  /** The caller's updated row clashes with no other row when no other row
      holds a new value. */
  lemma UpdatedRowIsFree(users: seq<Row<UserData>>, user: nat, username: Option<string>, email: Option<string>, i: nat, j: nat)
    requires StoredUnique(users)
    requires i < |users| && j < |users| && i != j && users[i].id == user && users[j].id != user
    requires !(Truthy(username) && UsernameHeld(users, Trim(username.value), user))
    requires !(Truthy(email) && EmailHeld(users, Trim(email.value), user))
    ensures var d := Updated(users[i].data, username, email);
            d.username != users[j].data.username && d.email != users[j].data.email
  {
    if Truthy(username) {
      assert users[j].data.username != Trim(username.value);
    }
    if Truthy(email) {
      assert users[j].data.email != Trim(email.value);
    }
  }

  // ---------------------------------------------------------------- stats

  /** GET /users/stats. */
  datatype UserStats = UserStats(accounts: nat, monthlyCount: nat, monthlyIncome: real, monthlyExpenses: real,
                                 categories: nat, stockTrades: nat)

  function LiveOwned<T>(user: nat): Row<T> -> bool
  {
    (r: Row<T>) => r.owner == user && !r.deleted
  }

  /** The counts are over the caller's live rows; the monthly figures are
      over the caller's live transactions dated in today's month. */
  function Stats(s: Store, user: nat, today: Date): (r: UserStats)
    ensures r.accounts == |LiveOf(s.accounts, user)|
    ensures r.categories == |LiveOf(s.categories, user)|
    ensures r.stockTrades == |LiveOf(s.trades, user)|
    ensures var m := Summary(s.transactions, user, Some(StartOfMonth(today)), Some(EndOfMonth(today)), None);
            && r.monthlyCount == m.incomeTransactions + m.expenseTransactions + m.transferTransactions
            && r.monthlyIncome == m.totalIncome && r.monthlyExpenses == m.totalExpenses
  {
    var start, end := StartOfMonth(today), EndOfMonth(today);
    var m := Summary(s.transactions, user, Some(start), Some(end), None);
    LiveCount(s.accounts, user);
    LiveCount(s.categories, user);
    LiveCount(s.trades, user);
    SummaryCountsPartition(s.transactions, user, Some(start), Some(end), None);
    UserStats(CountOf(s.accounts, LiveOwned(user)), CountOf(s.transactions, InScope(user, Some(start), Some(end), None)),
              m.totalIncome, m.totalExpenses, CountOf(s.categories, LiveOwned(user)), CountOf(s.trades, LiveOwned(user)))
  }

  /** `COUNT(*)` over the caller's live rows is the length of the listing of
      those rows. */
  lemma {:induction false} LiveCount<T>(rows: seq<Row<T>>, user: nat)
    ensures CountOf(rows, LiveOwned(user)) == |LiveOf(rows, user)|
  {
    if |rows| > 0 {
      LiveCount(rows[..|rows| - 1], user);
    }
  }
}

=== FILE: validation.dfy ===
/** The request validators (`validation.js`): each route's body is checked
    field by field against a fixed chain of rules, and any failure answers
    400 "Validation failed" before the handler runs.

    A request body is a map from field name to the text the validator sees
    (a JSON number is seen through its decimal text); a missing field is
    absent from the map and is seen as the empty string. The e-mail and
    ISO 8601 checks belong to the validator library and are parameters. */
module Validation {
  import opened Common
  import opened Text
  import opened NumberHelpers

  type Body = map<string, string>

  /** The library's `isEmail` and `isISO8601`, which this model does not
      define. */
  datatype Oracles = Oracles(isEmail: string -> bool, isDate: string -> bool)

  /** One validator of a chain. `Numeric(gt)` is `isNumeric(options)`; the
      `gt` option is carried because the chains pass it. */
  datatype Check =
    | Length(min: nat, max: Option<nat>)
    | WordChars
    | Email
    | IntAtLeast(least: int)
    | Numeric(gt: Option<real>)
    | OneOf(options: seq<string>)
    | Iso8601

  /** `body(field)`, optionally `.optional()` and `.trim()`, then the checks
      in order, each with its `withMessage`. */
  datatype Rule = Rule(field: string, optional: bool, trim: bool, checks: seq<(Check, string)>)

  datatype FieldError = FieldError(field: string, message: string)

  // ---------------------------------------------------------------- number texts

  predicate Negative(s: string)
  {
    |s| > 0 && s[0] == '-'
  }

  /** The text after an optional leading sign. */
  function Unsigned(s: string): (u: string)
    ensures |u| <= |s|
  {
    if |s| > 0 && (s[0] == '+' || s[0] == '-') then s[1..] else s
  }

  predicate AllDigits(s: string)
  {
    forall i :: 0 <= i < |s| ==> IsDigit(s[i])
  }

  /** `isInt` with leading zeroes allowed: `^[-+]?[0-9]+$`. */
  predicate IsIntText(s: string)
  {
    |Unsigned(s)| > 0 && AllDigits(Unsigned(s))
  }

  function IntValue(s: string): int
    requires IsIntText(s)
  {
    if Negative(s) then -(DigitsValue(Unsigned(s)) as int) else DigitsValue(Unsigned(s))
  }

  /** The digits after the decimal point, when `u` has one right after its
      leading digits. */
  function Fraction(u: string): (f: string)
    ensures |f| < |u| || f == ""
  {
    var n := DigitRun(u);
    if n < |u| && u[n] == '.' then u[n + 1..] else ""
  }

  /** `isNumeric`: `^[+-]?([0-9]*[.])?[0-9]+$`. */
  predicate IsNumericText(s: string)
  {
    var u := Unsigned(s);
    var n := DigitRun(u);
    (n == |u| && n > 0)
    || (n < |u| && u[n] == '.' && |u[n + 1..]| > 0 && AllDigits(u[n + 1..]))
  }

  /** The value `parseFloat` gives a numeric text. */
  function NumberValue(s: string): real
  {
    var u := Unsigned(s);
    var n := DigitRun(u);
    var f := Fraction(u);
    var m := DigitRun(f);
    var magnitude := DigitsValue(u[..n]) as real + DigitsValue(f[..m]) as real / Pow10(m);
    if Negative(s) then -magnitude else magnitude
  }

  predicate NonzeroDigit(c: char)
  {
    '1' <= c <= '9'
  }

  /** A numeric text is above zero exactly when it has no minus sign and some
      digit other than 0. */
  lemma PositiveNumber(s: string)
    requires IsNumericText(s)
    ensures NumberValue(s) > 0.0 <==> !Negative(s) && exists i :: 0 <= i < |Unsigned(s)| && NonzeroDigit(Unsigned(s)[i])
  {
    var u := Unsigned(s);
    var n := DigitRun(u);
    var f := Fraction(u);
    var m := DigitRun(f);
    DigitRunAll(u[..n]);
    DigitsPositive(u[..n]);
    DigitRunAll(f[..m]);
    DigitsPositive(f[..m]);
    var whole := DigitsValue(u[..n]) as real;
    var frac := DigitsValue(f[..m]) as real / Pow10(m);
    FractionSign(DigitsValue(f[..m]), Pow10(m));
    if n == |u| {
      assert u[..n] == u;
      assert f == "";
    } else {
      assert u[n] == '.' && f == u[n + 1..] && m == |f|;
      assert f[..m] == f;
      assert forall i :: 0 <= i < |u| && NonzeroDigit(u[i]) ==> (i < n && NonzeroDigit(u[..n][i])) || (i > n && NonzeroDigit(f[i - n - 1]));
    }
  }

  lemma FractionSign(d: nat, p: real)
    requires p >= 1.0
    ensures d as real / p >= 0.0
    ensures d as real / p > 0.0 <==> d > 0
  {
  }

  /** A digit string has a positive value exactly when one of its digits is
      not 0. */
  lemma {:induction false} DigitsPositive(ds: string)
    requires AllDigits(ds)
    ensures DigitsValue(ds) > 0 <==> exists i :: 0 <= i < |ds| && NonzeroDigit(ds[i])
  {
    if |ds| > 0 {
      var init := ds[..|ds| - 1];
      DigitsPositive(init);
      assert forall i :: 0 <= i < |init| ==> ds[i] == init[i];
      if NonzeroDigit(ds[|ds| - 1]) {
        assert DigitsValue(ds) > 0;
      }
    }
  }

  // ---------------------------------------------------------------- evaluation

  function FieldText(b: Body, field: string): string
  {
    if field in b then b[field] else ""
  }

  predicate WordChar(c: char)
  {
    'a' <= c <= 'z' || 'A' <= c <= 'Z' || '0' <= c <= '9' || c == '_'
  }

  /** Whether `v` passes check `c`. The validator library's `isNumeric` does
      not read a `gt` option; `honourGt` switches on the comparison the
      chains ask for. */
  predicate Holds(c: Check, v: string, o: Oracles, honourGt: bool)
  {
    match c
    case Length(min, max) => min <= |v| && (max.None? || |v| <= max.value)
    case WordChars => |v| > 0 && forall i :: 0 <= i < |v| ==> WordChar(v[i])
    case Email => o.isEmail(v)
    case IntAtLeast(least) => IsIntText(v) && IntValue(v) >= least
    case Numeric(gt) => IsNumericText(v) && (honourGt && gt.Some? ==> NumberValue(v) > gt.value)
    case OneOf(options) => v in options
    case Iso8601 => o.isDate(v)
  }

  /** The messages of the failed checks, in chain order. */
  function CheckErrors(field: string, checks: seq<(Check, string)>, v: string, o: Oracles, honourGt: bool): (r: seq<FieldError>)
    ensures r == [] <==> forall i :: 0 <= i < |checks| ==> Holds(checks[i].0, v, o, honourGt)
    ensures forall e :: e in r ==> e.field == field
  {
    if |checks| == 0 then []
    else
      var rest := CheckErrors(field, checks[1..], v, o, honourGt);
      assert forall i :: 1 <= i < |checks| ==> checks[i] == checks[1..][i - 1];
      if Holds(checks[0].0, v, o, honourGt) then rest
      else [FieldError(field, checks[0].1)] + rest
  }

  /** The value a rule's checks see: the field's text, trimmed when the
      chain trims. */
  function Seen(rule: Rule, b: Body): string
  {
    var v := FieldText(b, rule.field);
    if rule.trim then Trim(v) else v
  }

  predicate Skipped(rule: Rule, b: Body)
  {
    rule.optional && rule.field !in b
  }

  /** A rule passes when its field is skipped or every check holds. */
  predicate RuleOk(rule: Rule, b: Body, o: Oracles, honourGt: bool)
  {
    Skipped(rule, b) || forall i :: 0 <= i < |rule.checks| ==> Holds(rule.checks[i].0, Seen(rule, b), o, honourGt)
  }

  /** `validationResult(req).array()`: every failed check of every rule, in
      rule order; an optional field that is absent is not checked. */
  function Errors(rules: seq<Rule>, b: Body, o: Oracles, honourGt: bool): (r: seq<FieldError>)
    ensures r == [] <==> forall k :: 0 <= k < |rules| ==> RuleOk(rules[k], b, o, honourGt)
    ensures forall e :: e in r ==> exists k :: 0 <= k < |rules| && rules[k].field == e.field
  {
    if |rules| == 0 then []
    else
      var rule := rules[0];
      var own := if Skipped(rule, b) then [] else CheckErrors(rule.field, rule.checks, Seen(rule, b), o, honourGt);
      assert forall k :: 1 <= k < |rules| ==> rules[k] == rules[1..][k - 1];
      own + Errors(rules[1..], b, o, honourGt)
  }

  /** A rule with a single check passes iff the field is skipped or the
      check holds of what the rule sees. */
  lemma OneCheck(rule: Rule, b: Body, o: Oracles, honourGt: bool)
    requires |rule.checks| == 1
    ensures RuleOk(rule, b, o, honourGt) <==> Skipped(rule, b) || Holds(rule.checks[0].0, Seen(rule, b), o, honourGt)
  {
  }

  /** A rule with two checks passes iff the field is skipped or both hold. */
  lemma TwoChecks(rule: Rule, b: Body, o: Oracles, honourGt: bool)
    requires |rule.checks| == 2
    ensures RuleOk(rule, b, o, honourGt) <==>
              Skipped(rule, b)
              || (Holds(rule.checks[0].0, Seen(rule, b), o, honourGt) && Holds(rule.checks[1].0, Seen(rule, b), o, honourGt))
  {
  }

  /** A chain followed by `handleValidationErrors`: the request reaches the
      route handler iff every rule of the chain passes, and is otherwise
      answered 400 "Validation failed". The validator library ignores `gt`. */
  function HandleValidationErrors<T>(rules: seq<Rule>, b: Body, o: Oracles, handler: Response<T>): (r: Response<T>)
    ensures (forall k :: 0 <= k < |rules| ==> RuleOk(rules[k], b, o, false)) ==> r == handler
    ensures (exists k :: 0 <= k < |rules| && !RuleOk(rules[k], b, o, false)) ==> r == Fail(400, "Validation failed")
  {
    if Errors(rules, b, o, false) != [] then Fail(400, "Validation failed") else handler
  }

  // ---------------------------------------------------------------- the chains

  const UsernameRule := Rule("username", false, true,
    [(Length(3, Some(50)), "Username must be between 3 and 50 characters"),
     (WordChars, "Username can only contain letters, numbers, and underscores")])

  const EmailRule := Rule("email", false, false, [(Email, "Please provide a valid email")])
  const NewPasswordRule := Rule("password", false, false, [(Length(6, None), "Password must be at least 6 characters long")])
  const RegistrationRules := [UsernameRule, EmailRule, NewPasswordRule]

  const PasswordRule := Rule("password", false, false, [(Length(1, None), "Password is required")])
  const LoginRules := [EmailRule, PasswordRule]

  const AccountNameRule :=
    Rule("account_name", false, true, [(Length(1, Some(100)), "Account name is required and must be less than 100 characters")])
  const AccountTypeRule := Rule("account_type", false, true, [(Length(1, Some(50)), "Account type is required")])
  const InitialBalanceRule := Rule("initial_balance", true, false, [(Numeric(None), "Initial balance must be a number")])
  const AccountRules := [AccountNameRule, AccountTypeRule, InitialBalanceRule]

  const AccountIdRule := Rule("account_id", false, false, [(IntAtLeast(1), "Valid account ID is required")])
  const CategoryIdRule := Rule("category_id", true, false, [(IntAtLeast(1), "Valid category ID is required")])
  const AmountRule := Rule("amount", false, false, [(Numeric(None), "Amount must be a number")])
  const TxTypeRule := Rule("transaction_type", false, false,
    [(OneOf(["INCOME", "EXPENSE", "TRANSFER"]), "Transaction type must be INCOME, EXPENSE, or TRANSFER")])
  const DescriptionRule := Rule("description", true, true, [])
  const TxDateRule := Rule("transaction_date", true, false, [(Iso8601, "Valid date is required")])
  const TransactionRules := [AccountIdRule, CategoryIdRule, AmountRule, TxTypeRule, DescriptionRule, TxDateRule]

  const CategoryNameRule :=
    Rule("category_name", false, true, [(Length(1, Some(100)), "Category name is required and must be less than 100 characters")])
  const CategoryTypeRule := Rule("category_type", false, false, [(OneOf(["Income", "Expense"]), "Category type must be Income or Expense")])
  const CategoryRules := [CategoryNameRule, CategoryTypeRule]

  const TickerRule :=
    Rule("ticker_symbol", false, true, [(Length(1, Some(20)), "Ticker symbol is required and must be less than 20 characters")])
  const TradeTypeRule := Rule("trade_type", false, false, [(OneOf(["BUY", "SELL"]), "Trade type must be BUY or SELL")])
  const QuantityRule := Rule("quantity", false, false, [(Numeric(Some(0.0)), "Quantity must be greater than 0")])
  const PriceRule := Rule("price_per_share", false, false, [(Numeric(Some(0.0)), "Price per share must be greater than 0")])
  const TradeDateRule := Rule("trade_date", true, false, [(Iso8601, "Valid trade date is required")])
  const TradeRules := [AccountIdRule, TickerRule, TradeTypeRule, QuantityRule, PriceRule, TradeDateRule]

  const FromAccountRule := Rule("from_account_id", false, false, [(IntAtLeast(1), "Valid from account ID is required")])
  const ToAccountRule := Rule("to_account_id", false, false, [(IntAtLeast(1), "Valid to account ID is required")])
  const TransferAmountRule := Rule("amount", false, false, [(Numeric(Some(0.0)), "Amount must be greater than 0")])
  const TransferRules := [FromAccountRule, ToAccountRule, TransferAmountRule, DescriptionRule, TxDateRule]

  // ---------------------------------------------------------------- what each chain accepts

  predicate ValidUsername(u: string)
  {
    3 <= |u| <= 50 && forall i :: 0 <= i < |u| ==> WordChar(u[i])
  }

  predicate PositiveId(b: Body, field: string)
  {
    IsIntText(FieldText(b, field)) && IntValue(FieldText(b, field)) >= 1
  }

  predicate OptionalPositiveId(b: Body, field: string)
  {
    field !in b || PositiveId(b, field)
  }

  predicate OptionalDate(b: Body, field: string, o: Oracles)
  {
    field !in b || o.isDate(FieldText(b, field))
  }

  /** A username passes iff, once trimmed, it has 3 to 50 characters, all
      letters, digits or underscores; a registration password needs 6
      characters. */
  lemma RegistrationAccepts(b: Body, o: Oracles)
    ensures Errors(RegistrationRules, b, o, false) == [] <==>
              && ValidUsername(Trim(FieldText(b, "username")))
              && o.isEmail(FieldText(b, "email"))
              && |FieldText(b, "password")| >= 6
  {
    RegistrationRuleFacts(b, o);
    AllOfThree(RegistrationRules, b, o, false);
  }

  lemma RegistrationRuleFacts(b: Body, o: Oracles)
    ensures RuleOk(RegistrationRules[0], b, o, false) <==> ValidUsername(Trim(FieldText(b, "username")))
    ensures RuleOk(RegistrationRules[1], b, o, false) <==> o.isEmail(FieldText(b, "email"))
    ensures RuleOk(RegistrationRules[2], b, o, false) <==> |FieldText(b, "password")| >= 6
  {
    UsernameFact(b, o);
    OneCheck(EmailRule, b, o, false);
    OneCheck(NewPasswordRule, b, o, false);
  }

  lemma UsernameFact(b: Body, o: Oracles)
    ensures RuleOk(UsernameRule, b, o, false) <==> ValidUsername(Trim(FieldText(b, "username")))
  {
    var u := Seen(UsernameRule, b);
    assert u == Trim(FieldText(b, "username"));
    TwoChecks(UsernameRule, b, o, false);
    assert Holds(UsernameRule.checks[0].0, u, o, false) <==> 3 <= |u| <= 50;
    assert Holds(UsernameRule.checks[1].0, u, o, false) <==> |u| > 0 && forall i :: 0 <= i < |u| ==> WordChar(u[i]);
  }

  /** A login needs a valid e-mail and a non-empty password. */
  lemma LoginAccepts(b: Body, o: Oracles)
    ensures Errors(LoginRules, b, o, false) == [] <==>
              o.isEmail(FieldText(b, "email")) && |FieldText(b, "password")| >= 1
  {
    OneCheck(EmailRule, b, o, false);
    OneCheck(PasswordRule, b, o, false);
  }

  /** Account names need 1 to 100 characters and types 1 to 50 once
      trimmed; an initial balance, when given, must be numeric. */
  lemma AccountAccepts(b: Body, o: Oracles)
    ensures Errors(AccountRules, b, o, false) == [] <==>
              && 1 <= |Trim(FieldText(b, "account_name"))| <= 100
              && 1 <= |Trim(FieldText(b, "account_type"))| <= 50
              && ("initial_balance" in b ==> IsNumericText(b["initial_balance"]))
  {
    AccountRuleFacts(b, o);
    AllOfThree(AccountRules, b, o, false);
  }

  lemma AccountRuleFacts(b: Body, o: Oracles)
    ensures RuleOk(AccountRules[0], b, o, false) <==> 1 <= |Trim(FieldText(b, "account_name"))| <= 100
    ensures RuleOk(AccountRules[1], b, o, false) <==> 1 <= |Trim(FieldText(b, "account_type"))| <= 50
    ensures RuleOk(AccountRules[2], b, o, false) <==> ("initial_balance" in b ==> IsNumericText(b["initial_balance"]))
  {
    OneCheck(AccountNameRule, b, o, false);
    OneCheck(AccountTypeRule, b, o, false);
    OneCheck(InitialBalanceRule, b, o, false);
  }

  /** A transaction needs a positive account id, a positive category id
      when one is given, a numeric amount of either sign, one of the three
      upper-case types, and an ISO date when one is given. */
  lemma TransactionAccepts(b: Body, o: Oracles)
    ensures Errors(TransactionRules, b, o, false) == [] <==> ValidTransaction(b, o)
  {
    TransactionRuleFacts(b, o);
    AllOfSix(TransactionRules, b, o, false);
  }

  predicate ValidTransaction(b: Body, o: Oracles)
  {
    && PositiveId(b, "account_id")
    && OptionalPositiveId(b, "category_id")
    && IsNumericText(FieldText(b, "amount"))
    && FieldText(b, "transaction_type") in ["INCOME", "EXPENSE", "TRANSFER"]
    && OptionalDate(b, "transaction_date", o)
  }

  lemma TransactionRuleFacts(b: Body, o: Oracles)
    ensures RuleOk(TransactionRules[0], b, o, false) <==> PositiveId(b, "account_id")
    ensures RuleOk(TransactionRules[1], b, o, false) <==> OptionalPositiveId(b, "category_id")
    ensures RuleOk(TransactionRules[2], b, o, false) <==> IsNumericText(FieldText(b, "amount"))
    ensures RuleOk(TransactionRules[3], b, o, false) <==>
              FieldText(b, "transaction_type") in ["INCOME", "EXPENSE", "TRANSFER"]
    ensures RuleOk(TransactionRules[4], b, o, false)
    ensures RuleOk(TransactionRules[5], b, o, false) <==> OptionalDate(b, "transaction_date", o)
  {
    OneCheck(AccountIdRule, b, o, false);
    OneCheck(CategoryIdRule, b, o, false);
    OneCheck(AmountRule, b, o, false);
    OneCheck(TxTypeRule, b, o, false);
    assert RuleOk(DescriptionRule, b, o, false);
    OneCheck(TxDateRule, b, o, false);
  }

  /** A category needs a trimmed name of 1 to 100 characters and the type
      `Income` or `Expense`, in that letter case. */
  lemma CategoryAccepts(b: Body, o: Oracles)
    ensures Errors(CategoryRules, b, o, false) == [] <==>
              1 <= |Trim(FieldText(b, "category_name"))| <= 100
              && FieldText(b, "category_type") in ["Income", "Expense"]
  {
    CategoryRuleFacts(b, o);
  }

  lemma CategoryRuleFacts(b: Body, o: Oracles)
    ensures RuleOk(CategoryRules[0], b, o, false) <==> 1 <= |Trim(FieldText(b, "category_name"))| <= 100
    ensures RuleOk(CategoryRules[1], b, o, false) <==> FieldText(b, "category_type") in ["Income", "Expense"]
  {
    assert RuleOk(CategoryRules[0], b, o, false) <==> 1 <= |Trim(FieldText(b, "category_name"))| <= 100 by {
      OneCheck(CategoryNameRule, b, o, false);
    }
    assert RuleOk(CategoryRules[1], b, o, false) <==> FieldText(b, "category_type") in ["Income", "Expense"] by {
      OneCheck(CategoryTypeRule, b, o, false);
    }
  }

  /** What the trade chain accepts. With `honourGt` the quantity and price
      must also be above zero, which is what the chain's messages promise. */
  lemma TradeAccepts(b: Body, o: Oracles, honourGt: bool)
    ensures Errors(TradeRules, b, o, honourGt) == [] <==> ValidTrade(b, o, honourGt)
  {
    TradeRuleFacts(b, o, honourGt);
    AllOfSix(TradeRules, b, o, honourGt);
  }

  /** POST /portfolio/trades reaches its handler exactly for the bodies the
      trade chain accepts. */
  lemma TradeReachesHandler<T>(b: Body, o: Oracles, handler: Response<T>)
    ensures HandleValidationErrors(TradeRules, b, o, handler)
            == if ValidTrade(b, o, false) then handler else Fail(400, "Validation failed")
  {
    TradeAccepts(b, o, false);
  }

  predicate ValidTrade(b: Body, o: Oracles, honourGt: bool)
  {
              && PositiveId(b, "account_id")
              && 1 <= |Trim(FieldText(b, "ticker_symbol"))| <= 20
              && FieldText(b, "trade_type") in ["BUY", "SELL"]
              && IsNumericText(FieldText(b, "quantity"))
              && IsNumericText(FieldText(b, "price_per_share"))
              && (honourGt ==> NumberValue(FieldText(b, "quantity")) > 0.0
                               && NumberValue(FieldText(b, "price_per_share")) > 0.0)
              && OptionalDate(b, "trade_date", o)
  }

  lemma TradeRuleFacts(b: Body, o: Oracles, honourGt: bool)
    ensures RuleOk(TradeRules[0], b, o, honourGt) <==> PositiveId(b, "account_id")
    ensures RuleOk(TradeRules[1], b, o, honourGt) <==> 1 <= |Trim(FieldText(b, "ticker_symbol"))| <= 20
    ensures RuleOk(TradeRules[2], b, o, honourGt) <==> FieldText(b, "trade_type") in ["BUY", "SELL"]
    ensures RuleOk(TradeRules[3], b, o, honourGt) <==>
              IsNumericText(FieldText(b, "quantity")) && (honourGt ==> NumberValue(FieldText(b, "quantity")) > 0.0)
    ensures RuleOk(TradeRules[4], b, o, honourGt) <==>
              IsNumericText(FieldText(b, "price_per_share")) && (honourGt ==> NumberValue(FieldText(b, "price_per_share")) > 0.0)
    ensures RuleOk(TradeRules[5], b, o, honourGt) <==> OptionalDate(b, "trade_date", o)
  {
    OneCheck(AccountIdRule, b, o, honourGt);
    OneCheck(TickerRule, b, o, honourGt);
    OneCheck(TradeTypeRule, b, o, honourGt);
    OneCheck(QuantityRule, b, o, honourGt);
    OneCheck(PriceRule, b, o, honourGt);
    OneCheck(TradeDateRule, b, o, honourGt);
  }

  /** What the transfer chain accepts; as for trades, the amount is above
      zero only when the `gt` option is honoured. */
  lemma TransferAccepts(b: Body, o: Oracles, honourGt: bool)
    ensures Errors(TransferRules, b, o, honourGt) == [] <==>
              && PositiveId(b, "from_account_id")
              && PositiveId(b, "to_account_id")
              && IsNumericText(FieldText(b, "amount"))
              && (honourGt ==> NumberValue(FieldText(b, "amount")) > 0.0)
              && OptionalDate(b, "transaction_date", o)
  {
    TransferRuleFacts(b, o, honourGt);
  }

  lemma TransferRuleFacts(b: Body, o: Oracles, honourGt: bool)
    ensures RuleOk(TransferRules[0], b, o, honourGt) <==> PositiveId(b, "from_account_id")
    ensures RuleOk(TransferRules[1], b, o, honourGt) <==> PositiveId(b, "to_account_id")
    ensures RuleOk(TransferRules[2], b, o, honourGt) <==>
              IsNumericText(FieldText(b, "amount")) && (honourGt ==> NumberValue(FieldText(b, "amount")) > 0.0)
    ensures RuleOk(TransferRules[3], b, o, honourGt)
    ensures RuleOk(TransferRules[4], b, o, honourGt) <==> OptionalDate(b, "transaction_date", o)
  {
    OneCheck(FromAccountRule, b, o, honourGt);
    OneCheck(ToAccountRule, b, o, honourGt);
    OneCheck(TransferAmountRule, b, o, honourGt);
    assert RuleOk(DescriptionRule, b, o, honourGt);
    OneCheck(TxDateRule, b, o, honourGt);
  }

  lemma AllOfThree(rs: seq<Rule>, b: Body, o: Oracles, honourGt: bool)
    requires |rs| == 3
    ensures (forall k :: 0 <= k < |rs| ==> RuleOk(rs[k], b, o, honourGt)) <==>
              RuleOk(rs[0], b, o, honourGt) && RuleOk(rs[1], b, o, honourGt) && RuleOk(rs[2], b, o, honourGt)
  {
  }

  lemma AllOfSix(rs: seq<Rule>, b: Body, o: Oracles, honourGt: bool)
    requires |rs| == 6
    ensures (forall k :: 0 <= k < |rs| ==> RuleOk(rs[k], b, o, honourGt)) <==>
              RuleOk(rs[0], b, o, honourGt) && RuleOk(rs[1], b, o, honourGt) && RuleOk(rs[2], b, o, honourGt)
              && RuleOk(rs[3], b, o, honourGt) && RuleOk(rs[4], b, o, honourGt) && RuleOk(rs[5], b, o, honourGt)
  {
  }

  /** As written, the trade chain lets a negative quantity through: the
      library ignores `gt`, so negating the quantity of any accepted trade
      (say "5" to "-5") leaves it accepted. */
  lemma NegativeQuantityPasses(b: Body, o: Oracles)
    requires Errors(TradeRules, b, o, false) == []
    requires !(|FieldText(b, "quantity")| > 0 && FieldText(b, "quantity")[0] in "+-")
    ensures var q := FieldText(b, "quantity");
            && Errors(TradeRules, b["quantity" := "-" + q], o, false) == []
            && NumberValue("-" + q) == -NumberValue(q)
  {
    var q := FieldText(b, "quantity");
    var b' := b["quantity" := "-" + q];
    TradeAccepts(b, o, false);
    NegatedQuantityValid(b, o);
    TradeAccepts(b', o, false);
  }

  lemma NegatedQuantityValid(b: Body, o: Oracles)
    requires ValidTrade(b, o, false)
    requires !(|FieldText(b, "quantity")| > 0 && FieldText(b, "quantity")[0] in "+-")
    ensures ValidTrade(b["quantity" := "-" + FieldText(b, "quantity")], o, false)
    ensures NumberValue("-" + FieldText(b, "quantity")) == -NumberValue(FieldText(b, "quantity"))
  {
    var q := FieldText(b, "quantity");
    var b' := b["quantity" := "-" + q];
    NegatedNumeric(q);
    assert FieldText(b', "quantity") == "-" + q;
    OtherField(b, "quantity", "-" + q, "account_id");
    OtherField(b, "quantity", "-" + q, "ticker_symbol");
    OtherField(b, "quantity", "-" + q, "trade_type");
    OtherField(b, "quantity", "-" + q, "price_per_share");
    OtherField(b, "quantity", "-" + q, "trade_date");
    assert PositiveId(b', "account_id");
    assert OptionalDate(b', "trade_date", o);
  }

  /** Prefixing an unsigned numeric text with '-' keeps it numeric and
      negates its value. */
  lemma NegatedNumeric(q: string)
    requires IsNumericText(q)
    requires !(|q| > 0 && q[0] in "+-")
    ensures IsNumericText("-" + q)
    ensures NumberValue("-" + q) == -NumberValue(q)
  {
    assert Unsigned("-" + q) == q == Unsigned(q);
    assert Negative("-" + q) && !Negative(q);
  }

  /** Updating one field of a body leaves every other field as it was. */
  lemma OtherField(b: Body, changed: string, v: string, f: string)
    requires f != changed
    ensures (f in b[changed := v] <==> f in b) && FieldText(b[changed := v], f) == FieldText(b, f)
  {
  }

  /** The quantity "-5" is one such text. */
  lemma MinusFiveIsNumeric()
    ensures IsNumericText("-5") && NumberValue("-5") == -5.0
  {
    assert Unsigned("-5") == "5";
    assert DigitRun("5") == 1;
    assert "5"[..1] == "5";
    assert DigitsValue("5") == 5;
  }

  /** With the `gt` comparison honoured, an accepted trade has a positive
      quantity and price: numeric texts without a minus sign and with a
      nonzero digit. */
  lemma CheckedTradeIsPositive(b: Body, o: Oracles)
    requires Errors(TradeRules, b, o, true) == []
    ensures NumberValue(FieldText(b, "quantity")) > 0.0 && !Negative(FieldText(b, "quantity"))
    ensures NumberValue(FieldText(b, "price_per_share")) > 0.0 && !Negative(FieldText(b, "price_per_share"))
  {
    TradeAccepts(b, o, true);
    PositiveNumber(FieldText(b, "quantity"));
    PositiveNumber(FieldText(b, "price_per_share"));
  }
}

=== FILE: web_utils.dfy ===
/** The web client's pure helpers (`webapp/src/lib/utils.ts`): percentage
    change, initials, the badge color tables, the e-mail pattern and the
    day grouping of the transaction list. */
module WebUtils {
  import opened Common
  import opened Text
  import opened Folds
  import opened DateHelpers

  // ---------------------------------------------------------------- percentage change

  /** `calculatePercentageChange` as a fraction: from 0 any rise counts as
      1 (100%) and anything else as 0. */
  function PercentageChange(oldValue: real, newValue: real): (r: real)
    ensures oldValue == 0.0 ==> r == (if newValue > 0.0 then 1.0 else 0.0)
    ensures oldValue != 0.0 ==> oldValue + r * oldValue == newValue
  {
    if oldValue == 0.0 then (if newValue > 0.0 then 1.0 else 0.0)
    else (newValue - oldValue) / oldValue
  }

  /** From a positive starting value the change is positive exactly when the
      value rose. */
  lemma ChangeSignFollowsRise(oldValue: real, newValue: real)
    requires oldValue > 0.0
    ensures PercentageChange(oldValue, newValue) > 0.0 <==> newValue > oldValue
    ensures PercentageChange(oldValue, newValue) == 0.0 <==> newValue == oldValue
  {
    var r := PercentageChange(oldValue, newValue);
    assert r * oldValue == newValue - oldValue;
    if r > 0.0 {
      assert r * oldValue > 0.0;
    }
    if newValue > oldValue {
      assert r * oldValue > 0.0;
    }
  }

  // ---------------------------------------------------------------- initials

  /** `split(' ')`: the pieces between single spaces, empty ones included. */
  function SplitSpaces(s: string): (words: seq<string>)
    ensures |words| >= 1
    ensures forall i, j :: 0 <= i < |words| && 0 <= j < |words[i]| ==> words[i][j] != ' '
  {
    if |s| == 0 then [""]
    else
      var rest := SplitSpaces(s[1..]);
      if s[0] == ' ' then [""] + rest
      else
        assert forall i :: 1 <= i < |rest| ==> rest[i] == rest[1..][i - 1];
        [[s[0]] + rest[0]] + rest[1..]
  }

  /** `join(' ')`. */
  function JoinSpaces(words: seq<string>): string
  {
    if |words| == 0 then ""
    else if |words| == 1 then words[0]
    else words[0] + " " + JoinSpaces(words[1..])
  }

  /** Splitting at spaces and joining with spaces gives the string back. */
  lemma {:induction false} SplitJoin(s: string)
    ensures JoinSpaces(SplitSpaces(s)) == s
  {
    if |s| > 0 {
      var rest := SplitSpaces(s[1..]);
      SplitJoin(s[1..]);
      if s[0] == ' ' {
        JoinAfterEmpty(rest);
      } else {
        JoinExtendsHead(s[0], rest);
      }
      assert s == [s[0]] + s[1..];
    }
  }

  /** An empty first word joins as a leading space. */
  lemma {:induction false} JoinAfterEmpty(rest: seq<string>)
    requires |rest| >= 1
    ensures JoinSpaces([""] + rest) == " " + JoinSpaces(rest)
  {
    assert ([""] + rest)[1..] == rest;
  }

  /** A character put in front of the first word is put in front of the join. */
  lemma {:induction false} JoinExtendsHead(c: char, rest: seq<string>)
    requires |rest| >= 1
    ensures JoinSpaces([[c] + rest[0]] + rest[1..]) == [c] + JoinSpaces(rest)
  {
    var words := [[c] + rest[0]] + rest[1..];
    assert words[0] == [c] + rest[0];
    assert words[1..] == rest[1..];
    if |rest| > 1 {
      var after := " " + JoinSpaces(rest[1..]);
      assert JoinSpaces(rest) == rest[0] + after;
      assert JoinSpaces(words) == ([c] + rest[0]) + after;
    }
  }

  /** `map(word => word[0]).join('')`: an empty word contributes nothing. */
  function Firsts(words: seq<string>): string
  {
    if |words| == 0 then ""
    else (if |words[0]| > 0 then [words[0][0]] else "") + Firsts(words[1..])
  }

  /** The characters that begin a word: not a space, and first or right
      after a space. `atStart` says whether the previous character was a
      space (or there was none). */
  function WordStarts(s: string, atStart: bool): string
  {
    if |s| == 0 then ""
    else (if atStart && s[0] != ' ' then [s[0]] else "") + WordStarts(s[1..], s[0] == ' ')
  }

  /** The first characters of the split pieces are the word-start
      characters of the string. */
  lemma {:induction false} FirstsAreWordStarts(s: string)
    ensures Firsts(SplitSpaces(s)) == WordStarts(s, true)
    ensures Firsts(SplitSpaces(s)[1..]) == WordStarts(s, false)
  {
    if |s| > 0 {
      var rest := SplitSpaces(s[1..]);
      FirstsAreWordStarts(s[1..]);
      if s[0] == ' ' {
        assert SplitSpaces(s)[1..] == rest;
      } else {
        var w := SplitSpaces(s);
        assert w[1..] == rest[1..];
        assert Firsts(w) == [s[0]] + Firsts(w[1..]);
      }
    }
  }

  /** `getInitials`: the upper-cased first characters of the space-separated
      words, in order, at most two of them. */
  function GetInitials(name: string): (r: string)
    ensures var starts := ToUpper(WordStarts(name, true));
            r == starts[..if |starts| < 2 then |starts| else 2]
    ensures |r| <= 2
  {
    FirstsAreWordStarts(name);
    var all := ToUpper(Firsts(SplitSpaces(name)));
    all[..if |all| < 2 then |all| else 2]
  }

  // ---------------------------------------------------------------- badge colors

  const DefaultBadge := "bg-gray-100 text-gray-800"

  const AccountColors: map<string, string> := map[
    "Checking" := "bg-blue-100 text-blue-800",
    "Savings" := "bg-green-100 text-green-800",
    "Investment" := "bg-purple-100 text-purple-800",
    "Credit" := "bg-red-100 text-red-800",
    "Loan" := "bg-orange-100 text-orange-800",
    "Cash" := "bg-gray-100 text-gray-800",
    "Bank" := "bg-indigo-100 text-indigo-800",
    "Brokerage" := "bg-pink-100 text-pink-800",
    "Debt" := "bg-red-100 text-red-800"]

  const TransactionColors: map<string, string> := map["INCOME" := "text-success-600", "EXPENSE" := "text-danger-600"]

  const CategoryColors: map<string, string> := map[
    "Income" := "bg-success-100 text-success-800",
    "Expense" := "bg-danger-100 text-danger-800"]

  /** `colors[key] || fallback`. */
  function Lookup(colors: map<string, string>, key: string, fallback: string): string
  {
    if key in colors && colors[key] != "" then colors[key] else fallback
  }

  /** `getAccountTypeColor`: the nine listed account types have their own
      badge; every other string gets the gray default. */
  function AccountTypeColor(t: string): (r: string)
    ensures t in AccountColors.Keys ==> r == AccountColors[t]
    ensures t !in AccountColors.Keys ==> r == DefaultBadge
  {
    Lookup(AccountColors, t, DefaultBadge)
  }

  /** `getTransactionTypeColor`: green for income, red for expense, gray
      otherwise (transfers included). */
  function TransactionTypeColor(t: string): (r: string)
    ensures t == "INCOME" ==> r == "text-success-600"
    ensures t == "EXPENSE" ==> r == "text-danger-600"
    ensures t != "INCOME" && t != "EXPENSE" ==> r == "text-gray-600"
  {
    Lookup(TransactionColors, t, "text-gray-600")
  }

  /** `getCategoryTypeColor`. */
  function CategoryTypeColor(t: string): (r: string)
    ensures t == "Income" ==> r == "bg-success-100 text-success-800"
    ensures t == "Expense" ==> r == "bg-danger-100 text-danger-800"
    ensures t != "Income" && t != "Expense" ==> r == DefaultBadge
  {
    Lookup(CategoryColors, t, DefaultBadge)
  }

  // ---------------------------------------------------------------- e-mail pattern

  /** A character `[^\s@]` admits. */
  predicate Plain(c: char)
  {
    !IsWhitespace(c) && c != '@'
  }

  predicate AllPlain(s: string)
  {
    forall i :: 0 <= i < |s| ==> Plain(s[i])
  }

  /** Index of the first `c` in `s`, or `|s|`. */
  function IndexOf(s: string, c: char): (k: nat)
    ensures k <= |s|
    ensures k < |s| ==> s[k] == c
    ensures forall i :: 0 <= i < k ==> s[i] != c
  {
    if |s| == 0 then 0
    else if s[0] == c then 0
    else 1 + IndexOf(s[1..], c)
  }

  /** `validateEmail`, read as a scan: no whitespace, a first '@' after at
      least one character and no other '@', and a '.' strictly inside the
      part after the '@'. */
  predicate ValidateEmail(s: string)
  {
    var p := IndexOf(s, '@');
    && (forall i :: 0 <= i < |s| ==> !IsWhitespace(s[i]))
    && 0 < p < |s|
    && (forall i :: p < i < |s| ==> s[i] != '@')
    && var t := s[p + 1..];
       |t| >= 3 && '.' in t[1..|t| - 1]
  }

  /** The regular expression `^[^\s@]+@[^\s@]+\.[^\s@]+$`, as a split of the
      string into three runs of plain characters joined by '@' and '.'. */
  predicate MatchesEmailPattern(s: string)
  {
    exists p, q :: 0 < p && p + 1 < q && q + 1 < |s| && s[p] == '@' && s[q] == '.'
                   && AllPlain(s[..p]) && AllPlain(s[p + 1..q]) && AllPlain(s[q + 1..])
  }

  /** The scan accepts exactly the strings the pattern matches. */
  lemma ValidateEmailIsPattern(s: string)
    ensures ValidateEmail(s) <==> MatchesEmailPattern(s)
  {
    if ValidateEmail(s) {
      ScanMatches(s);
    }
    if MatchesEmailPattern(s) {
      var p, q :| 0 < p && p + 1 < q && q + 1 < |s| && s[p] == '@' && s[q] == '.'
                  && AllPlain(s[..p]) && AllPlain(s[p + 1..q]) && AllPlain(s[q + 1..]);
      PatternScans(s, p, q);
    }
  }

  lemma ScanMatches(s: string)
    requires ValidateEmail(s)
    ensures MatchesEmailPattern(s)
  {
    var p := IndexOf(s, '@');
    var t := s[p + 1..];
    var j :| 0 <= j < |t[1..|t| - 1]| && t[1..|t| - 1][j] == '.';
    var q := p + 2 + j;
    assert s[q] == '.';
    assert AllPlain(s[..p]);
    assert AllPlain(s[p + 1..q]);
    assert AllPlain(s[q + 1..]);
  }

  lemma PatternScans(s: string, p: nat, q: nat)
    requires 0 < p && p + 1 < q && q + 1 < |s| && s[p] == '@' && s[q] == '.'
    requires AllPlain(s[..p]) && AllPlain(s[p + 1..q]) && AllPlain(s[q + 1..])
    ensures ValidateEmail(s)
  {
    assert forall i :: 0 <= i < p ==> s[i] == s[..p][i];
    assert forall i :: p < i < q ==> s[i] == s[p + 1..q][i - p - 1];
    assert forall i :: q < i < |s| ==> s[i] == s[q + 1..][i - q - 1];
    assert forall i :: 0 <= i < |s| ==> !IsWhitespace(s[i]);
    assert IndexOf(s, '@') == p;
    var t := s[p + 1..];
    assert t[1..|t| - 1][q - p - 2] == '.';
  }

  // ---------------------------------------------------------------- grouping by day

  datatype DayGroup<T> = DayGroup(date: Date, transactions: seq<T>)

  function OnDay<T>(dateOf: T -> Date, d: Date): T -> bool
  {
    (t: T) => dateOf(t) == d
  }

  /** The days in order of first appearance: the key order the `reduce`
      builds its object in. */
  function DaysSeen<T>(txs: seq<T>, dateOf: T -> Date): (days: seq<Date>)
    ensures Distinct(days)
    ensures forall d :: d in days <==> exists k :: 0 <= k < |txs| && dateOf(txs[k]) == d
  {
    if |txs| == 0 then []
    else
      var init := txs[..|txs| - 1];
      var days := DaysSeen(init, dateOf);
      var d := dateOf(txs[|txs| - 1]);
      assert forall k :: 0 <= k < |init| ==> init[k] == txs[k];
      if d in days then days else days + [d]
  }

  /** Newest day first, each day once. */
  predicate Descending(days: seq<Date>)
  {
    forall i, j :: 0 <= i < j < |days| ==> Lt(days[j], days[i])
  }

  lemma LtTransitive(a: Date, b: Date, c: Date)
    requires Lt(a, b) && Lt(b, c)
    ensures Lt(a, c)
  {
  }

  function InsertDescending(d: Date, days: seq<Date>): (r: seq<Date>)
    requires Descending(days) && d !in days
    ensures Descending(r)
    ensures forall x :: x in r <==> x == d || x in days
  {
    if |days| == 0 then [d]
    else if Lt(days[0], d) then
      assert forall j :: 0 <= j < |days| ==> Lt(days[j], d) by {
        forall j | 0 < j < |days| ensures Lt(days[j], d) {
          LtTransitive(days[j], days[0], d);
        }
      }
      [d] + days
    else
      LeTotal(d, days[0]);
      var rest := InsertDescending(d, days[1..]);
      assert forall x :: x in rest ==> Lt(x, days[0]);
      [days[0]] + rest
  }

  /** `sort((a, b) => b - a)` on the distinct day keys. */
  function SortDescending(days: seq<Date>): (r: seq<Date>)
    requires Distinct(days)
    ensures Descending(r)
    ensures forall x :: x in r <==> x in days
  {
    if |days| == 0 then []
    else
      assert forall i :: 1 <= i < |days| ==> days[i] != days[0];
      InsertDescending(days[0], SortDescending(days[1..]))
  }

  /** `groupTransactionsByDate`: one group per day, newest day first, each
      holding that day's transactions in input order. */
  function GroupTransactionsByDate<T>(txs: seq<T>, dateOf: T -> Date): (r: seq<DayGroup<T>>)
    ensures forall i, j :: 0 <= i < j < |r| ==> Lt(r[j].date, r[i].date)
    ensures forall k :: 0 <= k < |txs| ==> exists i :: 0 <= i < |r| && r[i].date == dateOf(txs[k])
    ensures forall i :: 0 <= i < |r| ==> |r[i].transactions| > 0
                                         && r[i].transactions == Filter(txs, OnDay(dateOf, r[i].date))
  {
    var seen := DaysSeen(txs, dateOf);
    var days := SortDescending(seen);
    var r := seq(|days|, i requires 0 <= i < |days| => DayGroup(days[i], Filter(txs, OnDay(dateOf, days[i]))));
    forall k | 0 <= k < |txs|
      ensures exists i :: 0 <= i < |r| && r[i].date == dateOf(txs[k])
    {
      assert dateOf(txs[k]) in seen;
      DayListed(days, r, dateOf(txs[k]));
    }
    forall i | 0 <= i < |r|
      ensures |r[i].transactions| > 0
    {
      assert days[i] in seen;
      DayGroupNonEmpty(txs, dateOf, days[i]);
    }
    r
  }

  /** A listed day has its group. */
  lemma DayListed<T>(days: seq<Date>, r: seq<DayGroup<T>>, d: Date)
    requires d in days
    requires |r| == |days| && forall i :: 0 <= i < |r| ==> r[i].date == days[i]
    ensures exists i :: 0 <= i < |r| && r[i].date == d
  {
    var j :| 0 <= j < |days| && days[j] == d;
    assert r[j].date == d;
  }

  /** A day that some transaction falls on has a non-empty group. */
  lemma DayGroupNonEmpty<T>(txs: seq<T>, dateOf: T -> Date, d: Date)
    requires d in DaysSeen(txs, dateOf)
    ensures |Filter(txs, OnDay(dateOf, d))| > 0
  {
    var k :| 0 <= k < |txs| && dateOf(txs[k]) == d;
    FilterKeeps(txs, OnDay(dateOf, d));
    assert txs[k] in Filter(txs, OnDay(dateOf, d));
  }

  /** The groups' transactions, concatenated. */
  function Flatten<T>(groups: seq<DayGroup<T>>): seq<T>
  {
    if |groups| == 0 then [] else groups[0].transactions + Flatten(groups[1..])
  }

  /** Every transaction lands in exactly one group: the groups together hold
      the input, each element as often as it occurs there. */
  lemma GroupingIsPartition<T>(txs: seq<T>, dateOf: T -> Date)
    ensures multiset(Flatten(GroupTransactionsByDate(txs, dateOf))) == multiset(txs)
  {
    var r := GroupTransactionsByDate(txs, dateOf);
    var days := seq(|r|, i requires 0 <= i < |r| => r[i].date);
    assert Distinct(days);
    FlattenIsFilter(r, txs, dateOf, days);
    assert forall k :: 0 <= k < |txs| ==> OnDays(dateOf, days)(txs[k]);
    FilterAll(txs, OnDays(dateOf, days));
  }

  function OnDays<T>(dateOf: T -> Date, days: seq<Date>): T -> bool
  {
    (t: T) => dateOf(t) in days
  }

  lemma FlattenIsFilter<T>(groups: seq<DayGroup<T>>, txs: seq<T>, dateOf: T -> Date, days: seq<Date>)
    requires |days| == |groups| && Distinct(days)
    requires forall i :: 0 <= i < |groups| ==> groups[i].date == days[i]
                                               && groups[i].transactions == Filter(txs, OnDay(dateOf, days[i]))
    ensures multiset(Flatten(groups)) == multiset(Filter(txs, OnDays(dateOf, days)))
  {
    FlattenIsDayFilters(groups, txs, dateOf, days);
    DayFiltersAreFilter(txs, dateOf, days);
  }

  /** Each day's filter of `txs`, one day after another. */
  function DayFilters<T>(txs: seq<T>, dateOf: T -> Date, days: seq<Date>): seq<T>
  {
    if |days| == 0 then [] else Filter(txs, OnDay(dateOf, days[0])) + DayFilters(txs, dateOf, days[1..])
  }

  lemma {:induction false} FlattenIsDayFilters<T>(groups: seq<DayGroup<T>>, txs: seq<T>, dateOf: T -> Date, days: seq<Date>)
    requires |days| == |groups|
    requires forall i :: 0 <= i < |groups| ==> groups[i].transactions == Filter(txs, OnDay(dateOf, days[i]))
    ensures Flatten(groups) == DayFilters(txs, dateOf, days)
  {
    if |groups| > 0 {
      var tail, rest := groups[1..], days[1..];
      assert forall i :: 0 <= i < |tail| ==> tail[i] == groups[i + 1] && rest[i] == days[i + 1];
      FlattenIsDayFilters(tail, txs, dateOf, rest);
    }
  }

  /** With no day listed twice, the day filters together hold the rows on
      any listed day, each as often as it occurs. */
  lemma {:induction false} DayFiltersAreFilter<T>(txs: seq<T>, dateOf: T -> Date, days: seq<Date>)
    requires Distinct(days)
    ensures multiset(DayFilters(txs, dateOf, days)) == multiset(Filter(txs, OnDays(dateOf, days)))
  {
    if |days| > 0 {
      var rest := days[1..];
      TailDistinct(days);
      DayFiltersAreFilter(txs, dateOf, rest);
      FilterDisjointUnion(txs, dateOf, days[0], rest);
      assert days == [days[0]] + rest;
    } else {
      FilterNone(txs, OnDays(dateOf, days));
    }
  }

  /** Dropping the head of a list without repeats leaves a list without
      repeats that does not contain the head. */
  lemma TailDistinct<T>(xs: seq<T>)
    requires |xs| > 0 && Distinct(xs)
    ensures Distinct(xs[1..]) && xs[0] !in xs[1..]
  {
    var rest := xs[1..];
    assert forall i :: 0 <= i < |rest| ==> rest[i] == xs[i + 1];
  }

  /** Filtering by a test nothing passes keeps nothing. */
  lemma {:induction false} FilterNone<T>(xs: seq<T>, p: T -> bool)
    requires forall k :: 0 <= k < |xs| ==> !p(xs[k])
    ensures Filter(xs, p) == []
  {
    if |xs| > 0 {
      FilterNone(xs[..|xs| - 1], p);
    }
  }

  /** Filtering by "on day d or on one of `rest`", with d not in `rest`,
      splits into the two filters. */
  lemma {:induction false} FilterDisjointUnion<T>(txs: seq<T>, dateOf: T -> Date, d: Date, rest: seq<Date>)
    requires d !in rest
    ensures multiset(Filter(txs, OnDays(dateOf, [d] + rest)))
            == multiset(Filter(txs, OnDay(dateOf, d))) + multiset(Filter(txs, OnDays(dateOf, rest)))
  {
    if |txs| > 0 {
      FilterDisjointUnion(txs[..|txs| - 1], dateOf, d, rest);
    }
  }

  /** Filtering by a test every element passes keeps everything. */
  lemma {:induction false} FilterAll<T>(xs: seq<T>, p: T -> bool)
    requires forall k :: 0 <= k < |xs| ==> p(xs[k])
    ensures Filter(xs, p) == xs
  {
    if |xs| > 0 {
      FilterAll(xs[..|xs| - 1], p);
    }
  }
}
